=== FILE: README.md ===
# Poker hands, prime sieves and small integer helpers, in Dafny

This project models three parts of a small collection of Project Euler
solutions, written once in C++ and once in Python 2, and proves what they
compute.

- **The poker-hand evaluator** (`cxx/cards.cxx`, `python/cards.py`).
  - A hand of five two-character cards is parsed. In C++ this is a
    three-state character scanner followed by a sort; in Python the
    caller's list is sorted in place.
  - The hand is grouped into run-lengths of equal denominations.
  - Nine priority-ordered predicates rank it: royal flush, straight flush,
    four of a kind, full house, flush, straight, three of a kind, two
    pairs, one pair.
  - Hands of equal value are compared through their "scoring cards".
  - Both versions are modelled as written:
    - C++ scores 23..15.
    - Python scores 24..16.
    - The C++ `full_house` is built on comma operators, so only
      `stretch[0] == 3` decides it.
    - C++ `scoring_cards` returns nothing for the ungrouped scores.
    - Python `scoring_cards` groups by a score list that does not match its
      own numbering.
- **The growing prime sieves.**
  - C++ (`cxx/primes.cxx`, repeated in `cxx/firmitas_assignments.cxx`):
    - `primes_seq` strikes multiples with a strict `r < root` bound, so for
      example 9 survives `primes_seq(11)`.
    - The `primes` class has an append-only list and a cursor. Its
      `extend` takes the trial-division bound from the old last element,
      so it appends 9 after `[2, 3, 5, 7]`.
    - `is_prime` is a binary search.
    - `operator[]` can break the list's order.
    - `euler_50` is a prefix-sum and longest-window search.
  - Python `primes.py`: an exact sieve, `next_prime`, an `is_prime` that
    grows the sieve it is given, a `primes` generator, `odd_composite`
    and `factors`.
  - Python `pe_exercises.py`: trial division without a square-root
    cut-off, and a generator seeded with a hard-coded list that contains
    27.
- **Integer helpers.**
  - `fib`: Python counts from F1 = F2 = 1; the C++ loop is one step short.
  - `digits`.
  - `nub`: a heap-based sorted de-duplication.
  - `has_square`.

Where the source changes state, the model does too:

- Classes: `CardsPy.Hand`, `PrimesCxx.Primes`, `PrimesPy.Sieve`,
  `PrimesPy.PrimesGen`, `PeExercises.Sieve` and `PeExercises.PrimesGen`.
- Methods with loops and invariants, each proved against a specification
  function whose properties are proved as lemmas.

Pure code is modelled as datatypes, functions and lemmas. This covers the
C++ `hand`, whose fields never change after construction, and the
predicates.

Module layout:

| file | module | contents |
|---|---|---|
| `wrappers.dfy` | `Wrappers` | `Option` |
| `numbers.dfy` | `Numbers` | divisibility, primality, integer square root, Fibonacci numbers, sums and products |
| `sequences.dfy` | `Sequences` | run-lengths, counting, sorting by key, reversal, grouping |
| `cards_cxx.dfy` | `CardsCxx` | the C++ evaluator |
| `cards_py.dfy` | `CardsPy` | the Python evaluator |
| `primes_cxx.dfy` | `PrimesCxx` | the C++ sieve and `primes` class |
| `euler50.dfy` | `Euler50` | `euler_50` |
| `primes_py.dfy` | `PrimesPy` | `python/primes.py` |
| `pe_exercises.dfy` | `PeExercises` | the primes of `python/pe_exercises.py` |
| `combinatorics.dfy` | `Combinatorics` | `fib`, `digits`, `nub`, `has_square` |

## Model

| member | source | states |
|---|---|---|
| Numbers.FloorSqrt | cxx/primes.cxx:9 | The integer square root that replaces `(int)std::sqrt(n)`: its square is at most `n` and the next square exceeds it. |
| Numbers.FloorSqrtIs | python/primes.py:9 | The root is unique: any `r` with `r*r ≤ n < (r+1)*(r+1)` is `FloorSqrt(n)`. |
| Numbers.FloorSqrtMonotone | python/primes.py:21 | A larger number has at least as large a root. |
| Numbers.SmallPrimeDivisor | python/primes.py:17-27 | A composite number has a prime divisor at most its root, which is why trial division up to the root decides primality. |
| Numbers.Euclid | python/primes.py:92-102 | A prime dividing a product of two positive numbers divides one of them. |
| Numbers.PrimeInProduct | python/primes.py:92-102 | A prime dividing a product of primes is one of them. |
| Numbers.FibonacciMonotone | cxx/combinatorics.cxx:3-13 | Fibonacci numbers never decrease, so `fib` is non-decreasing in `n`. |
| Sequences.RunsOf | cxx/cards.cxx:46-60 | The run-lengths of equal adjacent values: never more runs than values, and some run exactly when there are values. |
| Sequences.RunsShape | cxx/cards.cxx:46-60 | Every run-length is at least 1, there is one value per run, and the last run's value is the last element. |
| Sequences.RunsSum | cxx/cards.cxx:46-60 | The run-lengths add up to the number of values. |
| Sequences.RunsMaximal | cxx/cards.cxx:50-57 | Neighbouring runs have different values: runs are maximal. |
| Sequences.RunsOfDistinct | python/cards.py:104-113 | Pairwise different neighbours give runs all of length 1. |
| Sequences.RunsRoundTrip | cxx/cards.cxx:46-60 | Expanding the run values by their lengths gives back the list. |
| Sequences.CountAll | python/cards.py:98-102 | A value occurs as often as the list is long exactly when every element is that value. |
| Sequences.Insert | python/cards.py:45 | Inserting adds exactly the one element: the result is one longer and has the multiset of the list plus the element. |
| Sequences.InsertSorted | python/cards.py:45 | Inserting into a list sorted by key keeps it sorted. |
| Sequences.SortBy | python/cards.py:45 | The sort result is sorted by key and a permutation of the input. |
| Sequences.SortByStable | python/cards.py:45 | The sort is stable: for every key, the elements with that key come out in their input order. |
| Sequences.Reverse | cxx/cards.cxx:160 | The reversal has the same length, with element `i` taken from position `n-1-i`. |
| Sequences.ReverseDescending | cxx/cards.cxx:140-162 | Reversing a list sorted ascending by key gives one sorted descending. |
| Sequences.GroupedFacts | cxx/cards.cxx:140-162 | The cards of runs longer than 1 keep their order, are drawn from the hand, and number the total of those run-lengths. |
| Sequences.GroupedWalk | cxx/cards.cxx:146-153 | The loop over the run-lengths with the card offset collects exactly the cards of the runs longer than 1, in order. |
| Sequences.RunsNext | cxx/cards.cxx:50-57 | One counter step: an element equal to its predecessor lengthens the last run, a different one opens a run of 1. |
| Sequences.LongRunsSingles | python/cards.py:153-169 | With all runs of length 1, no card is grouped. |
| CardsCxx.FindMeaning | cxx/cards.cxx:29 | `find` returns `npos` exactly when the character is absent, and otherwise the position of its first occurrence. |
| CardsCxx.FindDistinct | cxx/cards.cxx:22-29 | In a string of distinct characters, `find` of the character at `i` is `i`. |
| CardsCxx.DenomOfAt | cxx/cards.cxx:22-29 | The character at position `i` of `"123456789TJQKA"` has denomination `i + 1`. |
| CardsCxx.DenomOfOutside | cxx/cards.cxx:29 | A character outside the alphabet has denomination 0 (`npos + 1` wraps to 0). |
| CardsCxx.DenomOfExamples | cxx/cards.cxx:22-29 | '2' maps to 2, 'T' to 10, 'A' to 14, and 'X' and ' ' to 0. |
| CardsCxx.DenomOfRange | cxx/cards.cxx:29 | A denomination lies in 0..14. |
| CardsCxx.Normalize | cxx/cards.cxx:24 | The normalized string extends the raw one and ends with a space. |
| CardsCxx.Scan | cxx/cards.cxx:26-41 | The scanner commits one card per complete block of three characters. |
| CardsCxx.ScanSlots | cxx/cards.cxx:26-41 | The state-machine loop writing `result[place++]` fills the five slots with the scanned cards, then default cards. |
| CardsCxx.ParseCards | cxx/cards.cxx:18-44 | Five cards, a permutation of the padded scan, sorted ascending by denomination. |
| CardsCxx.ParseFiveCodes | cxx/cards.cxx:18-44 | For five two-character codes separated by single spaces, with or without a trailing space, parsing is defined and yields exactly those cards. |
| CardsCxx.JoinBlocks | cxx/cards.cxx:24 | Five codes joined by spaces, plus the trailing space, are five blocks of three characters. |
| CardsCxx.GroupStep | cxx/cards.cxx:50-57 | One pass of the counter loop keeps the finished runs and the counter equal to the runs of the denominations read so far. |
| CardsCxx.GroupCards | cxx/cards.cxx:46-60 | The counter loop yields the run-lengths of the denominations; on no cards it yields `[1]`. |
| CardsCxx.MakeHand | cxx/cards.cxx:68-70 | The constructed hand holds the parsed cards, sorted, and their run-lengths. |
| CardsCxx.Hand.StretchShape | cxx/cards.cxx:46-60 | The stretch has one to five positive entries adding up to 5. |
| CardsCxx.Hand.FlushMeaning | cxx/cards.cxx:92-97 | `flush()` holds exactly when every suit equals the first card's suit. |
| CardsCxx.Hand.StraightSingleRuns | cxx/cards.cxx:99-106 | A straight has five runs of length 1. |
| CardsCxx.Hand.ValueFirst | cxx/cards.cxx:119-138 | The first predicate `t` that holds gives the value `23 - t`. |
| CardsCxx.Hand.ValueHighCard | cxx/cards.cxx:119-138 | With no predicate holding, the value is the top card's denomination. |
| CardsCxx.Hand.FirstCombination | cxx/cards.cxx:119-138 | Every hand has a first holding predicate or none, and its value is the one that choice gives. |
| CardsCxx.IsStraight | cxx/cards.cxx:99-106 | The loop of `straight()` holds exactly when every denomination is its predecessor's plus one. |
| CardsCxx.ComputeValue | cxx/cards.cxx:119-138 | The loop over the nine predicates returns `value()`. |
| CardsCxx.FullHouseOrder | cxx/cards.cxx:84-90 | Stretch `[3,2]` is a full house (value 20). Stretch `[2,3]` is not: it is three of a kind, with value 17, or 19 when it is also a flush. |
| CardsCxx.ShapeTotals | cxx/cards.cxx:140-162 | For every stretch summing to 5, the grouped-card count matches the counts of pairs, threes and fours. |
| CardsCxx.ScoringLength | cxx/cards.cxx:140-162 | The number of scoring cards: 2 for one pair, 4 for two pairs, 3 or 5 for three of a kind, 5 for a full house, 4 for four of a kind, and 0 (the `reserve` branch) for every other value. |
| CardsCxx.ScoringDescending | cxx/cards.cxx:140-162 | Scoring cards come in non-increasing denomination order. |
| CardsCxx.ScoringCardsOf | cxx/cards.cxx:140-162 | The `resize`/`copy`/`reverse` code returns the scoring cards. |
| CardsCxx.FirstDiff | cxx/cards.cxx:164-174 | 0 exactly when all positions agree; otherwise the difference at the first position that differs. |
| CardsCxx.BreakTie | cxx/cards.cxx:164-174 | The `break_tie` loop returns that first difference, defined when the other hand has at least as many scoring cards. |
| CardsCxx.FirstDiffAntisymmetric | cxx/cards.cxx:164-174 | On equal lengths, swapping the hands negates the result. |
| CardsCxx.GreaterIrreflexive | cxx/cards.cxx:176-181 | No hand beats itself. |
| CardsCxx.GreaterAsymmetric | cxx/cards.cxx:176-181 | With equal-length scoring cards at equal value, no two hands beat each other. |
| CardsCxx.GreaterByValue | cxx/cards.cxx:176-181 | A higher value wins; a winner never has a lower value. |
| CardsCxx.UngroupedDraw | cxx/cards.cxx:176-181 | Equal values without scoring cards (flushes, straights, high cards...) always draw. |
| CardsCxx.CombinationBeatsHighCard | cxx/cards.cxx:119-138 | Any combination (15..23) beats any high card (at most 14). |
| CardsCxx.ThreeKingsScore | cxx/cards.cxx:140-162 | Three kings with two singles score 17 and have the three kings as scoring cards. |
| CardsCxx.KingsOverTwosScore | cxx/cards.cxx:140-162 | Two twos under three kings (stretch `[2,3]`) also score 17, with all five cards as scoring cards. |
| CardsCxx.TieBreakPastEnd | cxx/cards.cxx:164-174 | Comparing those two hands makes `break_tie` read past the end of the shorter scoring vector. |
| CardsPy.Denom | python/cards.py:18-32 | `denom` is defined exactly for a first character in `TJQKA` or a digit, and lies in 0..14. |
| CardsPy.DenomExamples | python/cards.py:18-32 | 'T'..'A' map to 10..14 and digits to their value; 'X' and the empty string have none. |
| CardsPy.CardsCmp | python/cards.py:3-16 | `cards_cmp` returns the difference of the two denominations. |
| CardsPy.FirstChars | python/cards.py:61-62 | On well-formed cards, two compared characters are equal exactly when the cards have the same denomination, so the runs are runs of equal denominations. |
| CardsPy.Runs | python/cards.py:54-66 | Positive run-lengths adding up to the card count, non-empty exactly when there are cards. |
| CardsPy.ConcatTwoChars | python/cards.py:102 | Joining two-character cards puts card `i` at positions `2i` and `2i+1`. |
| CardsPy.FlushMeaning | python/cards.py:98-102 | The regular expression `.(.)(.\1){4}` matches the joined hand exactly when all five suits are equal (and not a newline, which `.` does not match). |
| CardsPy.ValueSkip | python/cards.py:135-151 | Predicates that fail do not change the value. |
| CardsPy.ValueFirst | python/cards.py:135-151 | The first predicate `t` that holds gives `24 - t`. |
| CardsPy.ValueHighCard | python/cards.py:135-151 | With none holding, the value is the top card's denomination. |
| CardsPy.ValueRange | python/cards.py:135-151 | The value lies in 0..24 and is never 15; it is at least 16 exactly when some combination holds. |
| CardsPy.FullHouseMeaning | python/cards.py:89-96 | `full_house` holds exactly when the stretches are `[2,3]` or `[3,2]`. |
| CardsPy.TwoPairsMeaning | python/cards.py:121-127 | `two_pairs` holds exactly when two stretches are 2. |
| CardsPy.FourRuns | python/cards.py:54-66 | Four equal cards then a different one give stretches `[4, 1]`. |
| CardsPy.FourOfAKindValue | python/cards.py:135-151 | Such a hand scores 22. |
| CardsPy.FourOfAKindKicker | python/cards.py:153-192 | Because 22 is not a grouped score, four threes with a king lose to four twos with an ace. |
| CardsPy.PairlessFlushValue | python/cards.py:135-151 | A flush without pairs or straight scores 20 with five single runs. |
| CardsPy.PairlessFlushesTie | python/cards.py:153-209 | Two such flushes with every denomination different still compare equal: 20 groups no cards. |
| CardsPy.SinglesTie | python/cards.py:153-209 | Any two equal-valued hands with grouped scores and only single runs compare equal. |
| CardsPy.TopCardDecides | python/cards.py:153-192 | For an ungrouped score, the higher top card wins. |
| CardsPy.ScoringDescending | python/cards.py:153-169 | Scoring cards are drawn from the hand in non-increasing order, all five for an ungrouped score. |
| CardsPy.ZipDiffMeaning | python/cards.py:171-183 | The `zip` loop returns 0 exactly when the common prefix agrees, and otherwise the first difference. |
| CardsPy.ZipDiffAntisymmetric | python/cards.py:171-183 | Swapping the lists negates the result. |
| CardsPy.TieDiffAntisymmetric | python/cards.py:171-183 | For hands of equal value that have both been evaluated, as every comparison operator does first, `a.break_tie(b) == -b.break_tie(a)`. |
| CardsPy.Trichotomy | python/cards.py:185-209 | Exactly one of `a < b`, `a == b`, `a > b` holds. |
| CardsPy.OperatorsAgree | python/cards.py:185-227 | `==` is symmetric, `<=` is `<` or `==`, `>` is the negation of `<=`, and `>=` the negation of `<`. |
| CardsPy.RunsStep | python/cards.py:59-65 | One step of the stretch loop keeps the stretches of the prefix read so far. |
| CardsPy.ZipWalk | python/cards.py:179-183 | The loop returns the zip difference. |
| CardsPy.TieFromState | python/cards.py:171-183 | The state-based `break_tie` equals the pure tie-break `TieDiff`. At values ≥ 23 this holds whether or not the run-lengths are filled. Below 23 it needs both hands' run-lengths filled, as they are once both hands have been evaluated. |
| CardsPy.Hand.constructor | python/cards.py:40-52 | Sorts the caller's array in place by denomination and keeps that same array, with no stretches and no cached value. |
| CardsPy.Hand.NOfAKind | python/cards.py:54-66 | Fills the stretches once with the run-lengths and reports whether `n` is among them. |
| CardsPy.Hand.Straight | python/cards.py:104-113 | Holds exactly when each denomination is its predecessor's plus one. |
| CardsPy.Hand.Flush | python/cards.py:98-102 | Holds exactly when all five suits are equal and the first suit is not a newline, which the pattern's `.` does not match. |
| CardsPy.Hand.StraightFlush | python/cards.py:75-80 | A straight that is a flush. |
| CardsPy.Hand.RoyalFlush | python/cards.py:68-73 | A straight flush starting at a ten. |
| CardsPy.Hand.FourOfAKind | python/cards.py:82-87 | Some stretch is 4; the stretches are filled in. |
| CardsPy.Hand.FullHouse | python/cards.py:89-96 | The stretches are `[2,3]` or `[3,2]`. |
| CardsPy.Hand.ThreeOfAKind | python/cards.py:115-119 | Some stretch is 3. |
| CardsPy.Hand.TwoPairs | python/cards.py:121-127 | Two stretches are 2. |
| CardsPy.Hand.OnePair | python/cards.py:129-133 | Some stretch is 2. |
| CardsPy.Hand.Handler | python/cards.py:46-49 | Handler `t` answers predicate `t` in handler order. The two flush handlers leave the run-lengths alone; the others leave them filled. |
| CardsPy.Hand.Value | python/cards.py:135-151 | Returns and caches the hand's value. It fills the run-lengths when the value is below 23. It leaves them as they were when already filled or when the value is 23 or more. |
| CardsPy.Hand.ScoringCards | python/cards.py:153-169 | Returns the grouped cards for scores 15, 16, 17, 20 and 21 and the whole hand otherwise, reversed. |
| CardsPy.Hand.BreakTie | python/cards.py:171-183 | The first difference between the hand's scoring cards and the other hand's scoring cards, both taken at the hand's own value; the other hand's cards come from its run-lengths as they stand. The hand itself ends evaluated, with its run-lengths left as they were when already filled or when the value is 23 or more. The other hand is not touched. |
| CardsPy.Hand.Less | python/cards.py:185-192 | `a < b` by value, then by `break_tie < 0`. Both hands end evaluated: the cache holds each value, the run-lengths are filled when the value is below 23, and the run-lengths are left as they were when already filled or when the value is 23 or more. |
| CardsPy.Hand.LessOrEqual | python/cards.py:194-201 | `a <= b` by value, then by `break_tie <= 0`. Both hands end evaluated: the cache holds each value, the run-lengths are filled when the value is below 23, and the run-lengths are left as they were when already filled or when the value is 23 or more. |
| CardsPy.Hand.Equal | python/cards.py:203-209 | Equal values and a zero `break_tie`. Both hands end evaluated: the cache holds each value, the run-lengths are filled when the value is below 23, and the run-lengths are left as they were when already filled or when the value is 23 or more. |
| CardsPy.Hand.NotEqual | python/cards.py:211-215 | The negation of `==`. Both hands end evaluated: the cache holds each value, the run-lengths are filled when the value is below 23, and the run-lengths are left as they were when already filled or when the value is 23 or more. |
| CardsPy.Hand.Greater | python/cards.py:217-221 | The negation of `<=`. Both hands end evaluated: the cache holds each value, the run-lengths are filled when the value is below 23, and the run-lengths are left as they were when already filled or when the value is 23 or more. |
| CardsPy.Hand.GreaterOrEqual | python/cards.py:223-227 | The negation of `<`. Both hands end evaluated: the cache holds each value, the run-lengths are filled when the value is below 23, and the run-lengths are left as they were when already filled or when the value is 23 or more. |
| PrimesCxx.SurvivorsMeaning | cxx/primes.cxx:21-23 | After `remove_if`, the list holds, ascending, exactly the survivors below the bound. |
| PrimesCxx.StruckMeaning | cxx/primes.cxx:13-19 | A number is struck by the roots below `r` exactly when it has a proper divisor below `r`. |
| PrimesCxx.SkipStruck | cxx/primes.cxx:14 | Skipping an already struck root strikes nothing new. |
| PrimesCxx.StrikeMultiples | cxx/primes.cxx:15-17 | Zeroes exactly the multiples `2r, 3r, ...` below the end and leaves everything else. |
| PrimesCxx.PrimesSeq | cxx/primes.cxx:7-24 | `primes_seq(n)` is the ascending list of survivors in 2..n-2: numbers with no proper divisor below `floor(sqrt(n))`. |
| PrimesCxx.PrimesSurvive | cxx/primes.cxx:13-20 | Every prime up to `n-2` survives. |
| PrimesCxx.SurvivorsPrimeBelowRootSquared | cxx/primes.cxx:9-13 | A survivor below the square of the root is prime. |
| PrimesCxx.NineSurvivesEleven | cxx/primes.cxx:9-13 | 9 survives `primes_seq(11)`, because the strict `r < root` never strikes with 3. |
| PrimesCxx.SurvivorsTen | cxx/primes.cxx:53 | `primes_seq(10)` is `[2, 3, 5, 7]`. |
| PrimesCxx.ScanDecides | cxx/primes.cxx:39-48 | The `for` loop stops at the first element above the root or dividing the candidate, and accepts exactly at the former. |
| PrimesCxx.NextCandidateUnique | cxx/primes.cxx:32-51 | The value `extend` appends is determined by the list. |
| PrimesCxx.OddLastExtendable | cxx/primes.cxx:32-51 | With an odd last element, `extend` terminates. |
| PrimesCxx.ExtendKeepsAscending | cxx/primes.cxx:32-51 | Appending the candidate keeps the list ascending. |
| PrimesCxx.Scan | cxx/primes.cxx:39-48 | Finds the element the inner loop stops at. |
| PrimesCxx.NextCandidate | cxx/primes.cxx:35-49 | The `while (!found)` loop returns the first odd-step candidate that is accepted. |
| PrimesCxx.ExtendAppendsNine | cxx/primes.cxx:34-49 | From `[2, 3, 5, 7]`, `extend` appends 9, which is not prime (the root comes from 7, not from the candidate). |
| PrimesCxx.EvenLastDiverges | cxx/primes.cxx:38-49 | From `[2]` it appends 4, and from `[2, 4]` it never returns. |
| PrimesCxx.BinarySearch | cxx/primes.cxx:65-67 | On an ascending list, the search finds `x` exactly when it is there. |
| PrimesCxx.WriteBreaksOrder | cxx/primes.cxx:71 | Writing through `operator[]` can break the ascending order that `is_prime` relies on. |
| PrimesCxx.Primes.Default | cxx/primes.cxx:53 | The default object holds `[2, 3, 5, 7]` with the cursor at 0. |
| PrimesCxx.Primes.constructor | cxx/primes.cxx:55 | Holds `primes_seq(n)` with the cursor at 0. |
| PrimesCxx.Primes.Extend | cxx/primes.cxx:32-51 | Appends exactly the next candidate, keeping earlier elements and the cursor. |
| PrimesCxx.Primes.Next | cxx/primes.cxx:57-63 | Returns `seq[pos]` and advances the cursor, extending exactly once first when the cursor is at the end; the cursor never passes the size. |
| PrimesCxx.Primes.IsPrime | cxx/primes.cxx:65-67 | Membership in the ascending list. |
| PrimesCxx.Primes.Size | cxx/primes.cxx:69 | The number of elements. |
| PrimesCxx.Primes.Get | cxx/primes.cxx:71 | Element `i`. |
| PrimesCxx.Primes.Set | cxx/primes.cxx:71 | Writes element `i`, nothing else. |
| Euler50.PrefixFirst | cxx/firmitas_assignments.cxx:125 | `sums[0]` is `ps[0]`. |
| Euler50.PrefixStep | cxx/firmitas_assignments.cxx:131 | Each prefix sum adds one element to the previous one. |
| Euler50.Top | cxx/firmitas_assignments.cxx:126-130 | `top` is the first index from 1 on whose prefix sum exceeds 1000000. |
| Euler50.WindowDifference | cxx/firmitas_assignments.cxx:135 | `sums[j] - sums[i]` is the sum of `ps[i+1..j]`. |
| Euler50.LongestWindowUnique | cxx/firmitas_assignments.cxx:133-141 | The longest, earliest accepted window is unique. |
| Euler50.PrefixSums | cxx/firmitas_assignments.cxx:125-132 | Fills the prefix sums below `top` and stops at the first overflow of the limit. |
| Euler50.ExcludedNext | cxx/firmitas_assignments.cxx:134-139 | Visiting one window keeps every earlier window that is longer than the best (or as long and earlier) a window whose sum is not in the list. |
| Euler50.WindowSearch | cxx/firmitas_assignments.cxx:133-141 | Returns nothing exactly when no window longer than one term is a listed prime, and otherwise the sum of the longest (earliest) such window. |
| Euler50.Euler50 | cxx/firmitas_assignments.cxx:118-143 | The same for the whole function. |
| PrimesPy.SieveExact | python/primes.py:11-13 | After striking with `i` up to the root, the numbers left in 2..n are exactly the primes. |
| PrimesPy.PrimesSeq | python/primes.py:4-15 | `primes_seq(n)` is exactly the primes from 2 to `n`, ascending. |
| PrimesPy.PrimesSeqComplete | python/primes.py:4-15 | That list holds every prime up to its last element. |
| PrimesPy.IsNextPrime | python/primes.py:17-27 | The loop answers the scan that stops above the root. |
| PrimesPy.PassesFromMeaning | python/primes.py:17-27 | On an ascending sieve, `is_next_prime` is True exactly when no element up to the root divides `n`. |
| PrimesPy.PrimePasses | python/primes.py:17-27 | A prime passes. |
| PrimesPy.PassesPrime | python/primes.py:17-27 | With every prime up to the root in the sieve, passing means prime. |
| PrimesPy.OddLastContinues | python/primes.py:53-62 | An odd last element lets `next_prime` return. |
| PrimesPy.EvenSeedDiverges | python/primes.py:53-77 | From `[2]` no candidate passes, so `primes(2)` never finishes. |
| PrimesPy.FirstPassing | python/primes.py:59-61 | The `while` loop finds the first even step that passes. |
| PrimesPy.FirstPassingIsNextPrime | python/primes.py:53-62 | On a list of the primes up to an odd last element, `next_prime` appends the next prime and the list stays complete. |
| PrimesPy.BisectLeft | python/primes.py:35 | The first position whose element is at least `x`. |
| PrimesPy.Lookup | python/primes.py:34-36 | Below the last element, the answer is membership. |
| PrimesPy.TrialScan | python/primes.py:38-42 | The `for` loop answers True above the root, False at a divisor, or falls through with every element up to the root failing to divide. |
| PrimesPy.GrowAndTest | python/primes.py:43-51 | The `while last < root` loop grows the list by `next_prime` and stops where `StopsAt` says: at once when the last element reaches the root, otherwise at the first appended element that reaches the root, equals `n` or divides `n`. A False verdict comes with an element dividing `n`, and a True one with no element up to the root dividing it. A complete list stays complete. |
| PrimesPy.VerdictIsPrimality | python/primes.py:29-51 | On a complete list, the verdicts `is_prime` draws are primality. |
| PrimesPy.IsPrimeIn | python/primes.py:29-51 | Below the last element the answer is membership. A False answer comes with an element dividing `n`, and a True one with no element up to the root dividing it. The sieve is unchanged when `n` is below its last element, when an element up to the root divides `n`, or when the last element reaches the root. Otherwise it grows as `StopsAt` says. On a sieve of every prime up to an odd last element ≥ 3, the answer is whether `n` is prime and the sieve stays complete. |
| PrimesPy.Sieve.constructor | python/primes.py:68 | Wraps a list. |
| PrimesPy.GrownComplete | python/primes.py:44-46 | Growing a list of every prime up to an odd last element by `next_prime` keeps it complete, and the last element never decreases. |
| PrimesPy.GrowthDetermined | python/primes.py:43-51 | Two lists grown from the same sieve by `next_prime` that both stop as the loop does are equal, so `StopsAt` fixes the sieve `is_prime` leaves. |
| PrimesPy.Sieve.NextPrime | python/primes.py:53-62 | Appends the first passing candidate, keeping earlier entries. |
| PrimesPy.Sieve.IsPrime | python/primes.py:29-51 | `is_prime` on the list in place: the verdicts and the new list of `PrimesPy.IsPrimeIn`, with the list unchanged or grown as `StopsAt` says. The verdict is primality on a sieve of every prime up to an odd last element ≥ 3. |
| PrimesPy.PrimesGen.constructor | python/primes.py:64-69 | Seeds the list with `primes_seq(n or 10)` and the count with 0. |
| PrimesPy.PrimesGen.Next | python/primes.py:70-75 | Yields `sieve[m]`, extending once when the list ran out, and advances `m`. |
| PrimesPy.NextValue | python/primes.py:70-75 | The `m`-th value yielded is the `m`-th prime. |
| PrimesPy.PrimesBefore | python/primes.py:70-75 | In a complete list, the primes below `s[k]` are exactly the ones before position `k`. |
| PrimesPy.OddCompositeAtLeastNine | python/primes.py:83 | Every odd composite is at least 9. |
| PrimesPy.NoPrimeBetween | python/primes.py:84-90 | Nothing strictly between consecutive listed primes is prime. |
| PrimesPy.YieldGap | python/primes.py:88-89 | The inner loop yields every odd number from `last` up to the next prime, and those are composite. |
| PrimesPy.OddComposites | python/primes.py:79-90 | After the first primes, `odd_composite` has yielded, ascending, exactly the odd composites from 9 below the last prime seen. |
| PrimesPy.NothingLeft | python/primes.py:97-98 | Once the next prime exceeds what is left and no smaller prime divides it, what is left is 1. |
| PrimesPy.DivideOut | python/primes.py:99-101 | The `while n % p == 0` loop appends `p` and divides it out until it no longer divides, keeping the product. |
| PrimesPy.FactorsRound | python/primes.py:97-101 | One turn of the outer loop keeps the product and primality of the factors. |
| PrimesPy.Factors | python/primes.py:92-102 | For `n ≥ 1`, a non-decreasing list of primes whose product is `n`; `[]` for `n ≤ 1`. |
| PeExercises.CoprimeFromMeaning | python/pe_exercises.py:34-37 | The scan answers True exactly when no element divides `n`. |
| PeExercises.IsPrimeAgainst | python/pe_exercises.py:30-37 | `is_prime` is True exactly when no sieve element divides `n`. |
| PeExercises.MemberNotCoprime | python/pe_exercises.py:30-37 | With no square-root cut-off, a non-zero element of the sieve is reported not prime. |
| PeExercises.CoprimeDecides | python/pe_exercises.py:30-37 | With all primes below `n` and only numbers in `2..n-1`, `is_prime` decides primality. |
| PeExercises.OddLastContinues | python/pe_exercises.py:39-48 | An odd last element lets `next_prime` return. |
| PeExercises.EvenSeedDiverges | python/pe_exercises.py:39-48 | From `[2]`, `next_prime` never returns. |
| PeExercises.FirstCoprime | python/pe_exercises.py:45-47 | The loop finds the first even step no element divides. |
| PeExercises.FirstCoprimeIsNextPrime | python/pe_exercises.py:39-48 | On a list holding every prime up to an odd last element, `next_prime` appends the next prime. |
| PeExercises.SeedFacts | python/pe_exercises.py:54 | The seed is ascending, holds every prime up to 27, and every element but 27 is prime. |
| PeExercises.AfterSeed | python/pe_exercises.py:54-61 | The first value appended to the seed is 29. |
| PeExercises.GrownStep | python/pe_exercises.py:39-48 | `next_prime` keeps the list the seed followed by primes, complete up to its odd last element. |
| PeExercises.NextValue | python/pe_exercises.py:56-61 | The `m`-th value yielded is the seed's `m`-th element (27 included), and after the seed a prime, with every smaller prime yielded before. |
| PeExercises.Sieve.NextPrime | python/pe_exercises.py:39-48 | Appends the first candidate no element divides, keeping earlier entries. |
| PeExercises.PrimesGen.constructor | python/pe_exercises.py:54-55 | The list is the seed and the count is 0. |
| PeExercises.PrimesGen.Next | python/pe_exercises.py:56-61 | Yields `sieve[m]`, extending once when the list ran out, and advances `m`. |
| Combinatorics.FibPy | python/pe_exercises.py:3-14 | `fib(n)` is 1 for `n ≤ 2` and F(n), with F1 = F2 = 1, for `n ≥ 1`. The same function is at python/combinatorics.py:5-16. |
| Combinatorics.FibCxx | cxx/combinatorics.cxx:3-13 | `fib(n)` is at least 1, 1 for `n ≤ 3`, and F(n-1) for `n ≥ 2`. |
| Combinatorics.DigitsOfValue | python/pe_exercises.py:16-28 | The digits of `k`, least significant first, are canonical and their value is `k`. |
| Combinatorics.FromDigitsDigits | python/pe_exercises.py:16-28 | Every canonical digit list is the digits of its value. |
| Combinatorics.Digits | python/pe_exercises.py:16-28 | `digits(n)` gives the digits of `abs(n)`, each in 0..9, with value `abs(n)`; `digits(0)` is `[0]`. The same function is at python/combinatorics.py:18-30. |
| Combinatorics.PopMin | python/combinatorics.py:40-42 | `heappop` removes and returns a minimum. |
| Combinatorics.NubNext | python/combinatorics.py:41-44 | One `heappop` step keeps the list strictly increasing, below every remaining heap value, and loses no value. |
| Combinatorics.Nub | python/combinatorics.py:33-45 | Fails on the empty list, and otherwise returns a strictly increasing list of exactly the values of `nums`. |
| Combinatorics.AscendingUnique | python/combinatorics.py:33-45 | Two strictly increasing lists with the same members are equal, so `nub` is determined by the values. |
| Combinatorics.Members | python/combinatorics.py:52 | The set of values of a list. |
| Combinatorics.MembersCount | python/combinatorics.py:52 | A list has at most as many distinct values as elements, and fewer exactly when some value repeats. |
| Combinatorics.RepeatIsSquare | python/combinatorics.py:47-52 | For a factorisation into primes of `n ≥ 2`, a repeated factor exists exactly when some `d ≥ 2` has `d*d` dividing `n`. |
| Combinatorics.HasSquare | python/combinatorics.py:47-52 | As written, `has_square(n)` fails for `n ≤ 1` and is True for every `n ≥ 2`. |
| Combinatorics.SixSquareFree | python/combinatorics.py:47-52 | `has_square(6)` is True though 6 has no square factor. |
| Combinatorics.HasSquareFactor | python/combinatorics.py:47-52 | With `len(facts)`, the result is True exactly when `n` has a square factor `d*d` with `d ≥ 2`. |

## Left out

- Floating square roots (`(int)std::sqrt`, `int(math.sqrt(n))`) are replaced by the exact integer root `Numbers.FloorSqrt`.
  - Rounding errors of the floating root are not modelled.
- Integer widths:
  - C++ `int` and `size_t` are unbounded integers, so overflow of the sieve and of `euler_50` is not modelled.
  - The `unsigned char` counter of `group_cards` is kept in range by the `|cards| < 256` bound of `CardsCxx.GroupCards`.
  - `npos + 1` wrapping to 0 is modelled explicitly.
- Library calls are replaced by their meaning:
  - `std::sort` and `list.sort(cards_cmp)` by an insertion sort on the key (`Sequences.SortBy`), stable as `Sequences.SortByStable` proves.
  - `std::binary_search` and `bisect_left` by searches on an ascending list.
  - `re.match` by its meaning on two-character cards (`CardsPy.FlushMeaning`).
  - `heapq` by a multiset from which a minimum is removed.
  - gmp `mpz_class` by `int`.
- Undefined behaviour:
  - `parse_cards` on an empty string or on more than five codes writes out of bounds. `CardsCxx.ParseCards` requires at most five codes and a non-empty input.
  - The `std::copy` past `size()` in the default branch of `scoring_cards` is modelled by its observable result, an empty vector.
  - `break_tie` reading past the end of the shorter vector is a precondition of `CardsCxx.BreakTie`; `CardsCxx.TieBreakPastEnd` shows two hands that reach it.
  - `PrimesCxx.PrimesSeq` requires `n ≥ 3`: for smaller `n`, the write to `result[1]` is out of bounds.
- `euler_50` with an uninitialised `top` is excluded by `Euler50.HasTop`.
  - Its uninitialised `max_prime` is modelled by `None`.
- Loops that never end:
  - On an ascending list that starts with 2 and ends with an even element, both Python `next_prime`s never return, because 2 divides every candidate. `primes(2)`, whose list is `[2]`, never returns for the same reason. The C++ `extend` never returns on such a list when its last element is at least 4. On `[2]` it appends 4, because 2 already exceeds the root 1, and it then never returns on `[2, 4]`. An even last element alone is not enough: from `[4]` all three append 6. The model requires what makes them return (`PrimesCxx.Extendable`, `PrimesPy.Continues`, `PeExercises.Continues`).
  - It shows the divergence separately: `PrimesCxx.EvenLastDiverges`, `PrimesPy.EvenSeedDiverges`, `PeExercises.EvenSeedDiverges`.
- Python generators:
  - They are modelled as cursor classes whose `Next` is one resumption.
  - `StopIteration` is the `More()` predicate.
  - `odd_composite` is modelled as the values yielded after a finite prefix of `primes()` (`PrimesPy.OddComposites`), not as an infinite stream.
  - `factors` keeps the generator's list and count as local state in `PrimesPy.Factors`.
- Python exceptions:
  - `ZeroDivisionError` in the Python `is_prime` is excluded by a non-zero-elements precondition.
  - `IndexError` from `heappop` on an empty list is the `None` result of `Combinatorics.Nub`.
  - `ValueError` from `int()` on a card is the `None` of `CardsPy.Denom`.
- PrimesPy.IsPrimeIn: states primality only for sieves that list every prime up to their last element. On other sieves it states the evidence behind the verdict, which is not primality (for example, a sieve missing 3 lets 9 through).
- PrimesPy.PrimesSeq: requires `n ≥ 0`. For negative `n`, `math.sqrt` raises `ValueError` (python/primes.py:9), and that error path is not modelled.
- PrimesPy.IsNextPrime: requires `n ≥ 0`, for the same `math.sqrt` reason (python/primes.py:21).
- PrimesPy.PrimesGen.constructor: requires `Bound(n) ≥ 0`. A negative `n` reaches the `ValueError` of `primes_seq`, which is not modelled.
- PrimesPy.PrimesGen.Next: requires an unread value or an odd last element. So it does not model `primes(1)`, whose empty list makes `sieve[0]` and then `next_prime([])` raise `IndexError` (python/primes.py:59, 72-75). It also does not model `primes(2)`, whose even last element makes `next_prime` diverge.
- PrimesCxx.Primes.Extend: relies on `PrimesCxx.Extendable`, which requires a non-empty list. So it does not model `primes(3)`, whose empty list makes `extend` read `seq[seq.size() - 1]` out of bounds (cxx/primes.cxx:33, 55, 61).
- PrimesPy.GrowAndTest: states primality of its verdict only through `PrimesPy.VerdictIsPrimality`, on complete lists. On other lists a True verdict means only that no element up to the root divides `n` (for example, from `[5]` the number 111 = 3 · 37 passes).
- PrimesPy.Sieve.IsPrime: states primality only on complete sieves, like `PrimesPy.IsPrimeIn`.
- CardsCxx.GroupCards: states the run-lengths only below 256 cards, where the `unsigned char` counter does not wrap.
- PrimesPy.OddComposites: covers what is yielded during a finite prefix of `primes()`, not the infinite generator.
- The `primes` class, `primes_seq` and `is_zero` at cxx/firmitas_assignments.cxx:8-73 are the same text as cxx/primes.cxx. They are modelled once, in `PrimesCxx`.
- `fib` and `digits` in python/combinatorics.py are the same code as in python/pe_exercises.py. They are modelled once, by `Combinatorics.FibPy` and `Combinatorics.Digits`.
- `odd_composite` in python/pe_exercises.py:65-76 is the loop of python/primes.py over the seeded generator. It is not modelled separately.
- Not part of this model, each for the reason given:
  - `exercise_25` (python/pe_exercises.py:78-131): a one-off bisection driver.
  - `decomposes_goldbach` (cxx/primes.cxx:74-94): floating-point perfect-square test and an unbounded loop.
  - `euler_46`: a caller of `decomposes_goldbach`.
  - `main`: it only prints.
- The result cache of the Python `value()` is modelled; object identity of the handler list is not.

## Findings

| source | as written | input that shows it | evidently intended | confidence | as-written member | corrected member |
|---|---|---|---|---|---|---|
| python/combinatorics.py:52 | `len(nub(facts)) < facts` compares an int with a list, which Python 2 always orders int-first, so the result is True for every `n ≥ 2` | `has_square(6)`: factors `[2, 3]`, no square factor, returns True | `len(nub(facts)) < len(facts)`: True exactly when a prime factor repeats, i.e. `n` has a square factor | high; not executed | Combinatorics.HasSquare | Combinatorics.HasSquareFactor |

=== FILE: cards_cxx.dfy ===
/** The C++ poker-hand evaluator: a 5-card hand is parsed from text by a
    three-state scanner, sorted by denomination, grouped into runs of
    equal denominations, classified into one of nine combinations or a
    high card, and compared with another hand, ties broken on the
    "scoring cards". */
module CardsCxx {
  import opened Numbers
  import opened Sequences

  /** `card_t`: a suit byte and a denomination byte. */
  datatype Card = Card(suit: char, denom: int)

  /** `card_t()` sets both fields to the character ' ', byte 32. */
  const Blank: Card := Card(' ', 32)

  /** The lookup string whose 1-based positions are the denominations. */
  const Alphabet: string := "123456789TJQKA"

  /** `std::string::npos` on a 64-bit `size_t`. */
  const NPos: int := 0xFFFF_FFFF_FFFF_FFFF

  /** `std::string::find`: the first index of `c` in `s`, or `npos`
      (what that means is `FindMeaning`). */
  function Find(s: string, c: char): (i: int)
  {
    FindFrom(s, c, 0)
  }

  function FindFrom(s: string, c: char, j: nat): (i: int)
    decreases |s| - j
  {
    if j >= |s| then NPos
    else if s[j] == c then j
    else FindFrom(s, c, j + 1)
  }

  lemma {:induction false} FindFromMeaning(s: string, c: char, j: nat)
    requires |s| < NPos && j <= |s| && c !in s[..j]
    ensures FindFrom(s, c, j) == NPos <==> c !in s
    ensures FindFrom(s, c, j) != NPos ==>
      var i := FindFrom(s, c, j); j <= i < |s| && s[i] == c && c !in s[..i]
    decreases |s| - j
  {
    if j == |s| {
      assert s[..j] == s;
    } else if s[j] != c {
      assert s[..j + 1] == s[..j] + [s[j]];
      FindFromMeaning(s, c, j + 1);
    }
  }

  /** `find` returns `npos` exactly when `c` is absent, and otherwise the
      index of the first occurrence. */
  lemma FindMeaning(s: string, c: char)
    requires |s| < NPos
    ensures Find(s, c) == NPos <==> c !in s
    ensures Find(s, c) != NPos ==> 0 <= Find(s, c) < |s| && s[Find(s, c)] == c && c !in s[..Find(s, c)]
  {
    FindFromMeaning(s, c, 0);
  }

  /** `denoms.find(c) + 1`, computed in `size_t` and stored in a byte. */
  function DenomOf(c: char): (d: int)
  {
    ((Find(Alphabet, c) + 1) % (NPos + 1)) % 256
  }

  /** In a string of distinct characters, `find` returns each character's own index. */
  lemma {:induction false} FindDistinct(s: string, i: int)
    requires |s| < NPos && 0 <= i < |s|
    requires forall a, b :: 0 <= a < b < |s| ==> s[a] != s[b]
    ensures Find(s, s[i]) == i
  {
    FindMeaning(s, s[i]);
  }

  lemma AlphabetDistinct()
    ensures forall a, b :: 0 <= a < b < |Alphabet| ==> Alphabet[a] != Alphabet[b]
  {
  }

  /** Each alphabet character maps to its 1-based position. */
  lemma DenomOfAt(i: int)
    requires 0 <= i < 14
    ensures DenomOf(Alphabet[i]) == i + 1
  {
    AlphabetDistinct();
    FindDistinct(Alphabet, i);
    ModUnique(i + 1, NPos + 1, 0, i + 1);
    ModUnique(i + 1, 256, 0, i + 1);
  }

  /** Any other character makes `find` return `npos`, and `npos + 1` wraps round to 0. */
  lemma DenomOfOutside(c: char)
    requires c !in Alphabet
    ensures DenomOf(c) == 0
  {
    FindMeaning(Alphabet, c);
  }

  lemma OutsideAlphabet(c: char)
    requires c < '1' || ('9' < c < 'A') || ('A' < c < 'J') || ('K' < c < 'Q') || ('Q' < c < 'T') || 'T' < c
    ensures c !in Alphabet
  {
  }

  lemma DenomOfExamples()
    ensures DenomOf('2') == 2 && DenomOf('9') == 9 && DenomOf('T') == 10
    ensures DenomOf('J') == 11 && DenomOf('Q') == 12 && DenomOf('K') == 13 && DenomOf('A') == 14
    ensures DenomOf('X') == 0 && DenomOf(' ') == 0
  {
    DenomOfAt(1); DenomOfAt(8); DenomOfAt(9); DenomOfAt(10);
    DenomOfAt(11); DenomOfAt(12); DenomOfAt(13);
    OutsideAlphabet('X');
    OutsideAlphabet(' ');
    DenomOfOutside('X'); DenomOfOutside(' ');
  }

  /** `card_cmp`, as the key `std::sort` orders by. */
  function DenomKey(c: Card): (d: int) { c.denom }

  function Denoms(cards: seq<Card>): (d: seq<int>)
    ensures |d| == |cards| && forall i :: 0 <= i < |cards| ==> d[i] == cards[i].denom
  {
    seq(|cards|, i requires 0 <= i < |cards| => cards[i].denom)
  }

  /** The input with a space appended unless it already ends in one. */
  function Normalize(raw: string): (s: string)
    requires |raw| > 0
    ensures |raw| <= |s| && s[|s| - 1] == ' ' && s[..|raw|] == raw
  {
    if raw[|raw| - 1] == ' ' then raw else raw + " "
  }

  /** The cards the scanner commits: character 3k is a denomination,
      3k + 1 a suit, and 3k + 2 (whatever it is) commits card k. */
  function Scan(s: string): (cards: seq<Card>)
    ensures |cards| == |s| / 3
  {
    seq(|s| / 3, k requires 0 <= k < |s| / 3 => Card(s[3 * k + 1], DenomOf(s[3 * k])))
  }

  /** The five slots of `result(5)`: committed cards, then blank ones. */
  function Padded(cards: seq<Card>): (r: seq<Card>)
    requires |cards| <= 5
    ensures |r| == 5 && r[..|cards|] == cards
  {
    cards + Repeat(Blank, 5 - |cards|)
  }

  /** Five slots holding `cards` and then blanks are `Padded(cards)`. */
  lemma PaddedFrom(cards: seq<Card>, slots: seq<Card>)
    requires |cards| <= 5 && |slots| == 5
    requires forall k :: 0 <= k < |cards| ==> slots[k] == cards[k]
    requires forall k :: |cards| <= k < 5 ==> slots[k] == Blank
    ensures slots == Padded(cards)
  {
    forall k | 0 <= k < 5 ensures slots[k] == Padded(cards)[k] {
      if k >= |cards| {
        assert Padded(cards)[k] == Repeat(Blank, 5 - |cards|)[k - |cards|];
      }
    }
  }

  /** What `parse_cards` needs to stay inside `result(5)`: a non-empty
      input from which at most five cards are committed. */
  predicate ParseDefined(raw: string) {
    |raw| > 0 && |Normalize(raw)| / 3 <= 5
  }

  /** The scanner loop of `parse_cards` over the normalised input: a
      three-state machine that reads a denomination, then a suit, then
      commits the card on the third character, into five slots that start
      out blank. */
  method ScanSlots(normalized: string) returns (slots: seq<Card>)
    requires |normalized| / 3 <= 5
    ensures slots == Padded(Scan(normalized))
  {
    var result := new Card[5](_ => Blank);
    var state := 0;
    var suit: char, denom: int := ' ', 0;
    var place := 0;
    ghost var count, rest := |normalized| / 3, |normalized| % 3;
    assert |normalized| == 3 * count + rest && 0 <= rest < 3 && count <= 5;
    for i := 0 to |normalized|
      invariant 0 <= state < 3 && i == 3 * place + state && place <= count
      invariant state >= 1 ==> denom == DenomOf(normalized[i - state])
      invariant state == 2 ==> suit == normalized[i - 1]
      invariant forall k :: 0 <= k < place ==> result[k] == Scan(normalized)[k]
      invariant forall k :: place <= k < 5 ==> result[k] == Blank
    {
      var c := normalized[i];
      if state == 0 {
        denom := DenomOf(c);
        state := 1;
      } else if state == 1 {
        suit := c;
        state := 2;
      } else {
        assert Card(suit, denom) == Scan(normalized)[place];
        result[place] := Card(suit, denom);
        place := place + 1;
        state := 0;
      }
    }
    assert place == count;
    slots := result[..];
    PaddedFrom(Scan(normalized), slots);
  }

  /** `parse_cards`: the scanner fills `result`, then `std::sort` orders
      it by denomination. The result holds exactly the committed cards
      (blank cards for unfilled slots), ascending by denomination. */
  method ParseCards(raw: string) returns (cards: seq<Card>)
    requires ParseDefined(raw)
    ensures |cards| == 5
    ensures multiset(cards) == multiset(Padded(Scan(Normalize(raw))))
    ensures SortedBy(cards, DenomKey)
  {
    var normalized := if raw[|raw| - 1] == ' ' then raw else raw + " ";
    var slots := ScanSlots(normalized);
    cards := SortBy(slots, DenomKey);
  }

  /** `s` is five two-character codes joined by single spaces. */
  function Join(codes: seq<string>): (s: string)
    requires |codes| > 0
  {
    if |codes| == 1 then codes[0] else Join(codes[..|codes| - 1]) + " " + codes[|codes| - 1]
  }

  /** Each code followed by a space. */
  function Blocks(codes: seq<string>): (s: string)
  {
    if |codes| == 0 then "" else Blocks(codes[..|codes| - 1]) + codes[|codes| - 1] + " "
  }

  lemma {:induction false} BlocksAt(codes: seq<string>)
    requires forall k :: 0 <= k < |codes| ==> |codes[k]| == 2
    ensures |Blocks(codes)| == 3 * |codes|
    ensures forall k :: 0 <= k < |codes| ==>
      Blocks(codes)[3 * k] == codes[k][0] && Blocks(codes)[3 * k + 1] == codes[k][1]
    decreases |codes|
  {
    if |codes| > 0 {
      var p := codes[..|codes| - 1];
      BlocksAt(p);
      forall k | 0 <= k < |codes|
        ensures Blocks(codes)[3 * k] == codes[k][0] && Blocks(codes)[3 * k + 1] == codes[k][1]
      {
        if k < |p| {
          assert codes[k] == p[k];
        }
      }
    }
  }

  lemma {:induction false} JoinBlocks(codes: seq<string>)
    requires |codes| > 0
    ensures Join(codes) + " " == Blocks(codes)
    decreases |codes|
  {
    if |codes| > 1 {
      JoinBlocks(codes[..|codes| - 1]);
    }
  }

  /** The cards five codes stand for, in input order. */
  function CardsOf(codes: seq<string>): (cards: seq<Card>)
    requires forall k :: 0 <= k < |codes| ==> |codes[k]| == 2
    ensures |cards| == |codes|
  {
    seq(|codes|, k requires 0 <= k < |codes| => Card(codes[k][1], DenomOf(codes[k][0])))
  }

  /** For five two-character codes separated by single spaces, with or
      without a trailing space, the scanner commits exactly those five
      cards, so `ParseCards` returns them sorted by denomination. */
  lemma ParseFiveCodes(codes: seq<string>, trailing: bool)
    requires |codes| == 5 && forall k :: 0 <= k < 5 ==> |codes[k]| == 2
    requires !trailing ==> codes[4][1] != ' '
    ensures ParseDefined(Join(codes) + (if trailing then " " else ""))
    ensures Padded(Scan(Normalize(Join(codes) + (if trailing then " " else "")))) == CardsOf(codes)
  {
    var raw := Join(codes) + (if trailing then " " else "");
    JoinBlocks(codes);
    BlocksAt(codes);
    var b := Blocks(codes);
    assert b[|b| - 1] == ' ';
    if trailing {
      assert raw == b;
    } else {
      assert Join(codes)[|Join(codes)| - 1] == b[|b| - 2] == codes[4][1];
      assert Normalize(raw) == b;
    }
    assert Normalize(raw) == b;
    assert Scan(b) == CardsOf(codes);
  }

  /** One pass of the `group_cards` loop keeps the counter and the
      finished runs equal to the runs of the denominations read so far. */
  lemma GroupStep(cards: seq<Card>, t: nat, result: seq<int>, counter: int, result': seq<int>, counter': int)
    requires 0 < t < |cards| < 256 && 1 <= counter <= t
    requires result + [counter] == RunsOf(Denoms(cards)[..t])
    requires cards[t - 1].denom == cards[t].denom ==> result' == result && counter' == (counter + 1) % 256
    requires cards[t - 1].denom != cards[t].denom ==> result' == result + [counter] && counter' == 1
    ensures 1 <= counter' <= t + 1 && result' + [counter'] == RunsOf(Denoms(cards)[..t + 1])
  {
    var d := Denoms(cards);
    assert d[t - 1] == cards[t - 1].denom && d[t] == cards[t].denom;
    RunsNext(d, t, result, counter);
    if cards[t - 1].denom == cards[t].denom {
      ModUnique(counter + 1, 256, 0, counter + 1);
    }
  }

  /** `group_cards`: one run-length per maximal block of equal adjacent
      denominations (an empty hand yields `[1]`). The counter is a byte. */
  method GroupCards(cards: seq<Card>) returns (stretch: seq<int>)
    ensures |cards| == 0 ==> stretch == [1]
    ensures 0 < |cards| < 256 ==> stretch == RunsOf(Denoms(cards))
  {
    var result: seq<int> := [];
    var counter := 1;
    var t := 1;
    while t < |cards|
      invariant 1 <= t && (|cards| > 0 ==> t <= |cards|)
      invariant 0 <= counter < 256
      invariant |cards| <= 1 ==> counter == 1 && result == []
      invariant 0 < |cards| < 256 ==> 1 <= counter <= t
      invariant 0 < |cards| < 256 ==> result + [counter] == RunsOf(Denoms(cards)[..t])
    {
      ghost var result0, counter0 := result, counter;
      if cards[t - 1].denom == cards[t].denom {
        counter := (counter + 1) % 256;
      } else {
        result := result + [counter];
        counter := 1;
      }
      if |cards| < 256 {
        GroupStep(cards, t, result0, counter0, result, counter);
      }
      t := t + 1;
    }
    result := result + [counter];
    if 0 < |cards| {
      assert Denoms(cards)[..|cards|] == Denoms(cards);
    }
    stretch := result;
  }

  /** Every denomination the lookup produces is between 0 and 14. */
  lemma DenomOfRange(c: char)
    ensures 0 <= DenomOf(c) <= 14
  {
    FindMeaning(Alphabet, c);
    var i := Find(Alphabet, c);
    if i == NPos {
      ModUnique(NPos + 1, NPos + 1, 1, 0);
    } else {
      ModUnique(i + 1, NPos + 1, 0, i + 1);
      ModUnique(i + 1, 256, 0, i + 1);
    }
  }

  function Suits(cards: seq<Card>): (s: seq<char>)
    ensures |s| == |cards| && forall i :: 0 <= i < |cards| ==> s[i] == cards[i].suit
  {
    seq(|cards|, i requires 0 <= i < |cards| => cards[i].suit)
  }

  /** A hand: its five cards, sorted by denomination, and the run-lengths
      of equal denominations. Both are fixed once the hand is built. */
  datatype Hand = Hand(cards: seq<Card>, stretch: seq<int>)
  {
    /** What the constructor establishes. */
    ghost predicate Valid() {
      |cards| == 5 && SortedBy(cards, DenomKey) && stretch == RunsOf(Denoms(cards))
    }

    /** The run-lengths are positive and add up to five. */
    lemma StretchShape()
      requires Valid()
      ensures 1 <= |stretch| <= 5 && Sum(stretch) == 5
      ensures forall k :: 0 <= k < |stretch| ==> stretch[k] >= 1
    {
      RunsShape(Denoms(cards));
      RunsSum(Denoms(cards));
    }

    /** `n_of_a_kind`: some run has length `n`. */
    predicate NOfAKind(n: int) {
      n in stretch
    }

    predicate RoyalFlush()
      requires |cards| > 0
    {
      cards[0].denom == 10 && StraightFlush()
    }

    predicate StraightFlush()
      requires |cards| > 0
    {
      Straight() && Flush()
    }

    predicate FourOfAKind() {
      NOfAKind(4)
    }

    /** `full_house` as written: the comma operator evaluates and drops the
        first two comparisons, so only `stretch[0] == 3` decides. */
    predicate FullHouse()
      requires Valid()
    {
      OnePair() &&
        (StretchShape();
         var _ := stretch[0] == 2;
         var _ := stretch[1] == 3 || stretch[1] == 2;
         stretch[0] == 3)
    }

    /** `flush`: the number of cards whose suit is that of the first card
        is the number of cards. */
    predicate Flush()
      requires |cards| > 0
    {
      Count(Suits(cards), cards[0].suit) == |cards|
    }

    /** Each denomination is its predecessor's plus one. */
    predicate Straight() {
      forall t :: 1 <= t < |cards| ==> cards[t].denom == cards[t - 1].denom + 1
    }

    predicate ThreeOfAKind() {
      NOfAKind(3)
    }

    predicate TwoPairs() {
      NOfAKind(2) && Count(stretch, 2) == 2
    }

    predicate OnePair() {
      NOfAKind(2)
    }

    /** Predicate number `t` of the list `value()` walks. */
    predicate Combination(t: nat)
      requires Valid() && t < 9
    {
      match t
      case 0 => RoyalFlush()
      case 1 => StraightFlush()
      case 2 => FourOfAKind()
      case 3 => FullHouse()
      case 4 => Flush()
      case 5 => Straight()
      case 6 => ThreeOfAKind()
      case 7 => TwoPairs()
      case _ => OnePair()
    }

    /** `value()` from predicate `t` on. */
    function ValueFrom(t: nat): (v: int)
      requires Valid() && t <= 9
      decreases 9 - t
    {
      if t == 9 then cards[4].denom
      else if Combination(t) then 15 + (8 - t)
      else ValueFrom(t + 1)
    }

    /** `value()`: `15 + (8 - t)` for the first predicate `t` that holds,
        otherwise the denomination of the top card. */
    function Value(): (v: int)
      requires Valid()
    {
      ValueFrom(0)
    }

    /** `scoring_cards()`: for the values 15, 16, 17, 20 and 21 the cards
        of the runs longer than one, reversed; for any other value the
        vector is only `reserve`d, so nothing is returned. */
    function ScoringCards(): (sc: seq<Card>)
      requires Valid()
    {
      var v := Value();
      if v == 15 || v == 16 || v == 17 || v == 20 || v == 21 then
        StretchShape();
        Reverse(Grouped(cards, stretch))
      else []
    }

    /** The first predicate that holds decides the value. */
    lemma ValueFirst(t: nat)
      requires Valid() && t < 9 && Combination(t)
      requires forall u :: 0 <= u < t ==> !Combination(u)
      ensures Value() == 23 - t
    {
      ValueSkip(0, t);
    }

    /** With no predicate holding, the value is the top card's denomination. */
    lemma ValueHighCard()
      requires Valid()
      requires forall u :: 0 <= u < 9 ==> !Combination(u)
      ensures Value() == cards[4].denom
    {
      ValueSkip(0, 9);
    }

    lemma {:induction false} ValueSkip(s: nat, t: nat)
      requires Valid() && s <= t <= 9
      requires forall u :: s <= u < t ==> !Combination(u)
      ensures ValueFrom(s) == ValueFrom(t)
      decreases t - s
    {
      if s < t {
        ValueSkip(s + 1, t);
      }
    }

    /** `flush()` holds exactly when every suit is that of the first card. */
    lemma FlushMeaning()
      requires |cards| > 0
      ensures Flush() <==> forall i :: 0 <= i < |cards| ==> cards[i].suit == cards[0].suit
    {
      CountAll(Suits(cards), cards[0].suit);
    }

    /** A straight has no two cards of one denomination: every run has length one. */
    lemma StraightSingleRuns()
      requires Valid() && Straight()
      ensures stretch == [1, 1, 1, 1, 1]
    {
      RunsOfDistinct(Denoms(cards));
    }

    /** The index of the first predicate that holds (9 when none does),
        with the value it gives. */
    lemma FirstCombination() returns (t: nat)
      requires Valid()
      ensures t <= 9 && forall u :: 0 <= u < t ==> !Combination(u)
      ensures t < 9 ==> Combination(t) && Value() == 23 - t
      ensures t == 9 ==> Value() == cards[4].denom
    {
      t := 0;
      while t < 9 && !Combination(t)
        invariant t <= 9 && forall u :: 0 <= u < t ==> !Combination(u)
      {
        t := t + 1;
      }
      if t < 9 {
        ValueFirst(t);
      } else {
        ValueHighCard();
      }
    }
  }

  /** The denominations `parse_cards` can produce: those of the alphabet
      (0 for an unknown character) and the blank card's 32. */
  predicate ParsedDenoms(cards: seq<Card>) {
    forall i :: 0 <= i < |cards| ==> 0 <= cards[i].denom <= 14 || cards[i] == Blank
  }

  lemma ScanDenoms(s: string)
    requires |s| / 3 <= 5
    ensures forall c :: c in Padded(Scan(s)) ==> 0 <= c.denom <= 14 || c == Blank
  {
    var cards := Scan(s);
    forall c | c in Padded(cards) ensures 0 <= c.denom <= 14 || c == Blank {
      var i :| 0 <= i < 5 && Padded(cards)[i] == c;
      if i < |cards| {
        assert c == cards[i];
        DenomOfRange(s[3 * i]);
      } else {
        assert c == Repeat(Blank, 5 - |cards|)[i - |cards|];
      }
    }
  }

  /** `hand(raw)`: the parsed cards and their run-lengths. */
  method MakeHand(raw: string) returns (h: Hand)
    requires ParseDefined(raw)
    ensures h.Valid() && ParsedDenoms(h.cards)
    ensures multiset(h.cards) == multiset(Padded(Scan(Normalize(raw))))
  {
    var cards := ParseCards(raw);
    var stretch := GroupCards(cards);
    h := Hand(cards, stretch);
    ScanDenoms(Normalize(raw));
    forall i | 0 <= i < 5 ensures 0 <= cards[i].denom <= 14 || cards[i] == Blank {
      assert cards[i] in multiset(cards);
    }
  }

  /** `straight()`: a loop that stops at the first card which is not its
      predecessor plus one. */
  method IsStraight(h: Hand) returns (b: bool)
    ensures b == h.Straight()
  {
    var t := 1;
    while t < |h.cards|
      invariant 1 <= t && (|h.cards| > 0 ==> t <= |h.cards|)
      invariant forall u :: 1 <= u < t && u < |h.cards| ==> h.cards[u].denom == h.cards[u - 1].denom + 1
    {
      if h.cards[t].denom != h.cards[t - 1].denom + 1 {
        return false;
      }
      t := t + 1;
    }
    return true;
  }

  /** `value()`: the loop over the nine predicates, returning at the
      first that holds. */
  method ComputeValue(h: Hand) returns (v: int)
    requires h.Valid()
    ensures v == h.Value()
  {
    for t := 0 to 9
      invariant forall u :: 0 <= u < t ==> !h.Combination(u)
    {
      var result: bool;
      if t == 0 {
        result := h.RoyalFlush();
      } else if t == 1 {
        result := h.StraightFlush();
      } else if t == 2 {
        result := h.FourOfAKind();
      } else if t == 3 {
        result := h.FullHouse();
      } else if t == 4 {
        result := h.Flush();
      } else if t == 5 {
        result := IsStraight(h);
      } else if t == 6 {
        result := h.ThreeOfAKind();
      } else if t == 7 {
        result := h.TwoPairs();
      } else {
        result := h.OnePair();
      }
      assert result == h.Combination(t);
      if result {
        h.ValueFirst(t);
        return 15 + (8 - t);
      }
    }
    h.ValueHighCard();
    v := h.cards[|h.cards| - 1].denom;
  }

  /** The run-lengths of five cards: at most five positive terms adding up to 5. */
  lemma Compositions(r: seq<int>)
    requires forall k :: 0 <= k < |r| ==> r[k] >= 1
    requires Sum(r) == 5
    ensures 1 <= |r| <= 5
    ensures |r| == 1 ==> r[0] == 5
    ensures |r| == 2 ==> r[0] + r[1] == 5
    ensures |r| == 3 ==> r[0] + r[1] + r[2] == 5
    ensures |r| == 4 ==> r[0] + r[1] + r[2] + r[3] == 5
    ensures |r| == 5 ==> r == [1, 1, 1, 1, 1]
  {
    SumAtLeastLength(r);
    assert r[..|r|] == r && r[..0] == [];
    SumPrefixStep(r, 1);
    if |r| >= 2 { SumPrefixStep(r, 2); }
    if |r| >= 3 { SumPrefixStep(r, 3); }
    if |r| >= 4 { SumPrefixStep(r, 4); }
    if |r| >= 5 { SumPrefixStep(r, 5); }
  }

  /** One step of `LongRunsTotal` and `Count` on every prefix. */
  lemma PrefixSteps(r: seq<int>, x: int)
    ensures forall k :: 1 <= k <= |r| ==>
      LongRunsTotal(r[..k]) == LongRunsTotal(r[..k - 1]) + (if r[k - 1] > 1 then r[k - 1] else 0) &&
      Count(r[..k], x) == Count(r[..k - 1], x) + (if r[k - 1] == x then 1 else 0)
    ensures LongRunsTotal(r[..0]) == 0 && Count(r[..0], x) == 0
    ensures r[..|r|] == r
  {
    forall k | 1 <= k <= |r|
      ensures LongRunsTotal(r[..k]) == LongRunsTotal(r[..k - 1]) + (if r[k - 1] > 1 then r[k - 1] else 0)
      ensures Count(r[..k], x) == Count(r[..k - 1], x) + (if r[k - 1] == x then 1 else 0)
    {
      assert r[..k][..k - 1] == r[..k - 1];
    }
  }

  /** How many cards the long runs of a five-card grouping cover, by the
      kind of run it holds. */
  predicate TotalsByKind(r: seq<int>) {
    && (2 in r && 3 !in r && 4 !in r && Count(r, 2) != 2 ==> LongRunsTotal(r) == 2)
    && (Count(r, 2) == 2 ==> LongRunsTotal(r) == 4)
    && (3 in r ==> LongRunsTotal(r) == 3 || LongRunsTotal(r) == 5)
    && (2 in r && |r| > 0 && r[0] == 3 ==> LongRunsTotal(r) == 5)
    && (4 in r ==> LongRunsTotal(r) == 4)
  }

  lemma ShapeTotals(r: seq<int>)
    requires forall k :: 0 <= k < |r| ==> r[k] >= 1
    requires Sum(r) == 5
    ensures TotalsByKind(r)
  {
    Compositions(r);
    PrefixSteps(r, 2);
    if |r| == 3 {
      ShapeTotals3(r);
    } else if |r| == 4 {
      ShapeTotals4(r);
    } else if |r| == 2 {
      assert LongRunsTotal(r) == Long(r[0]) + Long(r[1]);
    }
  }

  lemma ShapeTotals3(r: seq<int>)
    requires |r| == 3 && r[0] >= 1 && r[1] >= 1 && r[2] >= 1 && r[0] + r[1] + r[2] == 5
    ensures TotalsByKind(r)
  {
    PrefixSteps(r, 2);
    assert LongRunsTotal(r) == Long(r[0]) + Long(r[1]) + Long(r[2]);
    assert Count(r, 2) == Ind(r[0] == 2) + Ind(r[1] == 2) + Ind(r[2] == 2);
  }

  lemma ShapeTotals4(r: seq<int>)
    requires |r| == 4 && r[0] >= 1 && r[1] >= 1 && r[2] >= 1 && r[3] >= 1
    requires r[0] + r[1] + r[2] + r[3] == 5
    ensures TotalsByKind(r)
  {
    PrefixSteps(r, 2);
    assert LongRunsTotal(r) == Long(r[0]) + Long(r[1]) + Long(r[2]) + Long(r[3]);
    assert Count(r, 2) == Ind(r[0] == 2) + Ind(r[1] == 2) + Ind(r[2] == 2) + Ind(r[3] == 2);
  }

  function Long(x: int): (r: int) { if x > 1 then x else 0 }

  function Ind(b: bool): (r: int) { if b then 1 else 0 }

  /** The number of scoring cards for each value: 2 for a pair, 4 for two
      pairs and for four of a kind, 5 for a full house; 3 or 5 for value
      17, because a pair below a triple is not caught by `full_house()`;
      none at all for any other value. */
  lemma ScoringLength(h: Hand)
    requires h.Valid() && ParsedDenoms(h.cards)
    ensures h.Value() == 15 ==> |h.ScoringCards()| == 2
    ensures h.Value() == 16 ==> |h.ScoringCards()| == 4
    ensures h.Value() == 17 ==> |h.ScoringCards()| == 3 || |h.ScoringCards()| == 5
    ensures h.Value() == 20 ==> |h.ScoringCards()| == 5
    ensures h.Value() == 21 ==> |h.ScoringCards()| == 4
    ensures h.Value() !in {15, 16, 17, 20, 21} ==> |h.ScoringCards()| == 0
  {
    var t := h.FirstCombination();
    h.StretchShape();
    GroupedFacts(h.cards, h.stretch, DenomKey);
    ShapeTotals(h.stretch);
    assert h.cards[4] == h.cards[|h.cards| - 1];
    if t < 9 {
      assert h.Combination(t);
    }
  }

  /** The scoring cards come in descending order of denomination. */
  lemma ScoringDescending(h: Hand)
    requires h.Valid()
    ensures forall i, j :: 0 <= i < j < |h.ScoringCards()| ==>
      h.ScoringCards()[i].denom >= h.ScoringCards()[j].denom
  {
    h.StretchShape();
    GroupedFacts(h.cards, h.stretch, DenomKey);
    ReverseDescending(Grouped(h.cards, h.stretch), DenomKey);
  }

  /** `scoring_cards()`: walk the runs with the card offset `j`, append
      the cards of every run longer than one, then reverse. */
  method ScoringCardsOf(h: Hand) returns (result: seq<Card>)
    requires h.Valid()
    ensures result == h.ScoringCards()
  {
    var v := ComputeValue(h);
    result := [];
    if v == 15 || v == 16 || v == 17 || v == 20 || v == 21 {
      h.StretchShape();
      result := GroupedWalk(h.cards, h.stretch);
    }
    result := Reverse(result);
  }

  /** `break_tie` reads `scoring_b[t]` for every `t` below
      `scoring_a.size()` until the first difference: it stays inside
      `scoring_b` when that is at least as long, or when a difference
      comes first. */
  predicate TieDefined(a: seq<Card>, b: seq<Card>) {
    |a| <= |b| || exists t :: 0 <= t < |b| && a[t].denom != b[t].denom
  }

  /** The denomination difference at the first position where the two
      sequences differ, or 0 when `a` runs out first. */
  function FirstDiff(a: seq<Card>, b: seq<Card>): (r: int)
    requires TieDefined(a, b)
    ensures r == 0 <==> |a| <= |b| && forall t :: 0 <= t < |a| ==> a[t].denom == b[t].denom
    ensures r != 0 ==> exists t :: 0 <= t < |a| && t < |b| && r == a[t].denom - b[t].denom &&
                                  forall u :: 0 <= u < t ==> a[u].denom == b[u].denom
  {
    FirstDiffFrom(a, b, 0)
  }

  function FirstDiffFrom(a: seq<Card>, b: seq<Card>, t: nat): (r: int)
    requires TieDefined(a, b) && t <= |a|
    requires forall u :: 0 <= u < t ==> u < |b| && a[u].denom == b[u].denom
    ensures r == 0 <==> |a| <= |b| && forall u :: t <= u < |a| ==> a[u].denom == b[u].denom
    ensures r != 0 ==> exists u :: t <= u < |a| && u < |b| && r == a[u].denom - b[u].denom &&
                                  forall w :: t <= w < u ==> a[w].denom == b[w].denom
    decreases |a| - t
  {
    if t == |a| then 0
    else if a[t].denom != b[t].denom then a[t].denom - b[t].denom
    else FirstDiffFrom(a, b, t + 1)
  }

  /** While the prefixes agree, a defined tie-break never reads past `b`. */
  lemma TieInRange(a: seq<Card>, b: seq<Card>, t: nat)
    requires TieDefined(a, b) && t < |a|
    requires forall u :: 0 <= u < t ==> u < |b| && a[u].denom == b[u].denom
    ensures t < |b|
  {
    if |a| > |b| {
      var d :| 0 <= d < |b| && a[d].denom != b[d].denom;
      assert t <= d;
    }
  }

  /** Equal denominations at `t` pass the comparison on to `t + 1`. */
  lemma FirstDiffStep(a: seq<Card>, b: seq<Card>, t: nat)
    requires TieDefined(a, b) && t < |a| && t < |b|
    requires forall u :: 0 <= u < t ==> u < |b| && a[u].denom == b[u].denom
    requires a[t].denom == b[t].denom
    ensures forall u :: 0 <= u < t + 1 ==> u < |b| && a[u].denom == b[u].denom
    ensures FirstDiffFrom(a, b, t + 1) == FirstDiffFrom(a, b, t)
  {
  }

  /** `break_tie`: compare the two hands' scoring cards position by position. */
  method BreakTie(h: Hand, other: Hand) returns (r: int)
    requires h.Valid() && other.Valid()
    requires TieDefined(h.ScoringCards(), other.ScoringCards())
    ensures r == FirstDiff(h.ScoringCards(), other.ScoringCards())
  {
    var a := ScoringCardsOf(h);
    var b := ScoringCardsOf(other);
    for t := 0 to |a|
      invariant forall u :: 0 <= u < t ==> u < |b| && a[u].denom == b[u].denom
      invariant FirstDiffFrom(a, b, t) == FirstDiff(a, b)
    {
      TieInRange(a, b, t);
      if a[t].denom != b[t].denom {
        return a[t].denom - b[t].denom;
      }
      FirstDiffStep(a, b, t);
    }
    return 0;
  }

  /** `operator>`: the higher value wins; on equal values the tie-break
      is added to this hand's value. */
  function Greater(h: Hand, other: Hand): (b: bool)
    requires h.Valid() && other.Valid()
    requires h.Value() == other.Value() ==> TieDefined(h.ScoringCards(), other.ScoringCards())
  {
    var a := h.Value();
    var b := other.Value();
    (if a == b then a + FirstDiff(h.ScoringCards(), other.ScoringCards()) else a) > b
  }

  /** On scoring sequences of equal length the tie-break is antisymmetric. */
  lemma FirstDiffAntisymmetric(a: seq<Card>, b: seq<Card>)
    requires |a| == |b|
    ensures TieDefined(a, b) && TieDefined(b, a)
    ensures FirstDiff(a, b) == -FirstDiff(b, a)
  {
    var r := FirstDiff(a, b);
    if r != 0 {
      var t :| 0 <= t < |a| && t < |b| && r == a[t].denom - b[t].denom &&
               forall u :: 0 <= u < t ==> a[u].denom == b[u].denom;
      var r' := FirstDiff(b, a);
      var t' :| 0 <= t' < |b| && t' < |a| && r' == b[t'].denom - a[t'].denom &&
                forall u :: 0 <= u < t' ==> b[u].denom == a[u].denom;
      assert t == t';
    }
  }

  /** No hand beats itself. */
  lemma GreaterIrreflexive(h: Hand)
    requires h.Valid()
    ensures TieDefined(h.ScoringCards(), h.ScoringCards())
    ensures !Greater(h, h)
  {
    FirstDiffAntisymmetric(h.ScoringCards(), h.ScoringCards());
  }

  /** When equal values come with equally many scoring cards, at most one
      of two hands beats the other. */
  lemma GreaterAsymmetric(h: Hand, other: Hand)
    requires h.Valid() && other.Valid()
    requires h.Value() == other.Value() ==> |h.ScoringCards()| == |other.ScoringCards()|
    ensures h.Value() == other.Value() ==>
      TieDefined(h.ScoringCards(), other.ScoringCards()) && TieDefined(other.ScoringCards(), h.ScoringCards())
    ensures Greater(h, other) ==> !Greater(other, h)
  {
    if h.Value() == other.Value() {
      FirstDiffAntisymmetric(h.ScoringCards(), other.ScoringCards());
    }
  }

  /** A higher value wins outright, and a winner never has the lower value. */
  lemma GreaterByValue(h: Hand, other: Hand)
    requires h.Valid() && other.Valid()
    requires h.Value() == other.Value() ==> TieDefined(h.ScoringCards(), other.ScoringCards())
    ensures h.Value() > other.Value() ==> Greater(h, other)
    ensures Greater(h, other) ==> h.Value() >= other.Value()
  {
  }

  /** Equal values outside 15, 16, 17, 20 and 21 have no scoring cards, so
      neither hand wins: two flushes, two straights or two high cards of
      the same top denomination always draw. */
  lemma UngroupedDraw(h: Hand, other: Hand)
    requires h.Valid() && other.Valid()
    requires h.Value() == other.Value() && h.Value() !in {15, 16, 17, 20, 21}
    ensures TieDefined(h.ScoringCards(), other.ScoringCards())
    ensures !Greater(h, other) && !Greater(other, h)
  {
  }

  /** Every combination beats every high card of a parsed five-card hand. */
  lemma CombinationBeatsHighCard(h: Hand, other: Hand)
    requires h.Valid() && other.Valid() && ParsedDenoms(other.cards)
    requires exists t :: 0 <= t < 9 && h.Combination(t)
    requires forall t :: 0 <= t < 9 ==> !other.Combination(t)
    requires other.cards[4] != Blank
    ensures 15 <= h.Value() <= 23 && other.Value() <= 14
    ensures Greater(h, other)
  {
    var t := h.FirstCombination();
    other.ValueHighCard();
  }

  /** With the triple below the pair (runs [3, 2]) `full_house()` holds and
      the value is 20; with the pair below the triple (runs [2, 3]) it does
      not, and the hand scores as a flush (19) or as three of a kind (17). */
  lemma FullHouseOrder(h: Hand)
    requires h.Valid()
    ensures h.stretch == [3, 2] ==> h.FullHouse() && h.Value() == 20
    ensures h.stretch == [2, 3] ==> !h.FullHouse() && h.ThreeOfAKind()
    ensures h.stretch == [2, 3] && h.Flush() ==> h.Value() == 19
    ensures h.stretch == [2, 3] && !h.Flush() ==> h.Value() == 17
  {
    if h.stretch == [3, 2] || h.stretch == [2, 3] {
      if h.Straight() {
        h.StraightSingleRuns();
      }
      assert !h.Combination(0) && !h.Combination(1) && !h.Combination(2);
      if h.stretch == [3, 2] {
        h.ValueFirst(3);
      } else if h.Flush() {
        h.ValueFirst(4);
      } else {
        h.ValueFirst(6);
      }
    }
  }

  /** Three kings over 2 and 3: runs [1, 1, 3]. */
  const ThreeKings: Hand :=
    Hand([Card('C', 2), Card('D', 3), Card('H', 13), Card('S', 13), Card('D', 13)], [1, 1, 3])

  /** Three kings over a pair of twos: runs [2, 3]. */
  const KingsOverTwos: Hand :=
    Hand([Card('H', 2), Card('D', 2), Card('C', 13), Card('H', 13), Card('S', 13)], [2, 3])

  lemma ThreeKingsValid()
    ensures ThreeKings.Valid()
  {
    assert Denoms(ThreeKings.cards) == [2] + [3] + [13] + [13] + [13];
    ThreeKingsRuns();
    assert [] + [1] + [1] + [3] == [1, 1, 3];
  }

  /** The runs of the denominations, one card at a time. */
  lemma ThreeKingsRuns()
    ensures RunsOf([2] + [3] + [13] + [13] + [13]) == [] + [1] + [1] + [3]
  {
    RunsOpen([2], 3, [], 1);
    RunsOpen([2] + [3], 13, [] + [1], 1);
    RunsExtend([2] + [3] + [13], 13, [] + [1] + [1], 1);
    RunsExtend([2] + [3] + [13] + [13], 13, [] + [1] + [1], 2);
  }

  lemma ThreeKingsValue()
    ensures ThreeKings.Valid() && ThreeKings.Value() == 17
  {
    var h := ThreeKings;
    ThreeKingsValid();
    h.FlushMeaning();
    assert h.cards[1].suit != h.cards[0].suit;
    if h.Straight() {
      h.StraightSingleRuns();
    }
    assert !h.Combination(0) && !h.Combination(1) && !h.Combination(2);
    assert !h.Combination(3) && !h.Combination(4) && !h.Combination(5);
    h.ValueFirst(6);
  }

  lemma ThreeKingsScore()
    ensures ThreeKings.Valid() && ThreeKings.Value() == 17
    ensures ThreeKings.ScoringCards() == Reverse(ThreeKings.cards[2..])
  {
    ThreeKingsValue();
    ThreeKingsGrouped();
    ThreeKings.StretchShape();
  }

  lemma ThreeKingsGrouped()
    ensures Sum([1, 1, 3]) == 5
    ensures Grouped(ThreeKings.cards, [1, 1, 3]) == ThreeKings.cards[2..]
  {
    var c := ThreeKings.cards;
    assert Grouped(c[..2], [1, 1]) == [] by {
      assert Grouped(c[..2][..1], [1]) == [];
    }
  }

  lemma KingsOverTwosValid()
    ensures KingsOverTwos.Valid()
  {
    assert Denoms(KingsOverTwos.cards) == [2] + [2] + [13] + [13] + [13];
    KingsOverTwosRuns();
    assert [] + [2] + [3] == [2, 3];
  }

  /** The runs of the denominations, one card at a time. */
  lemma KingsOverTwosRuns()
    ensures RunsOf([2] + [2] + [13] + [13] + [13]) == [] + [2] + [3]
  {
    RunsExtend([2], 2, [], 1);
    RunsOpen([2] + [2], 13, [], 2);
    RunsExtend([2] + [2] + [13], 13, [] + [2], 1);
    RunsExtend([2] + [2] + [13] + [13], 13, [] + [2], 2);
  }

  lemma KingsOverTwosValue()
    ensures KingsOverTwos.Valid() && KingsOverTwos.Value() == 17
  {
    var h := KingsOverTwos;
    KingsOverTwosValid();
    h.FlushMeaning();
    assert h.cards[2].suit != h.cards[0].suit;
    FullHouseOrder(h);
  }

  lemma KingsOverTwosGrouped()
    ensures Grouped(KingsOverTwos.cards, [2, 3]) == KingsOverTwos.cards
  {
    var c := KingsOverTwos.cards;
    assert Grouped(c[..2], [2]) == c[..2];
  }

  lemma KingsOverTwosScore()
    ensures KingsOverTwos.Valid() && KingsOverTwos.Value() == 17
    ensures KingsOverTwos.ScoringCards() == Reverse(KingsOverTwos.cards)
  {
    KingsOverTwosValue();
    KingsOverTwosGrouped();
  }

  /** Both hands have value 17. The second has five scoring cards, the
      first three, and those three agree, so `break_tie` called on the
      second with the first as `other` reads past the end of the first's
      scoring cards. */
  lemma TieBreakPastEnd()
    ensures ThreeKings.Valid() && KingsOverTwos.Valid()
    ensures ThreeKings.Value() == KingsOverTwos.Value() == 17
    ensures |ThreeKings.ScoringCards()| == 3 && |KingsOverTwos.ScoringCards()| == 5
    ensures !TieDefined(KingsOverTwos.ScoringCards(), ThreeKings.ScoringCards())
  {
    ThreeKingsScore();
    KingsOverTwosScore();
  }
}

=== FILE: cards_py.dfy ===
/** The Python 2 poker-hand evaluator: cards are two-character strings,
    a hand sorts the caller's list in place, caches its run-lengths and its
    value, and the six comparison operators rest on `value` and
    `break_tie`. */
module CardsPy {
  import opened Numbers
  import opened Sequences
  import opened Wrappers

  /** `denom(card)`: 'T', 'J', 'Q', 'K' and 'A' are 10 to 14; any other
      first character goes through `int`, which accepts only a digit.
      `None` is the exception (`IndexError` on an empty string,
      `ValueError` on anything else). */
  function Denom(card: string): (d: Option<int>)
    ensures d.Some? ==> 0 <= d.value <= 14
    ensures d.Some? <==> |card| > 0 && (card[0] in "TJQKA" || '0' <= card[0] <= '9')
  {
    if |card| == 0 then None
    else
      var c := card[0];
      if c == 'T' then Some(10)
      else if c == 'J' then Some(11)
      else if c == 'Q' then Some(12)
      else if c == 'K' then Some(13)
      else if c == 'A' then Some(14)
      else if '0' <= c <= '9' then Some(c as int - '0' as int)
      else None
  }

  lemma DenomExamples()
    ensures Denom("2H") == Some(2) && Denom("9S") == Some(9) && Denom("TD") == Some(10)
    ensures Denom("JC") == Some(11) && Denom("QH") == Some(12) && Denom("KS") == Some(13)
    ensures Denom("AD") == Some(14) && Denom("XH") == None && Denom("") == None
  {
  }

  /** A card the hand can work with: two characters, the first one a
      denomination `denom` accepts. */
  predicate WellFormed(card: string) {
    |card| == 2 && Denom(card).Some?
  }

  /** The denomination of a well-formed card (0 for any other string). */
  function Key(card: string): (k: int) {
    if Denom(card).Some? then Denom(card).value else 0
  }

  /** The value `cards_cmp` holds while it scans the face letters: still
      the character, or already the number it stands for. */
  datatype Scanned = Char(c: char) | Number(n: int)

  /** `int(val)` on what the scan left. */
  function ToInt(v: Scanned): (r: Option<int>) {
    match v
    case Number(n) => Some(n)
    case Char(c) => if '0' <= c <= '9' then Some(c as int - '0' as int) else None
  }

  /** `cards_cmp`: replace a face letter by its number, in the order
      T, J, Q, K, A, convert both with `int` and subtract. The result is
      the difference of the two denominations. */
  method CardsCmp(a: string, b: string) returns (r: int)
    requires WellFormed(a) && WellFormed(b)
    ensures r == Key(a) - Key(b)
  {
    var valA, valB := Char(a[0]), Char(b[0]);
    var faces := ['T', 'J', 'Q', 'K', 'A'];
    for k := 0 to 5
      invariant valA == (if a[0] in faces[..k] then Number(Key(a)) else Char(a[0]))
      invariant valB == (if b[0] in faces[..k] then Number(Key(b)) else Char(b[0]))
    {
      assert faces[..k + 1] == faces[..k] + [faces[k]];
      if valA == Char(faces[k]) {
        valA := Number(10 + k);
      }
      if valB == Char(faces[k]) {
        valB := Number(10 + k);
      }
    }
    assert faces[..5] == faces;
    r := ToInt(valA).value - ToInt(valB).value;
  }

  /** The five cards the hand expects. */
  predicate Proper(cs: seq<string>) {
    |cs| == 5 && forall i :: 0 <= i < |cs| ==> WellFormed(cs[i])
  }

  /** The characters `n_of_a_kind` compares, one per card. On cards
      `denom` accepts, two of them are equal exactly when the cards have
      the same denomination, so runs of equal characters are runs of
      equal denominations. */
  function FirstChars(cs: seq<string>): (f: seq<char>)
    requires forall i :: 0 <= i < |cs| ==> |cs[i]| > 0
    ensures |f| == |cs|
    ensures forall i, j :: 0 <= i < |cs| && 0 <= j < |cs| && WellFormed(cs[i]) && WellFormed(cs[j]) ==>
      (f[i] == f[j] <==> Key(cs[i]) == Key(cs[j]))
  {
    seq(|cs|, i requires 0 <= i < |cs| => cs[i][0])
  }

  /** What `n_of_a_kind` fills `_stretches` with: the lengths of the runs
      of equal first characters. */
  function Runs(cs: seq<string>): (r: seq<int>)
    requires forall i :: 0 <= i < |cs| ==> |cs[i]| > 0
    ensures Sum(r) == |cs| && forall k :: 0 <= k < |r| ==> r[k] >= 1
    ensures |cs| > 0 <==> |r| > 0
  {
    RunsSum(FirstChars(cs));
    RunsShape(FirstChars(cs));
    RunsOf(FirstChars(cs))
  }

  /** The five cards joined into one string. */
  function Concat(cs: seq<string>): (s: string) {
    if |cs| == 0 then "" else Concat(cs[..|cs| - 1]) + cs[|cs| - 1]
  }

  /** `re.match(r'.(.)(.\1){4}', s)`: ten characters from the start, none
      of the five `.` and the group a newline, and characters 3, 5, 7 and
      9 equal to character 1. */
  predicate FlushPattern(s: string) {
    && |s| >= 10
    && (forall k :: 0 <= k < 5 ==> s[2 * k] != '\n')
    && s[1] != '\n'
    && forall k :: 1 <= k < 5 ==> s[2 * k + 1] == s[1]
  }

  lemma {:induction false} ConcatTwoChars(cs: seq<string>)
    requires forall i :: 0 <= i < |cs| ==> |cs[i]| == 2
    ensures |Concat(cs)| == 2 * |cs|
    ensures forall i :: 0 <= i < |cs| ==> Concat(cs)[2 * i] == cs[i][0] && Concat(cs)[2 * i + 1] == cs[i][1]
    decreases |cs|
  {
    if |cs| > 0 {
      var p := cs[..|cs| - 1];
      ConcatTwoChars(p);
      forall i | 0 <= i < |cs|
        ensures Concat(cs)[2 * i] == cs[i][0] && Concat(cs)[2 * i + 1] == cs[i][1]
      {
        if i < |p| {
          assert cs[i] == p[i];
        }
      }
    }
  }

  /** `flush()`: for five well-formed cards the pattern holds exactly
      when every suit is the first card's and is not a newline. */
  lemma FlushMeaning(cs: seq<string>)
    requires Proper(cs)
    ensures FlushPattern(Concat(cs)) <==>
      cs[0][1] != '\n' && forall i :: 0 <= i < 5 ==> cs[i][1] == cs[0][1]
  {
    ConcatTwoChars(cs);
    var s := Concat(cs);
    if cs[0][1] != '\n' && forall i :: 0 <= i < 5 ==> cs[i][1] == cs[0][1] {
      forall k | 1 <= k < 5 ensures s[2 * k + 1] == s[1] {
        assert s[2 * k + 1] == cs[k][1];
      }
      forall k | 0 <= k < 5 ensures s[2 * k] != '\n' {
        assert s[2 * k] == cs[k][0];
      }
    }
    if FlushPattern(s) {
      forall i | 0 <= i < 5 ensures cs[i][1] == cs[0][1] {
        if i > 0 {
          assert s[2 * i + 1] == cs[i][1];
        }
      }
    }
  }

  predicate IsFlush(cs: seq<string>) {
    FlushPattern(Concat(cs))
  }

  /** Each denomination is its predecessor's plus one. */
  predicate IsStraight(cs: seq<string>) {
    forall t :: 1 <= t < |cs| ==> Key(cs[t]) == Key(cs[t - 1]) + 1
  }

  predicate IsNOfAKind(cs: seq<string>, n: int)
    requires Proper(cs)
  {
    n in Runs(cs)
  }

  predicate IsRoyalFlush(cs: seq<string>)
    requires Proper(cs)
  {
    cs[0][0] == 'T' && IsStraightFlush(cs)
  }

  predicate IsStraightFlush(cs: seq<string>) {
    IsStraight(cs) && IsFlush(cs)
  }

  predicate IsFourOfAKind(cs: seq<string>)
    requires Proper(cs)
  {
    IsNOfAKind(cs, 4)
  }

  predicate IsFullHouse(cs: seq<string>)
    requires Proper(cs)
  {
    IsOnePair(cs) && (Runs(cs) == [2, 3] || Runs(cs) == [3, 2])
  }

  predicate IsThreeOfAKind(cs: seq<string>)
    requires Proper(cs)
  {
    IsNOfAKind(cs, 3)
  }

  predicate IsTwoPairs(cs: seq<string>)
    requires Proper(cs)
  {
    IsNOfAKind(cs, 2) && Count(Runs(cs), 2) == 2
  }

  predicate IsOnePair(cs: seq<string>)
    requires Proper(cs)
  {
    IsNOfAKind(cs, 2)
  }

  /** Handler number `t` of `_handlers`. */
  predicate Combination(cs: seq<string>, t: nat)
    requires Proper(cs) && t < 9
  {
    match t
    case 0 => IsRoyalFlush(cs)
    case 1 => IsStraightFlush(cs)
    case 2 => IsFourOfAKind(cs)
    case 3 => IsFullHouse(cs)
    case 4 => IsFlush(cs)
    case 5 => IsStraight(cs)
    case 6 => IsThreeOfAKind(cs)
    case 7 => IsTwoPairs(cs)
    case _ => IsOnePair(cs)
  }

  function ValueFrom(cs: seq<string>, t: nat): (v: int)
    requires Proper(cs) && t <= 9
    decreases 9 - t
  {
    if t == 9 then Key(cs[4])
    else if Combination(cs, t) then 24 - t
    else ValueFrom(cs, t + 1)
  }

  /** `value()`: `zip(range(24, 10, -1), _handlers)` pairs the nine
      handlers with 24 down to 16; the first handler that holds gives the
      value, and without one it is the top card's denomination. */
  function ValueOf(cs: seq<string>): (v: int)
    requires Proper(cs)
  {
    ValueFrom(cs, 0)
  }

  lemma {:induction false} ValueSkip(cs: seq<string>, s: nat, t: nat)
    requires Proper(cs) && s <= t <= 9
    requires forall u :: s <= u < t ==> !Combination(cs, u)
    ensures ValueFrom(cs, s) == ValueFrom(cs, t)
    decreases t - s
  {
    if s < t {
      ValueSkip(cs, s + 1, t);
    }
  }

  /** The first handler that holds decides the value, 24 for the first
      and 16 for the last. */
  lemma ValueFirst(cs: seq<string>, t: nat)
    requires Proper(cs) && t < 9 && Combination(cs, t)
    requires forall u :: 0 <= u < t ==> !Combination(cs, u)
    ensures ValueOf(cs) == 24 - t
  {
    ValueSkip(cs, 0, t);
  }

  /** With no handler holding, the value is the top card's denomination. */
  lemma ValueHighCard(cs: seq<string>)
    requires Proper(cs)
    requires forall u :: 0 <= u < 9 ==> !Combination(cs, u)
    ensures ValueOf(cs) == Key(cs[4])
  {
    ValueSkip(cs, 0, 9);
  }

  /** Values run from 0 to 24: 16 to 24 for a combination, at most 14 for
      a high card, never 15. */
  lemma ValueRange(cs: seq<string>)
    requires Proper(cs)
    ensures 0 <= ValueOf(cs) <= 24 && ValueOf(cs) != 15
    ensures ValueOf(cs) >= 16 <==> exists t :: 0 <= t < 9 && Combination(cs, t)
  {
    var t := 0;
    while t < 9 && !Combination(cs, t)
      invariant t <= 9 && forall u :: 0 <= u < t ==> !Combination(cs, u)
    {
      t := t + 1;
    }
    if t < 9 {
      ValueFirst(cs, t);
    } else {
      ValueHighCard(cs);
    }
  }

  /** The scores `scoring_cards` groups for. */
  const GroupedScores: seq<int> := [15, 16, 17, 20, 21]

  /** `scoring_cards(score)` on the cards `cs` while `_stretches` is `st`:
      for a grouped score the cards of the runs longer than one (none
      while `_stretches` is still empty), otherwise the whole hand; last
      card first either way. */
  function ScoringOf(cs: seq<string>, st: seq<int>, score: int): (sc: seq<string>)
    requires Proper(cs) && (st == [] || st == Runs(cs))
  {
    if score in GroupedScores then Reverse(if st == [] then [] else Grouped(cs, st))
    else Reverse(cs)
  }

  /** The scoring cards come from the hand, in decreasing order of
      denomination; an ungrouped score takes all five. */
  lemma ScoringDescending(cs: seq<string>, st: seq<int>, score: int)
    requires Proper(cs) && SortedBy(cs, Key) && (st == [] || st == Runs(cs))
    ensures forall i, j :: 0 <= i < j < |ScoringOf(cs, st, score)| ==>
      Key(ScoringOf(cs, st, score)[i]) >= Key(ScoringOf(cs, st, score)[j])
    ensures forall c :: c in ScoringOf(cs, st, score) ==> c in cs
    ensures score !in GroupedScores ==> |ScoringOf(cs, st, score)| == 5
  {
    var g := if score in GroupedScores then (if st == [] then [] else Grouped(cs, st)) else cs;
    if score in GroupedScores && st != [] {
      GroupedFacts(cs, st, Key);
    }
    ReverseDescending(g, Key);
    forall c | c in Reverse(g) ensures c in cs {
      var i :| 0 <= i < |Reverse(g)| && Reverse(g)[i] == c;
      assert g[|g| - 1 - i] in g;
    }
  }

  /** The `zip` walk of `break_tie` from position `i`: the difference of
      denominations at the first position where the two sequences differ,
      stopping at the end of the shorter one with 0. */
  function ZipDiffFrom(a: seq<string>, b: seq<string>, i: nat): (d: int)
    decreases |a| - i
  {
    if i >= |a| || i >= |b| then 0
    else if Key(a[i]) != Key(b[i]) then Key(a[i]) - Key(b[i])
    else ZipDiffFrom(a, b, i + 1)
  }

  function ZipDiff(a: seq<string>, b: seq<string>): (d: int) {
    ZipDiffFrom(a, b, 0)
  }

  /** The walk returns 0 exactly when the common prefix agrees, and
      otherwise the difference at the first position that does not. */
  lemma {:induction false} ZipDiffMeaning(a: seq<string>, b: seq<string>, i: nat)
    ensures ZipDiffFrom(a, b, i) == 0 <==> forall t :: i <= t < |a| && t < |b| ==> Key(a[t]) == Key(b[t])
    ensures ZipDiffFrom(a, b, i) != 0 ==>
      exists t :: i <= t < |a| && t < |b| && ZipDiffFrom(a, b, i) == Key(a[t]) - Key(b[t]) &&
                  forall u :: i <= u < t ==> Key(a[u]) == Key(b[u])
    decreases |a| - i
  {
    if i < |a| && i < |b| {
      if Key(a[i]) == Key(b[i]) {
        ZipDiffMeaning(a, b, i + 1);
        var r := ZipDiffFrom(a, b, i + 1);
        if r != 0 {
          var t :| i + 1 <= t < |a| && t < |b| && r == Key(a[t]) - Key(b[t]) &&
                   forall u :: i + 1 <= u < t ==> Key(a[u]) == Key(b[u]);
          assert forall u :: i <= u < t ==> Key(a[u]) == Key(b[u]);
        }
      } else {
        assert ZipDiffFrom(a, b, i) == Key(a[i]) - Key(b[i]);
      }
    }
  }

  lemma {:induction false} ZipDiffAntisymmetric(a: seq<string>, b: seq<string>, i: nat)
    ensures ZipDiffFrom(a, b, i) == -ZipDiffFrom(b, a, i)
    decreases |a| - i
  {
    if i < |a| && i < |b| && Key(a[i]) == Key(b[i]) {
      ZipDiffAntisymmetric(a, b, i + 1);
    }
  }

  /** `a.break_tie(b)` once both values are computed: the scoring cards
      of both hands for `a`'s value, compared position by position. */
  function TieDiff(a: seq<string>, b: seq<string>): (d: int)
    requires Proper(a) && Proper(b)
  {
    var v := ValueOf(a);
    ZipDiff(ScoringOf(a, Runs(a), v), ScoringOf(b, Runs(b), v))
  }

  /** For hands of equal value that have both been evaluated (as every
      comparison operator does first), `a.break_tie(b) == -b.break_tie(a)`. */
  lemma TieDiffAntisymmetric(a: seq<string>, b: seq<string>)
    requires Proper(a) && Proper(b) && ValueOf(a) == ValueOf(b)
    ensures TieDiff(a, b) == -TieDiff(b, a)
  {
    var v := ValueOf(a);
    ZipDiffAntisymmetric(ScoringOf(a, Runs(a), v), ScoringOf(b, Runs(b), v), 0);
  }

  /** `a < b` */
  predicate Below(a: seq<string>, b: seq<string>)
    requires Proper(a) && Proper(b)
  {
    if ValueOf(a) == ValueOf(b) then TieDiff(a, b) < 0 else ValueOf(a) < ValueOf(b)
  }

  /** `a <= b` */
  predicate AtMost(a: seq<string>, b: seq<string>)
    requires Proper(a) && Proper(b)
  {
    if ValueOf(a) == ValueOf(b) then TieDiff(a, b) <= 0 else ValueOf(a) <= ValueOf(b)
  }

  /** `a == b` */
  predicate Same(a: seq<string>, b: seq<string>)
    requires Proper(a) && Proper(b)
  {
    ValueOf(a) == ValueOf(b) && TieDiff(a, b) == 0
  }

  /** Exactly one of `a < b`, `a == b` and `b < a` holds. */
  lemma Trichotomy(a: seq<string>, b: seq<string>)
    requires Proper(a) && Proper(b)
    ensures Below(a, b) || Same(a, b) || Below(b, a)
    ensures !(Below(a, b) && Same(a, b))
    ensures !(Below(a, b) && Below(b, a))
    ensures !(Same(a, b) && Below(b, a))
  {
    if ValueOf(a) == ValueOf(b) {
      TieDiffAntisymmetric(a, b);
    }
  }

  /** `==` is symmetric, `<=` is `<` or `==`, and the negated operators
      `__gt__` and `__ge__` are `<` and `<=` with the hands swapped. */
  lemma OperatorsAgree(a: seq<string>, b: seq<string>)
    requires Proper(a) && Proper(b)
    ensures Same(a, b) <==> Same(b, a)
    ensures AtMost(a, b) <==> Below(a, b) || Same(a, b)
    ensures !AtMost(a, b) <==> Below(b, a)
    ensures !Below(a, b) <==> AtMost(b, a)
  {
    if ValueOf(a) == ValueOf(b) {
      TieDiffAntisymmetric(a, b);
    }
  }

  /** `full_house` holds exactly when the runs are a pair and a triple,
      in either order; its `one_pair` test adds nothing. */
  lemma FullHouseMeaning(cs: seq<string>)
    requires Proper(cs)
    ensures IsFullHouse(cs) <==> Runs(cs) == [2, 3] || Runs(cs) == [3, 2]
  {
    if Runs(cs) == [2, 3] {
      assert Runs(cs)[0] == 2;
    } else if Runs(cs) == [3, 2] {
      assert Runs(cs)[1] == 2;
    }
  }

  /** `two_pairs` holds exactly when two of the runs have length two. */
  lemma TwoPairsMeaning(cs: seq<string>)
    requires Proper(cs)
    ensures IsTwoPairs(cs) <==> Count(Runs(cs), 2) == 2
  {
    CountPositive(Runs(cs), 2);
  }

  /** Four twos with an ace kicker. */
  const FourTwos: seq<string> := ["2C", "2D", "2H", "2S", "AC"]

  /** Four threes with a king kicker. */
  const FourThrees: seq<string> := ["3C", "3D", "3H", "3S", "KC"]

  /** Runs of four equal first characters followed by a different one. */
  lemma FourRuns(cs: seq<string>)
    requires Proper(cs)
    requires cs[0][0] == cs[1][0] == cs[2][0] == cs[3][0] != cs[4][0]
    ensures Runs(cs) == [4, 1]
  {
    var f := FirstChars(cs);
    var c, d := f[0], f[4];
    assert f == [c] + [c] + [c] + [c] + [d];
    RunsOfAppend([c], c);
    RunsOfAppend([c] + [c], c);
    RunsOfAppend([c] + [c] + [c], c);
    RunsOfAppend([c] + [c] + [c] + [c], d);
  }

  /** A four of a kind that is not a straight is worth 22. */
  lemma FourOfAKindValue(cs: seq<string>)
    requires Proper(cs) && cs[0][0] != 'T' && Key(cs[1]) == Key(cs[0])
    requires cs[0][0] == cs[1][0] == cs[2][0] == cs[3][0] != cs[4][0]
    ensures ValueOf(cs) == 22
  {
    FourRuns(cs);
    assert !IsStraight(cs) by {
      assert Key(cs[1]) != Key(cs[0]) + 1;
    }
    assert Combination(cs, 2);
    ValueFirst(cs, 2);
  }

  /** Four of a kind (22) is not among the grouped scores, so the whole
      hand is compared from the top card down and the kicker comes
      before the quadruple: four threes with a king rank below four twos
      with an ace. */
  lemma FourOfAKindKicker()
    ensures Proper(FourTwos) && Proper(FourThrees)
    ensures Key(FourThrees[0]) > Key(FourTwos[0])
    ensures Below(FourThrees, FourTwos)
  {
    FourTwosValue();
    FourThreesValue();
    TopCardDecides(FourThrees, FourTwos);
  }

  lemma FourTwosValue()
    ensures Proper(FourTwos) && ValueOf(FourTwos) == 22 && Key(FourTwos[4]) == 14
    ensures Key(FourTwos[0]) == 2
  {
    assert Proper(FourTwos);
    FourOfAKindValue(FourTwos);
  }

  lemma FourThreesValue()
    ensures Proper(FourThrees) && ValueOf(FourThrees) == 22 && Key(FourThrees[4]) == 13
    ensures Key(FourThrees[0]) == 3
  {
    assert Proper(FourThrees);
    FourOfAKindValue(FourThrees);
  }

  /** Between two hands of an ungrouped value, the top cards are compared
      first. */
  lemma TopCardDecides(a: seq<string>, b: seq<string>)
    requires Proper(a) && Proper(b) && ValueOf(a) == ValueOf(b)
    requires ValueOf(a) !in GroupedScores
    requires Key(a[4]) < Key(b[4])
    ensures Below(a, b)
  {
    var v := ValueOf(a);
    assert ScoringOf(a, Runs(a), v)[0] == a[4];
    assert ScoringOf(b, Runs(b), v)[0] == b[4];
  }

  /** A flush of hearts without a pair: 2, 4, 6, 8, 10. */
  const LowFlush: seq<string> := ["2H", "4H", "6H", "8H", "TH"]

  /** A flush of hearts without a pair: 3, 5, 7, 9, jack. */
  const HighFlush: seq<string> := ["3H", "5H", "7H", "9H", "JH"]

  /** A flush with five different, non-consecutive denominations is worth
      20, and its run-lengths are all one. */
  lemma PairlessFlushValue(cs: seq<string>)
    requires Proper(cs) && cs[0][0] != 'T' && Key(cs[1]) != Key(cs[0]) + 1
    requires forall i :: 0 < i < 5 ==> cs[i - 1][0] != cs[i][0]
    requires cs[0][1] != '\n' && forall i :: 0 <= i < 5 ==> cs[i][1] == cs[0][1]
    ensures Runs(cs) == [1, 1, 1, 1, 1]
    ensures ValueOf(cs) == 20
  {
    RunsOfDistinct(FirstChars(cs));
    assert Runs(cs) == [1, 1, 1, 1, 1];
    FlushMeaning(cs);
    assert !IsFourOfAKind(cs) && !IsOnePair(cs);
    ValueFirst(cs, 4);
  }

  lemma LowFlushValue()
    ensures Proper(LowFlush) && ValueOf(LowFlush) == 20 && Runs(LowFlush) == [1, 1, 1, 1, 1]
  {
    assert Proper(LowFlush);
    PairlessFlushValue(LowFlush);
  }

  lemma HighFlushValue()
    ensures Proper(HighFlush) && ValueOf(HighFlush) == 20 && Runs(HighFlush) == [1, 1, 1, 1, 1]
  {
    assert Proper(HighFlush);
    PairlessFlushValue(HighFlush);
  }

  /** Card by card, the second flush is the higher one. */
  lemma FlushDenominations()
    ensures forall i :: 0 <= i < 5 ==> Key(LowFlush[i]) < Key(HighFlush[i])
  {
    assert Key(LowFlush[0]) == 2 && Key(LowFlush[1]) == 4 && Key(LowFlush[2]) == 6;
    assert Key(LowFlush[3]) == 8 && Key(LowFlush[4]) == 10;
    assert Key(HighFlush[0]) == 3 && Key(HighFlush[1]) == 5 && Key(HighFlush[2]) == 7;
    assert Key(HighFlush[3]) == 9 && Key(HighFlush[4]) == 11;
  }

  /** A flush is a grouped score (20), but a flush without a pair has no
      run longer than one, so it has no scoring cards at all: two such
      flushes compare equal though one is higher card by card. */
  lemma PairlessFlushesTie()
    ensures Proper(LowFlush) && Proper(HighFlush)
    ensures Same(LowFlush, HighFlush)
  {
    LowFlushValue();
    HighFlushValue();
    SinglesTie(LowFlush, HighFlush);
  }

  /** Two hands of the same grouped value whose runs all have length one
      have no scoring cards, and so compare equal. */
  lemma SinglesTie(a: seq<string>, b: seq<string>)
    requires Proper(a) && Proper(b) && ValueOf(a) == ValueOf(b)
    requires ValueOf(a) in GroupedScores
    requires Runs(a) == Runs(b) == [1, 1, 1, 1, 1]
    ensures Same(a, b)
  {
    GroupedFacts(a, Runs(a), Key);
    GroupedFacts(b, Runs(b), Key);
    LongRunsSingles(Runs(a));
    assert Grouped(a, Runs(a)) == [] && Grouped(b, Runs(b)) == [];
  }

  /** One step of the `n_of_a_kind` scan over the first characters `f`:
      `st` and the open run `counter` describe `f[..i + 1]`, and `next` is
      the following character, or a sentinel different from the last one. */
  lemma RunsStep(f: seq<char>, i: nat, st: seq<int>, counter: int, next: char)
    requires i < |f| && st + [counter] == RunsOf(f[..i + 1])
    requires i + 1 < |f| ==> next == f[i + 1]
    requires i + 1 == |f| ==> next != f[i]
    ensures f[i] != next && i + 1 < |f| ==> st + [counter] + [1] == RunsOf(f[..i + 2])
    ensures f[i] != next && i + 1 == |f| ==> st + [counter] == RunsOf(f)
    ensures f[i] == next ==> st + [counter + 1] == RunsOf(f[..i + 2])
  {
    var p := f[..i + 1];
    if i + 1 < |f| {
      TakeNext(f, i + 1);
      if f[i] == next {
        RunsExtend(p, next, st, counter);
      } else {
        RunsOpen(p, next, st, counter);
      }
    } else {
      assert p == f;
    }
  }

  /** The `zip` loop of `break_tie`: walks both scoring sequences and
      returns the first difference of denominations, or 0. */
  method ZipWalk(a: seq<string>, b: seq<string>) returns (d: int)
    requires forall x :: x in a ==> WellFormed(x)
    requires forall x :: x in b ==> WellFormed(x)
    ensures d == ZipDiff(a, b)
  {
    var i := 0;
    while i < |a| && i < |b|
      invariant 0 <= i <= |a| && i <= |b|
      invariant ZipDiffFrom(a, b, i) == ZipDiff(a, b)
    {
      assert a[i] in a && b[i] in b;
      var da, db := Denom(a[i]).value, Denom(b[i]).value;
      if da != db {
        return da - db;
      }
      i := i + 1;
    }
    return 0;
  }

  /** Once both values are computed the run-lengths a grouped score needs
      are filled, so the scoring cards are those of `TieDiff`. */
  lemma TieFromState(ca: seq<string>, sa: seq<int>, cb: seq<string>, sb: seq<int>)
    requires Proper(ca) && Proper(cb) && ValueOf(ca) == ValueOf(cb)
    requires sa == [] || sa == Runs(ca)
    requires sb == [] || sb == Runs(cb)
    requires ValueOf(ca) < 23 ==> sa == Runs(ca) && sb == Runs(cb)
    ensures ZipDiff(ScoringOf(ca, sa, ValueOf(ca)), ScoringOf(cb, sb, ValueOf(ca))) == TieDiff(ca, cb)
  {
  }

  /** A poker hand: the caller's list, sorted in place and kept by
      reference, the run-lengths `n_of_a_kind` fills on first use, and
      the value `value` caches (`None` before the first call). */
  class Hand {
    const cards: array<string>
    var stretches: seq<int>
    var cached: Option<int>

    /** `value()` has run: the cache holds the value, and the run-lengths
        are filled whenever the value is below 23. */
    ghost predicate Evaluated()
      requires Valid()
      reads this, cards
    {
      cached == Some(ValueOf(cards[..])) && (ValueOf(cards[..]) < 23 ==> stretches == Runs(cards[..]))
    }

    ghost predicate Valid()
      reads this, cards
    {
      && Proper(cards[..])
      && SortedBy(cards[..], Key)
      && (stretches == [] || stretches == Runs(cards[..]))
      && (cached.Some? ==> cached.value == ValueOf(cards[..]))
      && (cached.Some? && cached.value < 23 ==> stretches == Runs(cards[..]))
    }

    /** `Hand(cards)`: sorts the caller's list by denomination (a stable
        sort, as `list.sort` with `cards_cmp` is) and keeps that list. */
    constructor (cs: array<string>)
      requires Proper(cs[..])
      modifies cs
      ensures cards == cs && cs[..] == SortBy(old(cs[..]), Key)
      ensures stretches == [] && cached == None
      ensures Valid()
    {
      var sorted := SortBy(cs[..], Key);
      forall i | 0 <= i < cs.Length {
        cs[i] := sorted[i];
      }
      assert cs[..] == sorted;
      forall i | 0 <= i < |sorted| ensures WellFormed(sorted[i]) {
        assert sorted[i] in multiset(sorted);
      }
      cards := cs;
      stretches := [];
      cached := None;
    }

    /** `n_of_a_kind(n)`: fills the run-lengths on first use, comparing
        each card's first character with the next one's (`'X'` after the
        last card), and reports whether a run of length `n` exists. */
    method NOfAKind(n: int) returns (b: bool)
      requires Valid()
      modifies this
      ensures Valid() && cached == old(cached)
      ensures stretches == Runs(cards[..])
      ensures b <==> exists k :: 0 <= k < |stretches| && stretches[k] == n
    {
      if stretches == [] {
        ghost var f := FirstChars(cards[..]);
        var counter := 1;
        var i := 0;
        while i < 5
          invariant 0 <= i <= 5 && cached == old(cached)
          invariant i < 5 ==> stretches + [counter] == RunsOf(f[..i + 1])
          invariant i == 5 ==> stretches == RunsOf(f)
        {
          var a := cards[i];
          var c := if i < 4 then cards[i + 1] else "X";
          RunsStep(f, i, stretches, counter, c[0]);
          if a[0] != c[0] {
            stretches := stretches + [counter];
            counter := 1;
          } else {
            counter := counter + 1;
          }
          i := i + 1;
        }
      }
      b := n in stretches;
    }

    /** `straight()`: each denomination is its predecessor's plus one. */
    method Straight() returns (b: bool)
      requires Valid()
      ensures b <==> forall t :: 1 <= t < 5 ==> Key(cards[t]) == Key(cards[t - 1]) + 1
    {
      var prev := Denom(cards[0]).value;
      var i := 1;
      while i < 5
        invariant 1 <= i <= 5 && prev == Key(cards[i - 1])
        invariant forall t :: 1 <= t < i ==> Key(cards[t]) == Key(cards[t - 1]) + 1
      {
        if Denom(cards[i]).value != prev + 1 {
          return false;
        }
        prev := prev + 1;
        i := i + 1;
      }
      return true;
    }

    /** `flush()`: matching the joined cards against the flush pattern
        succeeds exactly when all five suits are the first card's (and
        that suit is not a newline, which `.` does not match). */
    method Flush() returns (b: bool)
      requires Valid()
      ensures b <==> cards[0][1] != '\n' && forall i :: 0 <= i < 5 ==> cards[i][1] == cards[0][1]
      ensures b == IsFlush(cards[..])
    {
      FlushMeaning(cards[..]);
      b := FlushPattern(Concat(cards[..]));
    }

    method StraightFlush() returns (b: bool)
      requires Valid()
      ensures b == IsStraightFlush(cards[..])
    {
      b := Straight();
      if b {
        b := Flush();
      }
    }

    method RoyalFlush() returns (b: bool)
      requires Valid()
      ensures b == IsRoyalFlush(cards[..])
    {
      b := false;
      if cards[0][0] == 'T' {
        b := StraightFlush();
      }
    }

    method FourOfAKind() returns (b: bool)
      requires Valid()
      modifies this
      ensures Valid() && cached == old(cached) && stretches == Runs(cards[..])
      ensures b == IsFourOfAKind(cards[..])
    {
      b := NOfAKind(4);
    }

    /** `full_house()`: a pair, and the runs are exactly a pair and a
        triple in either order. */
    method FullHouse() returns (b: bool)
      requires Valid()
      modifies this
      ensures Valid() && cached == old(cached) && stretches == Runs(cards[..])
      ensures b <==> stretches == [2, 3] || stretches == [3, 2]
      ensures b == IsFullHouse(cards[..])
    {
      b := OnePair();
      if b {
        b := stretches == [2, 3] || stretches == [3, 2];
      }
    }

    method ThreeOfAKind() returns (b: bool)
      requires Valid()
      modifies this
      ensures Valid() && cached == old(cached) && stretches == Runs(cards[..])
      ensures b == IsThreeOfAKind(cards[..])
    {
      b := NOfAKind(3);
    }

    /** `two_pairs()`: exactly two runs of length two. */
    method TwoPairs() returns (b: bool)
      requires Valid()
      modifies this
      ensures Valid() && cached == old(cached) && stretches == Runs(cards[..])
      ensures b <==> Count(stretches, 2) == 2
      ensures b == IsTwoPairs(cards[..])
    {
      b := NOfAKind(2);
      if b {
        b := Count(stretches, 2) == 2;
      } else {
        CountPositive(stretches, 2);
      }
    }

    method OnePair() returns (b: bool)
      requires Valid()
      modifies this
      ensures Valid() && cached == old(cached) && stretches == Runs(cards[..])
      ensures b == IsOnePair(cards[..])
    {
      b := NOfAKind(2);
    }

    /** Handler number `t` of `_handlers`; the handlers from
        `four_of_a_kind` on fill the run-lengths. */
    method Handler(t: nat) returns (b: bool)
      requires Valid() && t < 9
      requires t >= 3 ==> stretches == Runs(cards[..])
      modifies this
      ensures Valid() && cached == old(cached)
      ensures old(stretches) != [] ==> stretches == old(stretches)
      ensures t >= 2 ==> stretches == Runs(cards[..])
      ensures t < 2 ==> stretches == old(stretches)
      ensures b == Combination(cards[..], t)
    {
      match t
      case 0 => b := RoyalFlush();
      case 1 => b := StraightFlush();
      case 2 => b := FourOfAKind();
      case 3 => b := FullHouse();
      case 4 => b := Flush();
      case 5 => b := Straight();
      case 6 => b := ThreeOfAKind();
      case 7 => b := TwoPairs();
      case _ => b := OnePair();
    }

    /** `value()`: recomputed while the cache is `None` or 0 (both are
        false in Python), then cached. */
    method Value() returns (v: int)
      requires Valid()
      modifies this
      ensures Valid() && v == ValueOf(cards[..]) && cached == Some(v)
      ensures v < 23 ==> stretches == Runs(cards[..])
      ensures old(stretches) != [] || v >= 23 ==> stretches == old(stretches)
    {
      if cached.None? || cached.value == 0 {
        ghost var cs := cards[..];
        var t := 0;
        while t < 9
          invariant t <= 9 && Valid() && cached == old(cached) && cards[..] == cs
          invariant forall u :: 0 <= u < t ==> !Combination(cs, u)
          invariant t >= 3 ==> stretches == Runs(cs)
          invariant old(stretches) != [] || t <= 2 ==> stretches == old(stretches)
        {
          var holds := Handler(t);
          if holds {
            ValueFirst(cs, t);
            cached := Some(24 - t);
            break;
          }
          t := t + 1;
        }
        if cached.None? || cached.value == 0 {
          ValueHighCard(cs);
          cached := Some(Denom(cards[4]).value);
        }
      }
      v := cached.value;
    }

    /** `scoring_cards(score)`: walks the run-lengths collecting the runs
        longer than one for a grouped score, takes the whole hand
        otherwise, and reverses. */
    method ScoringCards(score: int) returns (result: seq<string>)
      requires Valid()
      ensures result == ScoringOf(cards[..], stretches, score)
    {
      result := [];
      if score in [15, 16, 17, 20, 21] {
        if stretches != [] {
          result := GroupedWalk(cards[..], stretches);
        }
      } else {
        result := cards[..];
      }
      result := Reverse(result);
    }

    /** `break_tie(other)`: this hand's value picks the scoring cards of
        both hands, which are compared position by position. */
    method BreakTie(other: Hand) returns (d: int)
      requires Valid() && other.Valid()
      modifies this
      ensures Valid() && other.Valid()
      ensures old(stretches) != [] || ValueOf(cards[..]) >= 23 ==> stretches == old(stretches)
      ensures Evaluated()
      ensures d == ZipDiff(ScoringOf(cards[..], stretches, ValueOf(cards[..])),
                           ScoringOf(other.cards[..], other.stretches, ValueOf(cards[..])))
    {
      var val := Value();
      var a := ScoringCards(val);
      var b := other.ScoringCards(val);
      ScoringDescending(cards[..], stretches, val);
      ScoringDescending(other.cards[..], other.stretches, val);
      d := ZipWalk(a, b);
    }

    /** `__lt__` */
    method Less(other: Hand) returns (r: bool)
      requires Valid() && other.Valid()
      modifies this, other
      ensures Valid() && other.Valid()
      ensures Evaluated() && other.Evaluated()
      ensures old(stretches) != [] || ValueOf(cards[..]) >= 23 ==> stretches == old(stretches)
      ensures old(other.stretches) != [] || ValueOf(other.cards[..]) >= 23 ==> other.stretches == old(other.stretches)
      ensures r == Below(cards[..], other.cards[..])
    {
      var va := Value();
      var vb := other.Value();
      if va == vb {
        ghost var sb := other.stretches;
        var d := BreakTie(other);
        TieFromState(cards[..], stretches, other.cards[..], other.stretches);
        r := d < 0;
      } else {
        r := va < vb;
      }
    }

    /** `__le__` */
    method LessOrEqual(other: Hand) returns (r: bool)
      requires Valid() && other.Valid()
      modifies this, other
      ensures Valid() && other.Valid()
      ensures Evaluated() && other.Evaluated()
      ensures old(stretches) != [] || ValueOf(cards[..]) >= 23 ==> stretches == old(stretches)
      ensures old(other.stretches) != [] || ValueOf(other.cards[..]) >= 23 ==> other.stretches == old(other.stretches)
      ensures r == AtMost(cards[..], other.cards[..])
    {
      var va := Value();
      var vb := other.Value();
      if va == vb {
        var d := BreakTie(other);
        TieFromState(cards[..], stretches, other.cards[..], other.stretches);
        r := d <= 0;
      } else {
        r := va <= vb;
      }
    }

    /** `__eq__` */
    method Equal(other: Hand) returns (r: bool)
      requires Valid() && other.Valid()
      modifies this, other
      ensures Valid() && other.Valid()
      ensures Evaluated() && other.Evaluated()
      ensures old(stretches) != [] || ValueOf(cards[..]) >= 23 ==> stretches == old(stretches)
      ensures old(other.stretches) != [] || ValueOf(other.cards[..]) >= 23 ==> other.stretches == old(other.stretches)
      ensures r == Same(cards[..], other.cards[..])
    {
      var va := Value();
      var vb := other.Value();
      r := false;
      if va == vb {
        var d := BreakTie(other);
        TieFromState(cards[..], stretches, other.cards[..], other.stretches);
        r := d == 0;
      }
    }

    /** `__ne__`: not `__eq__`. */
    method NotEqual(other: Hand) returns (r: bool)
      requires Valid() && other.Valid()
      modifies this, other
      ensures Valid() && other.Valid()
      ensures Evaluated() && other.Evaluated()
      ensures old(stretches) != [] || ValueOf(cards[..]) >= 23 ==> stretches == old(stretches)
      ensures old(other.stretches) != [] || ValueOf(other.cards[..]) >= 23 ==> other.stretches == old(other.stretches)
      ensures r == !Same(cards[..], other.cards[..])
    {
      r := Equal(other);
      r := !r;
    }

    /** `__gt__`: not `__le__`, which by `OperatorsAgree` is `other < this`. */
    method Greater(other: Hand) returns (r: bool)
      requires Valid() && other.Valid()
      modifies this, other
      ensures Valid() && other.Valid()
      ensures Evaluated() && other.Evaluated()
      ensures old(stretches) != [] || ValueOf(cards[..]) >= 23 ==> stretches == old(stretches)
      ensures old(other.stretches) != [] || ValueOf(other.cards[..]) >= 23 ==> other.stretches == old(other.stretches)
      ensures r == !AtMost(cards[..], other.cards[..])
    {
      r := LessOrEqual(other);
      r := !r;
    }

    /** `__ge__`: not `__lt__`, which by `OperatorsAgree` is `other <= this`. */
    method GreaterOrEqual(other: Hand) returns (r: bool)
      requires Valid() && other.Valid()
      modifies this, other
      ensures Valid() && other.Valid()
      ensures Evaluated() && other.Evaluated()
      ensures old(stretches) != [] || ValueOf(cards[..]) >= 23 ==> stretches == old(stretches)
      ensures old(other.stretches) != [] || ValueOf(other.cards[..]) >= 23 ==> other.stretches == old(other.stretches)
      ensures r == !Below(cards[..], other.cards[..])
    {
      r := Less(other);
      r := !r;
    }
  }
}

=== FILE: combinatorics.dfy ===
/** The small helpers of the Project Euler exercises: the iterative
    Fibonacci numbers of both ports, the decimal digits of a number, the
    sorted de-duplication `nub` (a binary heap emptied one minimum at a
    time) and the square-factor test built on `factors`. */
module Combinatorics {
  import opened Numbers
  import opened Wrappers
  import PrimesPy

  // ---------------------------------------------------------------- fib

  /** Python's `fib(n)`: the loop runs `n - 2` times, `(total, last)`
      walking up consecutive Fibonacci numbers, so the result is F(n) with
      F(1) = F(2) = 1, and 1 whenever `n <= 2`. */
  method FibPy(n: int) returns (r: nat)
    ensures n <= 2 ==> r == 1
    ensures n >= 1 ==> r == Fibonacci(n)
  {
    var total: nat, last: nat := 1, 1;
    var i := 0;
    while i < n - 2
      invariant 0 <= i <= (if n >= 2 then n - 2 else 0)
      invariant total == Fibonacci(i + 2) && last == Fibonacci(i + 1)
    {
      var temp := total;
      total := total + last;
      last := temp;
      i := i + 1;
    }
    r := total;
  }

  /** The C++ `fib(n)`: the guard `n > 3` runs the loop `n - 3` times, so
      the result is F(n - 1), one index behind the Python version, and 1
      whenever `n <= 3`. `mpz_class` is unbounded, as `nat` is. */
  method FibCxx(n: int) returns (r: nat)
    ensures r >= 1
    ensures n <= 3 ==> r == 1
    ensures n >= 2 ==> r == Fibonacci(n - 1)
  {
    var total: nat, last: nat := 1, 1;
    var k := n;
    while k > 3
      invariant k <= n && (n >= 3 ==> k >= 3)
      invariant n >= 3 ==> total == Fibonacci(n - k + 2) && last == Fibonacci(n - k + 1)
      invariant n < 3 ==> total == 1
    {
      var temp := total;
      total := total + last;
      last := temp;
      k := k - 1;
    }
    r := total;
    if n >= 2 {
      FibonacciMonotone(1, n - 1);
    }
  }

  // ---------------------------------------------------------------- digits

  /** The number a list of decimal digits stands for, least significant first. */
  function FromDigits(ds: seq<int>): (k: int)
  {
    if |ds| == 0 then 0 else ds[0] + 10 * FromDigits(ds[1..])
  }

  /** The digits `digits(k)` returns: least significant first, no trailing
      zero except the single digit of 0. */
  function DigitsOf(k: nat): (ds: seq<int>)
    decreases k
  {
    if k < 10 then [k] else [k % 10] + DigitsOf(k / 10)
  }

  /** A digit list in the form `digits` produces. */
  predicate Canonical(ds: seq<int>) {
    && |ds| >= 1
    && (forall i :: 0 <= i < |ds| ==> 0 <= ds[i] <= 9)
    && (|ds| == 1 || ds[|ds| - 1] != 0)
  }

  /** `DigitsOf(k)` is canonical and stands for `k`. */
  lemma {:induction false} DigitsOfValue(k: nat)
    ensures Canonical(DigitsOf(k)) && FromDigits(DigitsOf(k)) == k
    decreases k
  {
    if k >= 10 {
      DigitsOfValue(k / 10);
      var ds := DigitsOf(k);
      assert ds[1..] == DigitsOf(k / 10);
    }
  }

  /** A canonical list other than `[0]` stands for a positive number. */
  lemma {:induction false} CanonicalPositive(ds: seq<int>)
    requires Canonical(ds) && ds != [0]
    ensures FromDigits(ds) >= 1
    decreases |ds|
  {
    if |ds| > 1 {
      var rest := ds[1..];
      assert rest[|rest| - 1] == ds[|ds| - 1];
      CanonicalPositive(rest);
    }
  }

  /** Every canonical digit list is the digits of the number it stands
      for: together with `DigitsOfValue`, `digits` and `FromDigits` are
      inverse to each other. */
  lemma {:induction false} FromDigitsDigits(ds: seq<int>)
    requires Canonical(ds)
    ensures FromDigits(ds) >= 0 && DigitsOf(FromDigits(ds)) == ds
    decreases |ds|
  {
    if |ds| > 1 {
      var rest := ds[1..];
      assert rest[|rest| - 1] == ds[|ds| - 1];
      if rest == [0] {
        assert false;
      }
      CanonicalPositive(rest);
      FromDigitsDigits(rest);
      var k := FromDigits(ds);
      ModUnique(k, 10, FromDigits(rest), ds[0]);
      assert ds == [ds[0]] + rest;
    }
  }

  /** The part of the digits the loop of `digits` has yet to append once
      `n` is what is left of the number. */
  function Pending(k: nat): (p: seq<int>) {
    if k == 0 then [] else DigitsOf(k)
  }

  /** One round of the loop of `digits` takes the last decimal digit off. */
  lemma PendingStep(k: nat)
    requires k > 0
    ensures Pending(k) == [k % 10] + Pending(k / 10)
  {
  }

  /** `digits(n)`: the decimal digits of `abs(n)`, least significant
      first; the list for 0 is `[0]`. */
  method Digits(n: int) returns (ds: seq<int>)
    ensures ds == DigitsOf(if n < 0 then -n else n)
    ensures Canonical(ds) && FromDigits(ds) == (if n < 0 then -n else n)
  {
    var a: nat := if n < 0 then -n else n;
    var k := a;
    ds := [];
    if k > 0 {
      while k > 0
        invariant 0 <= k && ds + Pending(k) == DigitsOf(a)
        decreases k
      {
        PendingStep(k);
        ds := ds + [k % 10];
        k := k / 10;
      }
      assert ds == DigitsOf(a);
    } else {
      ds := ds + [k];
    }
    DigitsOfValue(a);
  }

  // ---------------------------------------------------------------- nub

  /** Some least element of a non-empty multiset. */
  lemma {:induction false} Minimum(h: multiset<int>) returns (m: int)
    requires |h| > 0
    ensures m in h && forall y :: y in h ==> m <= y
    decreases |h|
  {
    if forall y :: y !in h {
      assert false;
    }
    var x :| x in h;
    var rest := h - multiset{x};
    if |rest| == 0 {
      m := x;
      assert h == multiset{x};
    } else {
      var m' := Minimum(rest);
      m := if x < m' then x else m';
      forall y | y in h ensures m <= y {
        if y != x {
          assert y in rest;
        }
      }
    }
  }

  /** `heapq.heappop`: takes one copy of a least element off the heap,
      whose contents are a multiset. */
  method PopMin(heap: multiset<int>) returns (m: int, rest: multiset<int>)
    requires |heap| > 0
    ensures m in heap && forall y :: y in heap ==> m <= y
    ensures rest == heap - multiset{m} && |rest| == |heap| - 1
  {
    var least := Minimum(heap);
    m :| m in heap && forall y :: y in heap ==> m <= y;
    rest := heap - multiset{m};
  }

  /** One pop of the `nub` loop: the least element of the heap is at
      least the last one kept, so appending it when it differs keeps the
      list ascending, and no value is lost. */
  lemma NubNext(result: seq<int>, heap: multiset<int>, lead: int, rest: multiset<int>, result': seq<int>)
    requires |result| > 0 && Ascending(result)
    requires forall y :: y in heap ==> result[|result| - 1] <= y
    requires lead in heap && (forall y :: y in heap ==> lead <= y) && rest == heap - multiset{lead}
    requires result' == if result[|result| - 1] != lead then result + [lead] else result
    ensures |result'| > 0 && Ascending(result') && result'[|result'| - 1] == lead
    ensures forall y :: y in rest ==> lead <= y
    ensures forall x :: x in result || x in heap <==> x in result' || x in rest
  {
    forall y | y in rest ensures lead <= y {
      assert y in heap;
    }
    forall x ensures x in result || x in heap <==> x in result' || x in rest {
      if x in heap && x != lead {
        assert x in rest;
      }
    }
  }

  /** `nub(nums)`: the values of `nums`, each once, in increasing order.
      `nums` is copied, so it is left as it was (a sequence is a value
      here); the first `heappop` fails on an empty list, modelled as
      `None`. */
  method Nub(nums: seq<int>) returns (r: Option<seq<int>>)
    ensures r.None? <==> |nums| == 0
    ensures r.Some? ==> Ascending(r.value) && forall x :: x in r.value <==> x in nums
  {
    var heap := multiset(nums);
    if |heap| == 0 {
      return None;
    }
    var first;
    first, heap := PopMin(heap);
    var result := [first];
    while |heap| > 0
      invariant |result| > 0 && Ascending(result)
      invariant forall y :: y in heap ==> result[|result| - 1] <= y
      invariant forall x :: x in nums <==> x in result || x in heap
      decreases |heap|
    {
      var lead;
      ghost var heap0, result0 := heap, result;
      lead, heap := PopMin(heap);
      if result[|result| - 1] != lead {
        result := result + [lead];
      }
      NubNext(result0, heap0, lead, heap, result);
    }
    r := Some(result);
  }

  /** An ascending list is determined by its members: whatever order or
      repetition `nums` has, `nub(nums)` is the one ascending list of its
      values. */
  lemma {:induction false} AscendingUnique(a: seq<int>, b: seq<int>)
    requires Ascending(a) && Ascending(b)
    requires forall x :: x in a <==> x in b
    ensures a == b
    decreases |a|
  {
    if |a| == 0 {
      assert Members(b) == Members(a);
    } else {
      assert a[0] in a && b[0] in b;
      assert a[0] == b[0];
      var a', b' := a[1..], b[1..];
      forall x ensures x in a' <==> x in b' {
        if x in a' {
          assert x in b && x != b[0];
        }
        if x in b' {
          assert x in a && x != a[0];
        }
      }
      AscendingUnique(a', b');
      assert a == [a[0]] + a' && b == [b[0]] + b';
    }
  }

  // ---------------------------------------------------------------- has_square

  /** Some value occurs twice. */
  predicate HasRepeat(s: seq<int>) {
    exists i, j :: 0 <= i < j < |s| && s[i] == s[j]
  }

  /** The set of values of a list. */
  function Members(s: seq<int>): (m: set<int>)
    ensures forall x :: x in m <==> x in s
  {
    if |s| == 0 then {}
    else
      assert forall x :: x in s <==> x in s[..|s| - 1] || x == s[|s| - 1];
      Members(s[..|s| - 1]) + {s[|s| - 1]}
  }

  /** A last entry that occurred before repeats and adds no value. */
  lemma LastRepeats(s: seq<int>)
    requires |s| > 0 && s[|s| - 1] in s[..|s| - 1]
    ensures HasRepeat(s) && Members(s) == Members(s[..|s| - 1])
  {
    var t := s[..|s| - 1];
    var i :| 0 <= i < |t| && t[i] == s[|s| - 1];
    assert s[i] == s[|s| - 1];
  }

  /** A last entry that did not occur before adds a value and no repeat. */
  lemma LastFresh(s: seq<int>)
    requires |s| > 0 && s[|s| - 1] !in s[..|s| - 1]
    ensures HasRepeat(s) <==> HasRepeat(s[..|s| - 1])
    ensures Members(s) == Members(s[..|s| - 1]) + {s[|s| - 1]}
  {
    var t := s[..|s| - 1];
    if HasRepeat(s) {
      var i, j :| 0 <= i < j < |s| && s[i] == s[j];
      assert j < |s| - 1;
      assert t[i] == t[j];
    }
    if HasRepeat(t) {
      var i, j :| 0 <= i < j < |t| && t[i] == t[j];
      assert s[i] == s[j];
    }
  }

  /** A list has fewer distinct values than entries exactly when some
      value repeats. */
  lemma {:induction false} MembersCount(s: seq<int>)
    ensures |Members(s)| <= |s|
    ensures HasRepeat(s) <==> |Members(s)| < |s|
    decreases |s|
  {
    if |s| > 0 {
      var t := s[..|s| - 1];
      MembersCount(t);
      if s[|s| - 1] in t {
        LastRepeats(s);
      } else {
        LastFresh(s);
      }
    }
  }

  /** `d * d` divides `n`. */
  predicate SquareDivides(d: int, n: int) {
    Divides(d * d, n)
  }

  /** A repeated factor `p` in a product makes `p * p` a factor. */
  lemma RepeatGivesSquare(facts: seq<int>, i: int, j: int)
    requires 0 <= i < j < |facts| && facts[i] == facts[j] && facts[i] != 0
    ensures SquareDivides(facts[i], Product(facts))
  {
    var p := facts[i];
    var r := facts[..j] + facts[j + 1..];
    ProductRemove(facts, j);
    assert r[i] == p;
    ProductRemove(r, i);
    var a := Product(r);
    var q := Product(r[..i] + r[i + 1..]);
    assert Product(facts) == p * a && a == p * q;
    SquareMultiple(p, q);
  }

  lemma SquareMultiple(p: int, q: int)
    requires p != 0
    ensures Divides(p * p, p * (p * q))
  {
    assert p * (p * q) == (p * p) * q;
    MultipleMod(p * p, q);
  }

  /** Cancelling a positive factor. */
  lemma Cancel(p: int, a: int, b: int)
    requires p > 0 && p * a == p * b
    ensures a == b
  {
    if a < b {
      MulMonotone(1, b - a, p);
    } else if a > b {
      MulMonotone(1, a - b, p);
    }
  }

  /** Dropping one entry of a list of primes leaves a list of primes. */
  lemma RemovePrimes(facts: seq<int>, i: int)
    requires 0 <= i < |facts| && forall k :: 0 <= k < |facts| ==> IsPrime(facts[k])
    ensures var r := facts[..i] + facts[i + 1..]; forall k :: 0 <= k < |r| ==> IsPrime(r[k])
  {
    var r := facts[..i] + facts[i + 1..];
    forall k | 0 <= k < |r| ensures IsPrime(r[k]) {
      if k < i {
        assert r[k] == facts[k];
      } else {
        assert r[k] == facts[k + 1];
      }
    }
  }

  /** The square of a prime `p` dividing a product of primes finds `p`
      twice in it. */
  lemma PrimeSquareRepeats(facts: seq<int>, p: int)
    requires forall i :: 0 <= i < |facts| ==> IsPrime(facts[i])
    requires IsPrime(p) && SquareDivides(p, Product(facts))
    ensures HasRepeat(facts)
  {
    var n := Product(facts);
    var q := n / (p * p);
    assert n == (p * p) * q;
    assert n == p * (p * q);
    MultipleMod(p, p * q);
    PrimeInProduct(facts, p);
    var i :| 0 <= i < |facts| && facts[i] == p;
    var r := facts[..i] + facts[i + 1..];
    ProductRemove(facts, i);
    Cancel(p, Product(r), p * q);
    MultipleMod(p, q);
    RemovePrimes(facts, i);
    PrimeInProduct(r, p);
    var k :| 0 <= k < |r| && r[k] == p;
    if k < i {
      assert facts[k] == facts[i];
    } else {
      assert facts[i] == facts[k + 1];
    }
  }

  /** A prime factorisation repeats a prime exactly when the number has a
      square factor other than 1. */
  lemma RepeatIsSquare(facts: seq<int>, n: int)
    requires forall i :: 0 <= i < |facts| ==> IsPrime(facts[i])
    requires Product(facts) == n && n >= 2
    ensures HasRepeat(facts) <==> exists d :: 2 <= d && SquareDivides(d, n)
  {
    if HasRepeat(facts) {
      var i, j :| 0 <= i < j < |facts| && facts[i] == facts[j];
      RepeatGivesSquare(facts, i, j);
      assert IsPrime(facts[i]);
    }
    if exists d :: 2 <= d && SquareDivides(d, n) {
      var d :| 2 <= d && SquareDivides(d, n);
      var p := PrimeDivisor(d);
      var e := d / p;
      assert d == p * e;
      assert d * d == (p * p) * (e * e);
      MultipleMod(p * p, e * e);
      DividesTrans(p * p, d * d, n);
      PrimeSquareRepeats(facts, p);
    }
  }

  /** An ascending list repeats no value. */
  lemma AscendingNoRepeat(u: seq<int>)
    requires Ascending(u)
    ensures !HasRepeat(u)
  {
  }

  /** An ascending list with the values of `s` is shorter than `s`
      exactly when some value of `s` repeats. */
  lemma ShorterIsRepeat(s: seq<int>, u: seq<int>)
    requires Ascending(u) && forall x :: x in u <==> x in s
    ensures |u| < |s| <==> HasRepeat(s)
  {
    MembersCount(s);
    MembersCount(u);
    AscendingNoRepeat(u);
    assert Members(u) == Members(s);
  }

  /** `has_square(n)` as written: `len(nub(facts)) < facts` compares an
      int with the list itself, which Python 2 holds true whatever the
      factors are. For `n <= 1` the factor list is empty and `nub` fails. */
  method HasSquare(n: int) returns (r: Option<bool>)
    ensures n <= 1 ==> r.None?
    ensures n >= 2 ==> r == Some(true)
  {
    var facts := PrimesPy.Factors(n);
    if n >= 2 && |facts| == 0 {
      assert false;
    }
    var u := Nub(facts);
    if u.None? {
      r := None;
    } else {
      // CPython 2 orders numbers before every other type, so the int
      // `len(nub(facts))` is less than the list `facts`.
      r := Some(true);
    }
  }

  /** 6 = 2 * 3 has no square factor other than 1, yet `has_square(6)`
      answers true. */
  lemma SixSquareFree()
    ensures !exists d :: 2 <= d && SquareDivides(d, 6)
  {
    forall d | 2 <= d ensures !SquareDivides(d, 6) {
      if d == 2 {
        ModUnique(6, 4, 1, 2);
      } else {
        MulMonotone(3, d, d);
        MulMonotone(3, d, 3);
        ModUnique(6, d * d, 0, 6);
      }
    }
  }

  /** `has_square` as its comment describes it, comparing with
      `len(facts)`: true exactly when some square other than 1 divides
      `n`. */
  method HasSquareFactor(n: int) returns (r: Option<bool>)
    ensures n <= 1 ==> r.None?
    ensures n >= 2 ==> r.Some? && (r.value <==> exists d :: 2 <= d && SquareDivides(d, n))
  {
    var facts := PrimesPy.Factors(n);
    if n >= 2 && |facts| == 0 {
      assert false;
    }
    var u := Nub(facts);
    if u.None? {
      r := None;
    } else {
      r := Some(|u.value| < |facts|);
      ShorterIsRepeat(facts, u.value);
      RepeatIsSquare(facts, n);
    }
  }
}

=== FILE: euler50.dfy ===
/** `euler_50`: the longest run of consecutive sequence elements whose sum
    is itself an element, over the prefix of the sequence whose running
    sum stays within one million. The sequence is the one `primes
    ps(1000000)` holds; here it is a parameter. */
module Euler50 {
  import opened Numbers
  import opened Wrappers
  import opened PrimesCxx

  const Limit := 1000000

  /** `ps[0] + ... + ps[i]`. */
  function Prefix(ps: seq<int>, i: nat): (sum: int)
    requires i < |ps|
  {
    Sum(ps[..i + 1])
  }

  lemma PrefixFirst(ps: seq<int>)
    requires |ps| > 0
    ensures Prefix(ps, 0) == ps[0]
  {
    var s := ps[..1];
    assert s[..0] == [];
    assert Sum(s) == Sum(s[..0]) + s[0];
  }

  lemma PrefixStep(ps: seq<int>, i: nat)
    requires 1 <= i < |ps|
    ensures Prefix(ps, i) == Prefix(ps, i - 1) + ps[i]
  {
    assert ps[..i + 1][..i] == ps[..i];
  }

  /** The running sum exceeds the limit somewhere after the first element,
      so `top` gets a value. */
  predicate HasTop(ps: seq<int>) {
    exists t :: 1 <= t < |ps| && Prefix(ps, t) > Limit
  }

  /** The first index from `i` on at which the running sum exceeds the limit. */
  function TopFrom(ps: seq<int>, i: nat): (t: nat)
    requires 1 <= i < |ps| && exists t :: i <= t < |ps| && Prefix(ps, t) > Limit
    ensures i <= t < |ps| && Prefix(ps, t) > Limit
    ensures forall k :: i <= k < t ==> Prefix(ps, k) <= Limit
    decreases |ps| - i
  {
    if Prefix(ps, i) > Limit then i else TopFrom(ps, i + 1)
  }

  /** `top`: the first index at which adding the element would take the
      running sum past the limit. */
  function Top(ps: seq<int>): (t: nat)
    requires HasTop(ps)
    ensures 1 <= t < |ps| && Prefix(ps, t) > Limit
    ensures forall k :: 1 <= k < t ==> Prefix(ps, k) <= Limit
  {
    TopFrom(ps, 1)
  }

  /** The sum of the `j - i` elements `ps[i+1..j]`. */
  function Window(ps: seq<int>, i: nat, j: nat): (sum: int)
    requires i < j < |ps|
  {
    Sum(ps[i + 1..j + 1])
  }

  /** `sums[j] - sums[i]` is the window sum. */
  lemma WindowDifference(ps: seq<int>, i: nat, j: nat)
    requires i < j < |ps|
    ensures Prefix(ps, j) - Prefix(ps, i) == Window(ps, i, j)
  {
    var s := ps[..j + 1];
    SumSplit(s, i + 1);
    assert s[..i + 1] == ps[..i + 1];
    assert s[i + 1..] == ps[i + 1..j + 1];
  }

  /** No window of two or more elements below `top` sums to an element. */
  predicate NoLongWindow(ps: seq<int>, top: nat)
    requires top <= |ps|
  {
    forall i, j :: 0 <= i < j < top && j - i >= 2 ==> Window(ps, i, j) !in ps
  }

  /** Window `(i, j)` is the one `euler_50` reports: at least two elements,
      its sum is an element, no longer window's sum is, and no window of
      the same length that starts earlier has a sum that is. */
  predicate LongestWindow(ps: seq<int>, top: nat, i: nat, j: nat)
    requires top <= |ps|
  {
    && i < j < top && j - i >= 2
    && Window(ps, i, j) in ps
    && forall i', j' :: 0 <= i' < j' < top && (j' - i' > j - i || (j' - i' == j - i && i' < i)) ==>
         Window(ps, i', j') !in ps
  }

  /** The reported window is determined by the sequence. */
  lemma LongestWindowUnique(ps: seq<int>, top: nat, i: nat, j: nat, i': nat, j': nat)
    requires top <= |ps|
    requires LongestWindow(ps, top, i, j) && LongestWindow(ps, top, i', j')
    ensures i == i' && j == j'
  {
  }

  /** The first loop of `euler_50`: the running sums, stopping at `top`;
      entries from `top` on keep the vector's initial zero. */
  method PrefixSums(ps: seq<int>) returns (sums: seq<int>, top: nat)
    requires HasTop(ps)
    ensures |sums| == |ps| && top == Top(ps)
    ensures forall k :: 0 <= k < top ==> sums[k] == Prefix(ps, k)
    ensures forall k :: top <= k < |sums| ==> sums[k] == 0
  {
    var a := new int[|ps|](_ => 0);
    a[0] := ps[0];
    PrefixFirst(ps);
    var i := 1;
    while a[i - 1] + ps[i] <= Limit
      invariant 1 <= i <= Top(ps)
      invariant forall k :: 0 <= k < i ==> a[k] == Prefix(ps, k)
      invariant forall k :: i <= k < a.Length ==> a[k] == 0
      decreases Top(ps) - i
    {
      PrefixStep(ps, i);
      a[i] := a[i - 1] + ps[i];
      i := i + 1;
    }
    PrefixStep(ps, i);
    top := i;
    sums := a[..];
  }

  /** Every pair `(i0, j0)` visited before `(i, j)` whose length exceeds
      `terms`, or equals it and starts before `bi`, has a window sum that
      is not an element. */
  predicate Excluded(ps: seq<int>, top: nat, i: nat, j: nat, terms: nat, bi: nat)
    requires top <= |ps|
  {
    forall i0, j0 ::
      (0 <= i0 < j0 < top && (i0 < i || (i0 == i && j0 < j)) &&
       (j0 - i0 > terms || (j0 - i0 == terms && i0 < bi))) ==> Window(ps, i0, j0) !in ps
  }

  /** Visiting `(i, j)` keeps every pair before `(i, j + 1)` excluded:
      either the bounds stay, and a longer window at `(i, j)` has a sum
      that is not an element, or they move to that window. */
  lemma ExcludedNext(ps: seq<int>, top: nat, i: nat, j: nat, terms: nat, bi: nat, terms': nat, bi': nat)
    requires top <= |ps| && i < j < top && bi <= i
    requires Excluded(ps, top, i, j, terms, bi)
    requires (terms' == terms && bi' == bi) || (terms' == j - i > terms && bi' == i)
    requires terms' == terms && j - i > terms ==> Window(ps, i, j) !in ps
    ensures Excluded(ps, top, i, j + 1, terms', bi')
  {
    forall i0, j0 | 0 <= i0 < j0 < top && (i0 < i || (i0 == i && j0 < j + 1)) &&
                    (j0 - i0 > terms' || (j0 - i0 == terms' && i0 < bi'))
      ensures Window(ps, i0, j0) !in ps
    {
      if i0 != i || j0 != j {
        assert j0 - i0 > terms || (j0 - i0 == terms && i0 < bi);
      }
    }
  }

  /** The best window so far: visited before `(i, j)`, `terms` long, and its
      sum, an element, is in `r`. */
  predicate Best(ps: seq<int>, top: nat, i: nat, j: nat, terms: nat, bi: nat, bj: nat, r: Option<int>)
    requires top <= |ps|
  {
    && bi < bj < top && bj - bi == terms
    && (bi < i || (bi == i && bj < j))
    && Window(ps, bi, bj) in ps && r == Some(Window(ps, bi, bj))
  }

  /** The nested loops of `euler_50`: `terms` starts at 1 and grows to the
      length of each longer window whose sum `is_prime` finds in the
      sequence; `max_prime` (here `r`, `None` while unset) follows it. */
  method WindowSearch(ps: seq<int>, sums: seq<int>, top: nat) returns (r: Option<int>)
    requires Ascending(ps) && 1 <= top < |ps| && |sums| == |ps|
    requires forall k :: 0 <= k < top ==> sums[k] == Prefix(ps, k)
    ensures r.None? <==> NoLongWindow(ps, top)
    ensures r.Some? ==> exists i, j :: LongestWindow(ps, top, i, j) && r.value == Window(ps, i, j)
  {
    var terms: nat := 1;
    r := None;
    ghost var bi: nat, bj: nat := 0, 0;
    var i := 0;
    while i < top
      invariant 0 <= i <= top && terms >= 1 && bi <= i
      invariant Excluded(ps, top, i, 0, terms, bi)
      invariant r.None? <==> terms == 1
      invariant terms > 1 ==> Best(ps, top, i, 0, terms, bi, bj, r)
    {
      var j := terms + i;
      while j < top
        invariant i + 1 <= j
        invariant terms >= 1 && bi <= i
        invariant Excluded(ps, top, i, j, terms, bi)
        invariant r.None? <==> terms == 1
        invariant terms > 1 ==> Best(ps, top, i, j, terms, bi, bj, r)
      {
        var n := sums[j] - sums[i];
        WindowDifference(ps, i, j);
        ghost var terms0, bi0 := terms, bi;
        if j - i > terms {
          var isPrime := BinarySearch(ps, n);
          if isPrime {
            terms := j - i;
            r := Some(n);
            bi, bj := i, j;
          }
        }
        ExcludedNext(ps, top, i, j, terms0, bi0, terms, bi);
        j := j + 1;
      }
      i := i + 1;
    }
    if terms > 1 {
      assert LongestWindow(ps, top, bi, bj);
    }
  }

  /** `euler_50` over the sequence `ps`: the sum of the longest window
      below `top` whose sum is an element, or `None` where the source
      leaves `max_prime` uninitialised. Windows start after `ps[0]`, as
      `sums[j] - sums[i]` never includes the first element. */
  method Euler50(ps: seq<int>) returns (r: Option<int>)
    requires Ascending(ps) && HasTop(ps)
    ensures r.None? <==> NoLongWindow(ps, Top(ps))
    ensures r.Some? ==> exists i, j :: LongestWindow(ps, Top(ps), i, j) && r.value == Window(ps, i, j)
  {
    var sums, top := PrefixSums(ps);
    r := WindowSearch(ps, sums, top);
  }
}

=== FILE: numbers.dfy ===
/** Integer facts shared by the sieves, the Euler-50 search and the
    combinatorics helpers: divisibility, primality, an integer square
    root standing in for the source's floating `sqrt`, Fibonacci numbers,
    sums and products of sequences. */
module Numbers {

  /** `d` is a non-zero divisor of `k` (the source's `k % d == 0`). */
  predicate Divides(d: int, k: int) {
    d != 0 && k % d == 0
  }

  predicate IsPrime(n: int) {
    n >= 2 && forall d :: 2 <= d < n ==> !Divides(d, n)
  }

  /** `k` has a divisor `d` with 2 <= d < r that is not `k` itself
      (k >= 2 * d): the numbers a sieve striking `2d, 3d, ...` for every
      d below `r` removes. */
  predicate HasProperDivisorBelow(k: int, r: int) {
    exists d :: 2 <= d < r && 2 * d <= k && Divides(d, k)
  }

  /** Strictly ascending. */
  predicate Ascending(s: seq<int>) {
    forall i, j :: 0 <= i < j < |s| ==> s[i] < s[j]
  }

  /** Non-decreasing. */
  predicate NonDecreasing(s: seq<int>) {
    forall i, j :: 0 <= i < j < |s| ==> s[i] <= s[j]
  }

  /** The integer square root, the value of `(int)std::sqrt(n)` and of
      `int(math.sqrt(n))` whenever the floating square root is exact
      enough. */
  function FloorSqrt(n: nat): (r: nat)
    ensures r * r <= n < (r + 1) * (r + 1)
  {
    SqrtFrom(n, 0)
  }

  function SqrtFrom(n: nat, r: nat): (s: nat)
    requires r * r <= n
    ensures s * s <= n < (s + 1) * (s + 1)
    decreases n - r
  {
    SquareAtLeast(r);
    if (r + 1) * (r + 1) > n then r else SqrtFrom(n, r + 1)
  }

  /** Products of non-negative numbers, by induction on the first factor. */
  lemma {:induction false} MulNonneg(a: int, b: int)
    requires a >= 0 && b >= 0
    ensures a * b >= 0
    decreases a
  {
    if a > 0 {
      MulNonneg(a - 1, b);
      assert a * b == (a - 1) * b + b;
    }
  }

  lemma MulMonotone(a: int, b: int, c: int)
    requires a <= b && c >= 0
    ensures a * c <= b * c
  {
    MulNonneg(b - a, c);
    assert b * c - a * c == (b - a) * c;
  }

  lemma SquareAtLeast(r: nat)
    ensures r <= r * r || r == 0
  {
    if r > 0 {
      MulMonotone(1, r, r);
    }
  }

  lemma SquareMonotone(a: nat, b: nat)
    requires a <= b
    ensures a * a <= b * b
  {
    MulMonotone(a, b, a);
    MulMonotone(a, b, b);
    assert a * b == b * a;
  }

  /** Euclidean division is unique: a quotient and remainder in range are
      the ones `/` and `%` return. */
  lemma ModUnique(x: int, b: int, q: int, r: int)
    requires b > 0 && x == q * b + r && 0 <= r < b
    ensures x % b == r && x / b == q
  {
    var q', r' := x / b, x % b;
    assert x == q' * b + r';
    assert (q - q') * b == r' - r;
    if q > q' {
      MulMonotone(1, q - q', b);
    } else if q < q' {
      MulMonotone(1, q' - q, b);
    }
  }

  /** A number whose square is at most `n` is at most `FloorSqrt(n)`. */
  lemma BelowFloorSqrt(d: nat, n: nat)
    requires d * d <= n
    ensures d <= FloorSqrt(n)
  {
    var r := FloorSqrt(n);
    if d > r {
      SquareMonotone(r + 1, d);
    }
  }

  /** The integer square root is the unique `r` with r^2 <= n < (r+1)^2. */
  lemma FloorSqrtIs(n: nat, r: nat)
    requires r * r <= n < (r + 1) * (r + 1)
    ensures FloorSqrt(n) == r
  {
    BelowFloorSqrt(r, n);
    if FloorSqrt(n) > r {
      SquareMonotone(r + 1, FloorSqrt(n));
    }
  }

  lemma FloorSqrtMonotone(m: nat, n: nat)
    requires m <= n
    ensures FloorSqrt(m) <= FloorSqrt(n)
  {
    BelowFloorSqrt(FloorSqrt(m), n);
  }

  /** For n >= 2 the square root is below n. */
  lemma FloorSqrtBelow(n: nat)
    requires n >= 2
    ensures FloorSqrt(n) < n
  {
    var r := FloorSqrt(n);
    SquareAtLeast(r);
  }

  lemma MultipleMod(a: int, m: int)
    requires a > 0
    ensures Divides(a, a * m)
  {
    ModUnique(a * m, a, m, 0);
  }

  lemma DividesTrans(a: int, b: int, c: int)
    requires a > 0 && b > 0
    requires Divides(a, b) && Divides(b, c)
    ensures Divides(a, c)
  {
    var q := b / a;
    var s := c / b;
    assert b == a * q;
    assert c == b * s;
    assert c == a * (q * s);
    MultipleMod(a, q * s);
  }

  /** `d` divides `k` and `k / d` divides `k` too. */
  lemma CofactorDivides(d: int, k: int)
    requires d > 0 && k > 0 && Divides(d, k)
    ensures k / d > 0 && Divides(k / d, k) && (k / d) * d == k
  {
    var e := k / d;
    assert k == e * d;
    MultipleMod(e, d);
  }

  /** Composite numbers have a divisor whose square does not exceed them. */
  lemma SmallDivisor(k: int)
    requires k >= 2 && !IsPrime(k)
    ensures exists d :: 2 <= d && d * d <= k && Divides(d, k)
  {
    var d :| 2 <= d < k && Divides(d, k);
    CofactorDivides(d, k);
    var e := k / d;
    if d * d > k {
      assert e < d by {
        if e >= d {
          MulMonotone(d, e, d);
        }
      }
      assert e != 1;
      MulMonotone(e, d, e);
      assert 2 <= e && e * e <= k && Divides(e, k);
    } else {
      assert 2 <= d && d * d <= k && Divides(d, k);
    }
  }

  /** Every number >= 2 has a prime divisor no larger than itself. */
  lemma {:induction false} PrimeDivisor(k: int) returns (p: int)
    requires k >= 2
    ensures IsPrime(p) && Divides(p, k) && p <= k
    decreases k
  {
    if IsPrime(k) {
      p := k;
      MultipleMod(k, 1);
    } else {
      var d :| 2 <= d < k && Divides(d, k);
      p := PrimeDivisor(d);
      DividesTrans(p, d, k);
    }
  }

  /** A composite number has a prime divisor whose square does not exceed it. */
  lemma SmallPrimeDivisor(k: int) returns (p: int)
    requires k >= 2 && !IsPrime(k)
    ensures IsPrime(p) && Divides(p, k) && p * p <= k
  {
    SmallDivisor(k);
    var d :| 2 <= d && d * d <= k && Divides(d, k);
    p := PrimeDivisor(d);
    DividesTrans(p, d, k);
    SquareMonotone(p, d);
  }

  /** Fibonacci numbers, F(1) = F(2) = 1. */
  function Fibonacci(n: nat): (f: nat)
  {
    if n == 0 then 0 else if n == 1 then 1 else Fibonacci(n - 1) + Fibonacci(n - 2)
  }

  lemma {:induction false} FibonacciMonotone(m: nat, n: nat)
    requires 1 <= m <= n
    ensures 1 <= Fibonacci(m) <= Fibonacci(n)
    decreases n
  {
    if n > m {
      FibonacciMonotone(m, n - 1);
    } else if n >= 3 {
      FibonacciMonotone(1, n - 1);
    }
  }

  /** Sum of a sequence, accumulated from the front as a prefix sum is. */
  function Sum(s: seq<int>): (total: int)
  {
    if |s| == 0 then 0 else Sum(s[..|s| - 1]) + s[|s| - 1]
  }

  function Product(s: seq<int>): (p: int)
  {
    if |s| == 0 then 1 else Product(s[..|s| - 1]) * s[|s| - 1]
  }

  lemma {:induction false} SumNonneg(s: seq<int>)
    requires forall k :: 0 <= k < |s| ==> s[k] >= 0
    ensures Sum(s) >= 0
    decreases |s|
  {
    if |s| > 0 {
      SumNonneg(s[..|s| - 1]);
    }
  }

  /** A sum of positive terms is at least the number of terms. */
  lemma {:induction false} SumAtLeastLength(s: seq<int>)
    requires forall k :: 0 <= k < |s| ==> s[k] >= 1
    ensures Sum(s) >= |s|
    decreases |s|
  {
    if |s| > 0 {
      SumAtLeastLength(s[..|s| - 1]);
    }
  }

  /** The sum of the first `k` elements adds element `k - 1` to the sum of
      the first `k - 1`. */
  lemma SumPrefixStep(s: seq<int>, k: nat)
    requires 1 <= k <= |s|
    ensures Sum(s[..k]) == Sum(s[..k - 1]) + s[k - 1]
  {
    assert s[..k][..k - 1] == s[..k - 1];
  }

  /** A window sum is the difference of two prefix sums. */
  lemma {:induction false} SumSplit(s: seq<int>, i: nat)
    requires i <= |s|
    ensures Sum(s) == Sum(s[..i]) + Sum(s[i..])
    decreases |s|
  {
    if i < |s| {
      var t := s[..|s| - 1];
      SumSplit(t, i);
      assert t[..i] == s[..i];
      assert s[i..][..|s[i..]| - 1] == t[i..];
    } else {
      assert s[..i] == s;
    }
  }

  /** A product of numbers that are all at least 2 is divisible by each of them. */
  lemma {:induction false} ProductDivisible(s: seq<int>, x: int)
    requires forall y :: y in s ==> y >= 2
    requires x in s
    ensures Product(s) >= 1 && Divides(x, Product(s))
    decreases |s|
  {
    var t := s[..|s| - 1];
    var last := s[|s| - 1];
    assert forall y :: y in t ==> y in s;
    ProductPositive(t);
    if x in t {
      ProductDivisible(t, x);
      var q := Product(t) / x;
      assert Product(t) == x * q;
      assert Product(s) == x * (q * last);
      MultipleMod(x, q * last);
    } else {
      assert x == last;
      MultipleMod(x, Product(t));
      assert Product(s) == x * Product(t);
    }
    assert Product(s) >= 1 by {
      assert Product(s) == Product(t) * last;
      assert last in s;
      MulMonotone(1, last, Product(t));
    }
  }

  lemma {:induction false} ProductPositive(s: seq<int>)
    requires forall y :: y in s ==> y >= 2
    ensures Product(s) >= 1
    decreases |s|
  {
    if |s| > 0 {
      var t := s[..|s| - 1];
      assert forall y :: y in t ==> y in s;
      ProductPositive(t);
      assert s[|s| - 1] in s;
      MulMonotone(1, s[|s| - 1], Product(t));
    }
  }

  /** `c + p * m` leaves remainder `c` modulo `p` when 0 <= c < p. */
  lemma ShiftedMod(p: int, m: int, c: int)
    requires p >= 1 && 0 <= c < p
    ensures (c + p * m) % p == c
  {
    ModUnique(c + p * m, p, m, c);
  }

  /** For an odd `last` and numbers `s` that are all at least 2, the
      candidate `last + 2m = 1 + 2 * P * last`, with `P` the product of
      `s`, leaves remainder 1 modulo every element: an endless search over
      `last + 2, last + 4, ...` for a number no element divides is
      impossible. */
  lemma OddCoprimeCandidate(s: seq<int>, last: int) returns (m: int)
    requires forall k :: 0 <= k < |s| ==> s[k] >= 2
    requires last >= 1 && last % 2 == 1
    ensures m >= 1 && forall k :: 0 <= k < |s| ==> (last + 2 * m) % s[k] == 1
  {
    assert forall y :: y in s ==> y >= 2;
    ProductPositive(s);
    var q := Product(s);
    MulMonotone(1, q, last);
    var ql := q * last;
    var h := (last - 1) / 2;
    assert last == 2 * h + 1;
    m := ql - h;
    assert last + 2 * m == 1 + 2 * ql;
    forall k | 0 <= k < |s| ensures (last + 2 * m) % s[k] == 1 {
      ProductDivisible(s, s[k]);
      CandidateMod(s[k], q, last);
    }
  }

  /** `1 + 2 * q * last` leaves remainder 1 modulo any `x >= 2` dividing `q`. */
  lemma CandidateMod(x: int, q: int, last: int)
    requires x >= 2 && Divides(x, q)
    ensures (1 + 2 * (q * last)) % x == 1
  {
    var t := q / x;
    assert q == x * t;
    MulAssoc(x, t, last);
    assert 2 * (q * last) == x * (2 * (t * last));
    ShiftedMod(x, 2 * (t * last), 1);
  }

  /** A divisor of a positive number is at most that number. */
  lemma DividesAtMost(d: int, k: int)
    requires d >= 1 && k >= 1 && Divides(d, k)
    ensures d <= k
  {
    var q := k / d;
    assert k == d * q;
    MulMonotone(1, q, d);
  }

  /** The least `c` in [from, p] with `p` dividing `c * b`. */
  ghost function LeastMultiplier(p: int, b: int, from: int): (c: int)
    requires 1 <= from <= p
    ensures from <= c <= p && Divides(p, c * b)
    ensures forall k :: from <= k < c ==> !Divides(p, k * b)
    decreases p - from
  {
    if Divides(p, from * b) then from
    else if from == p then MultipleMod(p, b); p
    else LeastMultiplier(p, b, from + 1)
  }

  /** The least positive multiplier `c` of `b` whose product `p` divides
      divides every other such multiplier. */
  lemma LeastMultiplierDivides(p: int, b: int, c: int, x: int)
    requires p >= 1 && 1 <= c <= p && Divides(p, c * b)
    requires forall k :: 1 <= k < c ==> !Divides(p, k * b)
    requires x >= 1 && Divides(p, x * b)
    ensures Divides(c, x)
  {
    var q, r := x / c, x % c;
    assert x == q * c + r;
    var u, v := x * b / p, c * b / p;
    assert x * b == p * u && c * b == p * v;
    assert r * b == x * b - q * (c * b) by {
      assert x * b == (q * c + r) * b;
    }
    assert r * b == p * (u - q * v);
    MultipleMod(p, u - q * v);
    if r != 0 {
      assert false;
    }
  }

  /** Euclid's lemma: a prime dividing a product of positive numbers
      divides one of the factors. */
  lemma Euclid(p: int, a: int, b: int)
    requires IsPrime(p) && a >= 1 && b >= 1 && Divides(p, a * b)
    ensures Divides(p, a) || Divides(p, b)
  {
    var c := LeastMultiplier(p, b, 1);
    assert a * b == b * a;
    assert Divides(p, p * b) by { MultipleMod(p, b); }
    LeastMultiplierDivides(p, b, c, p);
    LeastMultiplierDivides(p, b, c, a);
    if c == 1 {
      assert c * b == b;
    } else if c < p {
      assert false;
    } else {
      assert c == p;
    }
  }

  /** Removing the factor at `i` divides the product by it. */
  lemma {:induction false} ProductRemove(s: seq<int>, i: int)
    requires 0 <= i < |s|
    ensures Product(s) == s[i] * Product(s[..i] + s[i + 1..])
    decreases |s|
  {
    var r := s[..i] + s[i + 1..];
    if i == |s| - 1 {
      assert r == s[..|s| - 1];
    } else {
      var t := s[..|s| - 1];
      ProductRemove(t, i);
      var r' := t[..i] + t[i + 1..];
      assert r[..|r| - 1] == r' && r[|r| - 1] == s[|s| - 1];
      MulAssoc(s[i], Product(r'), s[|s| - 1]);
    }
  }

  lemma MulAssoc(a: int, b: int, c: int)
    ensures (a * b) * c == a * (b * c)
  {
  }

  /** A prime dividing a product of primes is one of them. */
  lemma {:induction false} PrimeInProduct(s: seq<int>, p: int)
    requires forall k :: 0 <= k < |s| ==> IsPrime(s[k])
    requires IsPrime(p) && Divides(p, Product(s))
    ensures p in s
    decreases |s|
  {
    if |s| == 0 {
      assert Product(s) == 1;
      ModUnique(1, p, 0, 1);
      assert false;
    } else {
      var t := s[..|s| - 1];
      var last := s[|s| - 1];
      assert forall y :: y in t ==> y >= 2 by {
        forall y | y in t ensures y >= 2 {
          var k :| 0 <= k < |t| && t[k] == y;
          assert IsPrime(s[k]);
        }
      }
      ProductPositive(t);
      Euclid(p, Product(t), last);
      if Divides(p, last) {
        DividesAtMost(p, last);
        if p < last {
          assert false;
        }
      } else {
        PrimeInProduct(t, p);
      }
    }
  }
}

=== FILE: pe_exercises.dfy ===
/** The primes of the Project Euler exercises: `is_prime` divides by every
    element of the list, with no square-root cut-off; `next_prime` appends
    the first odd step past the last element that no element divides; and
    the `primes` generator starts from a hard-coded list that holds 27. */
module PeExercises {
  import opened Numbers
  import opened Wrappers
  import PrimesPy
  import PrimesCxx

  /** Every element can be divided by: `n % p` is defined. */
  predicate NonZero(s: seq<int>) {
    forall k :: 0 <= k < |s| ==> s[k] != 0
  }

  /** Every prime from 2 up to `bound` is an element. */
  predicate HasPrimesUpTo(s: seq<int>, bound: int) {
    forall x {:trigger x in s} :: 2 <= x <= bound && IsPrime(x) ==> x in s
  }

  // ------------------------------------------------------------------ is_prime

  /** The scan of `is_prime` from position `k`: False at the first element
      dividing `n`, True at the end of the list. */
  predicate CoprimeFrom(n: int, s: seq<int>, k: nat)
    requires NonZero(s)
    decreases |s| - k
  {
    k >= |s| || (n % s[k] != 0 && CoprimeFrom(n, s, k + 1))
  }

  predicate Coprime(n: int, s: seq<int>)
    requires NonZero(s)
  {
    CoprimeFrom(n, s, 0)
  }

  lemma {:induction false} CoprimeFromMeaning(n: int, s: seq<int>, k: nat)
    requires NonZero(s) && k <= |s|
    ensures CoprimeFrom(n, s, k) <==> forall i :: k <= i < |s| ==> !Divides(s[i], n)
    decreases |s| - k
  {
    if k < |s| {
      CoprimeFromMeaning(n, s, k + 1);
    }
  }

  /** `is_prime(n, sieve)`: True exactly when no element divides `n`. */
  method IsPrimeAgainst(n: int, sieve: seq<int>) returns (b: bool)
    requires NonZero(sieve)
    ensures b == Coprime(n, sieve)
    ensures b <==> forall k :: 0 <= k < |sieve| ==> !Divides(sieve[k], n)
  {
    CoprimeFromMeaning(n, sieve, 0);
    for k := 0 to |sieve|
      invariant forall i :: 0 <= i < k ==> !Divides(sieve[i], n)
    {
      if n % sieve[k] == 0 {
        return false;
      }
    }
    return true;
  }

  /** With no square-root cut-off, a non-zero number that is itself an
      element is reported composite, prime or not. */
  lemma MemberNotCoprime(n: int, s: seq<int>)
    requires NonZero(s) && n in s && n != 0
    ensures !Coprime(n, s)
  {
    CoprimeFromMeaning(n, s, 0);
    var i :| 0 <= i < |s| && s[i] == n;
    assert n % n == 0;
    assert Divides(s[i], n);
  }

  /** When, as its documentation asks, the list holds every prime below
      `n` and only numbers from 2 to `n - 1`, `is_prime` decides primality. */
  lemma CoprimeDecides(n: int, s: seq<int>)
    requires n >= 2 && forall k :: 0 <= k < |s| ==> 2 <= s[k] < n
    requires HasPrimesUpTo(s, n - 1)
    ensures NonZero(s) && (Coprime(n, s) <==> IsPrime(n))
  {
    CoprimeFromMeaning(n, s, 0);
    if !IsPrime(n) {
      var p := PrimeDivisor(n);
      assert p in s;
      var i :| 0 <= i < |s| && s[i] == p;
      assert Divides(s[i], n);
    }
  }

  // ---------------------------------------------------------------- next_prime

  /** `c` is what `next_prime` appends: the first of `last + 2`,
      `last + 4`, ... that no element divides. */
  predicate IsFirstCoprime(s: seq<int>, c: int)
    requires |s| > 0 && NonZero(s)
  {
    var last := s[|s| - 1];
    && c > last && (c - last) % 2 == 0
    && Coprime(c, s)
    && forall d :: last < d < c && (d - last) % 2 == 0 ==> !Coprime(d, s)
  }

  /** `next_prime` returns: some candidate `last + 2m` is coprime to the list. */
  ghost predicate Continues(s: seq<int>) {
    && |s| > 0 && NonZero(s)
    && exists m :: m >= 1 && Coprime(s[|s| - 1] + 2 * m, s)
  }

  /** An odd last element and elements of at least 2 are enough for
      `next_prime` to return. */
  lemma OddLastContinues(s: seq<int>)
    requires |s| > 0 && PrimesPy.AtLeastTwo(s) && s[|s| - 1] % 2 == 1
    ensures Continues(s)
  {
    var last := s[|s| - 1];
    var m := OddCoprimeCandidate(s, last);
    CoprimeFromMeaning(last + 2 * m, s, 0);
  }

  /** From [2] every candidate is even and 2 divides it: `next_prime([2])`
      never returns. */
  lemma EvenSeedDiverges()
    ensures !Continues([2])
  {
    forall m | m >= 1 ensures !Coprime(2 + 2 * m, [2]) {
      ShiftedMod(2, 1 + m, 0);
    }
  }

  /** One more rejected candidate extends the rejected range by one even gap. */
  lemma NotCoprimeStep(s: seq<int>, last: int, k: int)
    requires NonZero(s)
    requires forall d :: last < d < last + 2 * k && (d - last) % 2 == 0 ==> !Coprime(d, s)
    requires !Coprime(last + 2 * k, s)
    ensures forall d :: last < d < last + 2 * (k + 1) && (d - last) % 2 == 0 ==> !Coprime(d, s)
  {
    forall d | last < d < last + 2 * (k + 1) && (d - last) % 2 == 0
      ensures !Coprime(d, s)
    {
      PrimesCxx.EvenGapBelow(last, k, d);
    }
  }

  /** The loop of `next_prime`: `last + 2`, `last + 4`, ... until
      `is_prime` accepts. */
  method FirstCoprime(s: seq<int>) returns (c: int)
    requires Continues(s)
    ensures IsFirstCoprime(s, c)
  {
    var last := s[|s| - 1];
    ghost var m :| m >= 1 && Coprime(last + 2 * m, s);
    ghost var k := 1;
    c := last + 2;
    while true
      invariant 1 <= k <= m && c == last + 2 * k
      invariant forall d :: last < d < c && (d - last) % 2 == 0 ==> !Coprime(d, s)
      decreases m - k
    {
      var ok := IsPrimeAgainst(c, s);
      if ok {
        ShiftedMod(2, k, 0);
        return;
      }
      NotCoprimeStep(s, last, k);
      assert k != m;
      k := k + 1;
      c := c + 2;
    }
  }

  /** When the list is ascending, holds every prime up to its odd last
      element, and all its elements are at least 2 (27 among them or
      not), `next_prime` appends the next prime. */
  lemma FirstCoprimeIsNextPrime(s: seq<int>, c: int)
    requires OddTopped(s) && HasPrimesUpTo(s, s[|s| - 1])
    requires IsFirstCoprime(s, c)
    ensures IsPrime(c) && forall q :: s[|s| - 1] < q < c ==> !IsPrime(q)
    ensures HasPrimesUpTo(s + [c], c)
  {
    var last := s[|s| - 1];
    forall q | last < q < c ensures !IsPrime(q) {
      if IsPrime(q) {
        PrimeAboveCoprime(s, q);
        assert false;
      }
    }
    if !IsPrime(c) {
      var p := SmallPrimeDivisor(c);
      MulMonotone(2, p, p);
      if p <= last {
        var i := ElementIndex(s, last, p);
        CoprimeFromMeaning(c, s, 0);
        assert false;
      } else {
        PrimeAboveCoprime(s, p);
        assert false;
      }
    }
    var t := s + [c];
    forall x | 2 <= x <= c && IsPrime(x) ensures x in t {
      if x <= last {
        var i := ElementIndex(s, last, x);
        assert t[i] == x;
      } else {
        assert t[|s|] == x;
      }
    }
  }

  /** A prime up to `bound` is an element, at some position. */
  lemma ElementIndex(s: seq<int>, bound: int, x: int) returns (i: int)
    requires HasPrimesUpTo(s, bound) && 2 <= x <= bound && IsPrime(x)
    ensures 0 <= i < |s| && s[i] == x
  {
    assert x in s;
    i :| 0 <= i < |s| && s[i] == x;
  }

  /** A prime above the odd last element is odd, an even step away from
      it, and no element (all at most the last) divides it. */
  lemma PrimeAboveCoprime(s: seq<int>, q: int)
    requires |s| > 0 && OddTopped(s)
    requires IsPrime(q) && q > s[|s| - 1]
    ensures (q - s[|s| - 1]) % 2 == 0 && Coprime(q, s)
  {
    var last := s[|s| - 1];
    PrimesPy.OddPrime(q);
    PrimesPy.OddGap(last, q);
    CoprimeFromMeaning(q, s, 0);
    forall i | 0 <= i < |s| ensures !Divides(s[i], q) {
      assert s[i] <= last;
    }
  }

  /** Ascending, every element at least 2, and the last one odd. */
  predicate OddTopped(s: seq<int>) {
    && |s| > 0 && PrimesPy.AtLeastTwo(s) && Ascending(s) && s[|s| - 1] % 2 == 1
  }

  // -------------------------------------------------------------------- primes

  /** The hard-coded start of the `primes` generator; 27 is not prime. */
  const Seed: seq<int> := [2, 3, 5, 7, 11, 13, 17, 19, 23, 27]

  /** The seed is ascending with an odd last element, holds every prime
      up to 27, and all its elements but the last are prime. */
  lemma SeedFacts()
    ensures OddTopped(Seed) && HasPrimesUpTo(Seed, 27)
    ensures forall k :: 0 <= k < |Seed| - 1 ==> IsPrime(Seed[k])
    ensures Seed[|Seed| - 1] == 27 && !IsPrime(27)
  {
    assert Divides(3, 27);
    SeedComplete();
    SeedPrime();
  }

  /** Every prime up to 27 is in the seed. */
  lemma SeedComplete()
    ensures HasPrimesUpTo(Seed, 27)
  {
    assert Divides(5, 25);
    forall x | 2 <= x <= 27 && IsPrime(x) ensures x in Seed {
      if x % 2 == 0 {
        assert !Divides(2, x) || x == 2;
      } else if x % 3 == 0 {
        assert !Divides(3, x) || x == 3;
      }
    }
  }

  /** Every element of the seed but the last is prime. */
  lemma SeedPrime()
    ensures forall k :: 0 <= k < |Seed| - 1 ==> IsPrime(Seed[k])
  {
    forall k | 0 <= k < |Seed| - 1 ensures IsPrime(Seed[k]) {
      SmallPrime(Seed[k]);
    }
  }

  /** Below 49 a number that none of 2, 3 and 5 divides, unless it is one
      of them, is prime: a composite has a divisor whose square it
      exceeds, and below 7 every divisor is a multiple of 2, 3 or 5. */
  lemma SmallPrime(x: int)
    requires 2 <= x < 49
    requires (x == 2 || x % 2 != 0) && (x == 3 || x % 3 != 0) && (x == 5 || x % 5 != 0)
    ensures IsPrime(x)
  {
    if !IsPrime(x) {
      SmallDivisor(x);
      var d :| 2 <= d && d * d <= x && Divides(d, x);
      if d >= 7 {
        MulMonotone(7, d, d);
        MulMonotone(7, d, 7);
      } else if d == 4 || d == 6 {
        DividesTrans(2, d, x);
      }
      assert false;
    }
  }

  /** The first value `next_prime` appends to the seed is 29. */
  lemma AfterSeed(c: int)
    requires IsFirstCoprime(Seed, c)
    ensures c == 29
  {
    SmallPrime(29);
    PrimeAboveCoprime(Seed, 29);
  }

  /** The list of `primes()` at any time: the seed followed by primes,
      ascending, holding every prime up to its odd last element. */
  ghost predicate Grown(s: seq<int>) {
    && |s| >= |Seed| && s[..|Seed|] == Seed
    && OddTopped(s) && HasPrimesUpTo(s, s[|s| - 1])
    && forall k :: |Seed| <= k < |s| ==> IsPrime(s[k])
  }

  lemma SeedGrown()
    ensures Grown(Seed)
  {
    SeedFacts();
    assert Seed[..|Seed|] == Seed;
  }

  /** `next_prime` keeps the list grown. */
  lemma GrownStep(s: seq<int>, c: int)
    requires Grown(s) && IsFirstCoprime(s, c)
    ensures Grown(s + [c])
  {
    FirstCoprimeIsNextPrime(s, c);
    PrimesPy.OddStep(s[|s| - 1], c);
    assert (s + [c])[..|Seed|] == s[..|Seed|];
  }

  /** In such a list the primes below `s[k]` all come before position `k`. */
  lemma PrimesBefore(s: seq<int>, k: int)
    requires |s| > 0 && Ascending(s) && HasPrimesUpTo(s, s[|s| - 1]) && 0 <= k < |s|
    ensures forall p :: IsPrime(p) && p < s[k] ==> p in s[..k]
  {
    forall p | IsPrime(p) && p < s[k] ensures p in s[..k] {
      var j := ElementIndex(s, s[|s| - 1], p);
      assert s[..k][j] == p;
    }
  }

  /** The step of `primes()` on its state, the list `s` and the count `m`
      of values yielded: the value `s[m]`, after one `next_prime` when the
      list has run out, and the list afterwards. The first ten values are
      the seed, 27 included; every later one is a prime, and every prime
      below a value has been yielded before it. */
  method NextValue(s: seq<int>, m: nat) returns (v: int, t: seq<int>)
    requires Grown(s) && m <= |s|
    ensures Grown(t) && s <= t && m < |t| && v == t[m]
    ensures m < |Seed| ==> v == Seed[m]
    ensures m >= |Seed| ==> IsPrime(v)
    ensures forall p :: IsPrime(p) && p < v ==> p in t[..m]
  {
    t := s;
    if m == |s| {
      OddLastContinues(s);
      var c := FirstCoprime(s);
      GrownStep(s, c);
      t := s + [c];
    }
    v := t[m];
    PrimesBefore(t, m);
  }

  /** A Python list that `next_prime` appends to in place. */
  class Sieve {
    var elems: seq<int>

    constructor (s: seq<int>)
      ensures elems == s
    {
      elems := s;
    }

    /** `next_prime(sieve)`. */
    method NextPrime()
      requires Continues(elems)
      modifies this
      ensures |elems| == |old(elems)| + 1 && elems[..|old(elems)|] == old(elems)
      ensures IsFirstCoprime(old(elems), elems[|elems| - 1])
    {
      var c := FirstCoprime(elems);
      elems := elems + [c];
    }
  }

  /** The `primes(n)` generator, suspended between two values: its list,
      seeded with `Seed`, and the count `m` of values yielded. `None` and
      0 both leave the count unbounded. */
  class PrimesGen {
    const sieve: Sieve
    const n: Option<int>
    var m: nat

    ghost predicate Valid()
      reads this, sieve
    {
      m <= |sieve.elems| && Grown(sieve.elems)
    }

    /** The body of the generator up to its loop. */
    constructor (n: Option<int>)
      ensures Valid() && fresh(sieve) && sieve.elems == Seed && this.n == n && m == 0
    {
      SeedGrown();
      this.n := n;
      sieve := new Sieve(Seed);
      m := 0;
    }

    /** The loop condition `not n or m < n`. */
    predicate More()
      reads this
    {
      n.None? || n.value == 0 || m < n.value
    }

    /** One resumption of the generator: `sieve[m]`, after one
        `next_prime` when the list has run out. */
    method Next() returns (v: int)
      requires Valid() && More()
      modifies this, sieve
      ensures Valid() && m == old(m) + 1
      ensures old(sieve.elems) <= sieve.elems && v == sieve.elems[old(m)]
      ensures old(m) < |Seed| ==> v == Seed[old(m)]
      ensures old(m) >= |Seed| ==> IsPrime(v)
      ensures forall p :: IsPrime(p) && p < v ==> p in sieve.elems[..old(m)]
    {
      var t;
      v, t := NextValue(sieve.elems, m);
      sieve.elems := t;
      m := m + 1;
    }
  }
}

=== FILE: primes_cxx.dfy ===
/** The C++ prime machinery: the bulk sieve `primes_seq`, the growing
    sequence class `primes` with its cursor, and the binary search behind
    `is_prime`. */
module PrimesCxx {
  import opened Numbers

  /** `k` is left standing by `primes_seq(n)`: it is an index of the
      result vector (at most `n - 2`), not 0 or 1, and no `r` below the
      bound `(int)sqrt(n)` strikes it as `2r, 3r, ...`. */
  predicate Survives(k: int, n: nat) {
    2 <= k <= n - 2 && !HasProperDivisorBelow(k, FloorSqrt(n))
  }

  /** The surviving numbers below `k`, ascending. */
  function SurvivorsBelow(n: nat, k: int): (r: seq<int>)
    decreases k
  {
    if k <= 2 then []
    else SurvivorsBelow(n, k - 1) + (if Survives(k - 1, n) then [k - 1] else [])
  }

  /** The survivors below `k` are exactly the numbers below `k` that
      survive, in strictly ascending order. */
  lemma {:induction false} SurvivorsMeaning(n: nat, k: int)
    ensures forall x :: x in SurvivorsBelow(n, k) <==> x < k && Survives(x, n)
    ensures Ascending(SurvivorsBelow(n, k))
    decreases k
  {
    if k > 2 {
      SurvivorsMeaning(n, k - 1);
      var p := SurvivorsBelow(n, k - 1);
      forall i | 0 <= i < |p| ensures p[i] < k - 1 {
        assert p[i] in SurvivorsBelow(n, k - 1);
      }
    }
  }

  /** No number has a proper divisor in an empty range. */
  lemma NoDivisorBelowTwo(k: int, r: int)
    requires r <= 2
    ensures !HasProperDivisorBelow(k, r)
  {
  }

  /** Raising the bound from `r` to `r + 1` adds exactly the multiples
      `2r, 3r, ...` of `r`. */
  lemma StepDivisor(j: int, r: int)
    requires r >= 2
    ensures HasProperDivisorBelow(j, r + 1) <==> HasProperDivisorBelow(j, r) || (2 * r <= j && Divides(r, j))
  {
    if HasProperDivisorBelow(j, r + 1) && !HasProperDivisorBelow(j, r) {
      var d :| 2 <= d < r + 1 && 2 * d <= j && Divides(d, j);
      assert d == r;
    }
  }

  /** What the sieve has struck once every `d` below `r` has been
      handled: the multiples `2d, 3d, ...` of those `d`. */
  function Struck(j: int, r: int): (b: bool)
    decreases r
  {
    r > 2 && (Struck(j, r - 1) || (2 * (r - 1) <= j && Divides(r - 1, j)))
  }

  /** The struck numbers are those with a proper divisor below `r`. */
  lemma {:induction false} StruckMeaning(j: int, r: int)
    ensures Struck(j, r) <==> HasProperDivisorBelow(j, r)
    decreases r
  {
    if r > 2 {
      StruckMeaning(j, r - 1);
      StepDivisor(j, r - 1);
    } else {
      NoDivisorBelowTwo(j, r);
    }
  }

  /** When `r` itself was struck, its multiples already were: skipping
      the inner loop for it loses nothing. */
  lemma SkipStruck(r: int)
    requires r >= 2 && Struck(r, r)
    ensures forall j :: Struck(j, r + 1) == Struck(j, r)
  {
    forall j | 2 * r <= j && Divides(r, j) ensures Struck(j, r) {
      StruckMeaning(r, r);
      var d :| 2 <= d < r && 2 * d <= r && Divides(d, r);
      DividesTrans(d, r, j);
      assert 2 <= d < r && 2 * d <= j && Divides(d, j);
      StruckMeaning(j, r);
    }
  }

  /** Between two consecutive multiples of `r` there is none. */
  lemma NoMultipleBetween(r: int, k: int, j: int)
    requires r >= 1 && k % r == 0 && k < j < k + r
    ensures !Divides(r, j)
  {
    ShiftedMod(r, k / r, j - k);
    assert j == (j - k) + r * (k / r);
  }

  lemma NextMultiple(r: int, k: int)
    requires r >= 1 && k % r == 0
    ensures (k + r) % r == 0
  {
    ShiftedMod(r, k / r + 1, 0);
    assert k + r == 0 + r * (k / r + 1);
  }

  /** The sieve's bound stays inside the vector for n >= 3. */
  lemma RootInside(n: nat)
    requires n >= 3
    ensures FloorSqrt(n) <= n - 2
  {
    var r := FloorSqrt(n);
    if r >= 2 {
      MulMonotone(2, r, r);
    }
  }

  /** The inner loop of `primes_seq`: zeroes `2r, 3r, ...` up to the end
      of the vector and leaves every other entry alone. */
  method StrikeMultiples(a: array<int>, r: int)
    requires r >= 2
    modifies a
    ensures forall j :: 0 <= j < a.Length ==>
      a[j] == if 2 * r <= j && Divides(r, j) then 0 else old(a[j])
  {
    var k := r * 2;
    while k < a.Length
      invariant k >= 2 * r && k % r == 0
      invariant forall j :: 0 <= j < a.Length ==>
        a[j] == if 2 * r <= j < k && Divides(r, j) then 0 else old(a[j])
    {
      forall j | k < j < k + r
        ensures !Divides(r, j)
      {
        NoMultipleBetween(r, k, j);
      }
      a[k] := 0;
      NextMultiple(r, k);
      k := k + r;
    }
  }

  /** `primes_seq(n)`: a vector holding 0 .. n-2, striking `2r, 3r, ...`
      for each `r` from 2 below `(int)sqrt(n)` that is still standing,
      then zeroing index 1 and erasing the zeros. */
  method PrimesSeq(n: int) returns (result: seq<int>)
    requires n >= 3
    ensures result == SurvivorsBelow(n, n - 1)
  {
    var a := new int[n - 1];
    var counter := 0;
    for i := 0 to n - 1
      invariant counter == i
      invariant forall j :: 0 <= j < i ==> a[j] == j
    {
      a[i] := counter;
      counter := counter + 1;
    }
    var root := FloorSqrt(n);
    RootInside(n);
    var r := 2;
    while r < root
      invariant 2 <= r && (r <= root || r == 2)
      invariant forall j :: 0 <= j < n - 1 ==> a[j] == if Struck(j, r) then 0 else j
    {
      if a[r] > 0 {
        StrikeMultiples(a, r);
      } else {
        SkipStruck(r);
      }
      r := r + 1;
    }
    assert forall j :: 0 <= j < n - 1 ==> a[j] == if Struck(j, root) then 0 else j;
    a[1] := 0;
    var sieved := a[..];
    assert forall j :: 0 <= j < n - 1 ==> sieved[j] == if j < 2 || Struck(j, root) then 0 else j;
    result := [];
    for i := 0 to n - 1
      invariant result == SurvivorsBelow(n, i)
    {
      StruckMeaning(i, root);
      assert SurvivorsBelow(n, i + 1) == SurvivorsBelow(n, i) + if Survives(i, n) then [i] else [];
      if sieved[i] != 0 {
        result := result + [sieved[i]];
      }
    }
  }

  /** Every prime up to `n - 2` survives the sieve. */
  lemma PrimesSurvive(p: int, n: nat)
    requires IsPrime(p) && p <= n - 2
    ensures Survives(p, n)
  {
  }

  /** Below the square of the bound the survivors are exactly the primes:
      a composite number has a prime factor whose square does not exceed
      it, and that factor is below the bound. */
  lemma SurvivorsPrimeBelowRootSquared(k: int, n: nat)
    requires Survives(k, n) && k < FloorSqrt(n) * FloorSqrt(n)
    ensures IsPrime(k)
  {
    if !IsPrime(k) {
      var p := SmallPrimeDivisor(k);
      var r := FloorSqrt(n);
      if p >= r {
        SquareMonotone(r, p);
        assert false;
      }
      MulMonotone(2, p, p);
      assert false;
    }
  }

  /** The bound is strict: `primes_seq(11)` strikes only the multiples of
      2 (the bound is 3), so the composite 9 survives. */
  lemma NineSurvivesEleven()
    ensures Survives(9, 11) && !IsPrime(9)
    ensures 9 in SurvivorsBelow(11, 10)
  {
    FloorSqrtIs(11, 3);
    assert Divides(3, 9);
    assert SurvivorsBelow(11, 10) == SurvivorsBelow(11, 9) + [9];
  }

  /** `primes_seq(10)`, the default sequence of `primes`. */
  lemma SurvivorsTen()
    ensures SurvivorsBelow(10, 9) == [2, 3, 5, 7]
  {
    FloorSqrtIs(10, 3);
    assert Divides(2, 4) && Divides(2, 6) && Divides(2, 8);
    assert Survives(2, 10) && Survives(3, 10) && Survives(5, 10) && Survives(7, 10);
    assert !Survives(4, 10) && !Survives(6, 10) && !Survives(8, 10);
  }

  /** The trial division `extend` runs on candidate `c`: scanning the
      sequence in order, it meets an element above `root` before any
      element that divides `c`. */
  predicate Accepted(s: seq<int>, root: int, c: int)
    requires forall k :: 0 <= k < |s| ==> s[k] >= 2
  {
    AcceptedFrom(s, root, c, 0)
  }

  /** The same scan started at position `j`. */
  predicate AcceptedFrom(s: seq<int>, root: int, c: int, j: nat)
    requires forall k :: 0 <= k < |s| ==> s[k] >= 2
    decreases |s| - j
  {
    j < |s| && (s[j] > root || (c % s[j] != 0 && AcceptedFrom(s, root, c, j + 1)))
  }

  /** The scan of `extend` stops at the first element above the bound or
      dividing the candidate; the candidate is accepted exactly when it
      stopped for the first reason. */
  lemma ScanDecides(s: seq<int>, root: int, c: int, i: int)
    requires forall k :: 0 <= k < |s| ==> s[k] >= 2
    requires 0 <= i < |s| && forall k :: 0 <= k < i ==> s[k] <= root && c % s[k] != 0
    requires s[i] > root || c % s[i] == 0
    ensures Accepted(s, root, c) <==> s[i] > root
  {
    ScanDecidesFrom(s, root, c, i, 0);
  }

  lemma {:induction false} ScanDecidesFrom(s: seq<int>, root: int, c: int, i: int, j: nat)
    requires forall k :: 0 <= k < |s| ==> s[k] >= 2
    requires j <= i < |s| && forall k :: 0 <= k < i ==> s[k] <= root && c % s[k] != 0
    requires s[i] > root || c % s[i] == 0
    ensures AcceptedFrom(s, root, c, j) <==> s[i] > root
    decreases i - j
  {
    if j < i {
      ScanDecidesFrom(s, root, c, i, j + 1);
    }
  }

  /** `extend` can run: the elements are at least 2 (so `%` is defined),
      and some candidate `last + 2m` is accepted, so the search ends. */
  ghost predicate Extendable(s: seq<int>) {
    && |s| > 0
    && (forall k :: 0 <= k < |s| ==> s[k] >= 2)
    && exists m :: m >= 1 && Accepted(s, FloorSqrt(s[|s| - 1]), s[|s| - 1] + 2 * m)
  }

  /** `c` is the value `extend` appends to `s`: the first accepted number
      among `last + 2`, `last + 4`, ..., with the bound taken from the old
      last element. */
  predicate IsNextCandidate(s: seq<int>, c: int)
    requires |s| > 0 && forall k :: 0 <= k < |s| ==> s[k] >= 2
  {
    var last := s[|s| - 1];
    && c > last && (c - last) % 2 == 0
    && Accepted(s, FloorSqrt(last), c)
    && forall d :: last < d < c && (d - last) % 2 == 0 ==> !Accepted(s, FloorSqrt(last), d)
  }

  /** The appended value is determined by the sequence. */
  lemma NextCandidateUnique(s: seq<int>, c: int, d: int)
    requires |s| > 0 && forall k :: 0 <= k < |s| ==> s[k] >= 2
    requires IsNextCandidate(s, c) && IsNextCandidate(s, d)
    ensures c == d
  {
  }

  /** An odd last element guarantees termination: `1 + 2 * P * last`, with
      `P` the product of all elements, leaves remainder 1 modulo each of
      them, and the last element is above its own square root. */
  lemma OddLastExtendable(s: seq<int>)
    requires |s| > 0 && forall k :: 0 <= k < |s| ==> s[k] >= 2
    requires s[|s| - 1] % 2 == 1
    ensures Extendable(s)
  {
    var last := s[|s| - 1];
    var root := FloorSqrt(last);
    FloorSqrtBelow(last);
    var m := OddCoprimeCandidate(s, last);
    var c := last + 2 * m;
    var j := 0;
    while s[j] <= root
      invariant 0 <= j < |s|
      invariant forall k :: 0 <= k < j ==> s[k] <= root
      decreases |s| - j
    {
      j := j + 1;
    }
    ScanDecides(s, root, c, j);
  }

  /** The appended value is above the old last element, so `extend`
      keeps an ascending sequence ascending. */
  lemma ExtendKeepsAscending(s: seq<int>, c: int)
    requires |s| > 0 && forall k :: 0 <= k < |s| ==> s[k] >= 2
    requires Ascending(s) && IsNextCandidate(s, c)
    ensures Ascending(s + [c])
  {
  }

  /** The even gaps below `last + 2(k+1)` are those up to `last + 2k`. */
  lemma EvenGapBelow(last: int, k: int, d: int)
    requires last < d < last + 2 * (k + 1) && (d - last) % 2 == 0
    ensures d <= last + 2 * k
  {
    var q := (d - last) / 2;
    assert d - last == 2 * q;
  }

  /** One more rejected candidate extends the rejected range by one even gap. */
  lemma NotAcceptedStep(s: seq<int>, root: int, last: int, k: int)
    requires forall k :: 0 <= k < |s| ==> s[k] >= 2
    requires forall d :: last < d < last + 2 * k && (d - last) % 2 == 0 ==> !Accepted(s, root, d)
    requires !Accepted(s, root, last + 2 * k)
    ensures forall d :: last < d < last + 2 * (k + 1) && (d - last) % 2 == 0 ==> !Accepted(s, root, d)
  {
    forall d | last < d < last + 2 * (k + 1) && (d - last) % 2 == 0
      ensures !Accepted(s, root, d)
    {
      EvenGapBelow(last, k, d);
    }
  }

  /** The inner loop of `extend`: the first position whose element is
      above `root` or divides `c`. */
  method Scan(s: seq<int>, root: int, c: int) returns (i: int)
    requires |s| > 0 && forall k :: 0 <= k < |s| ==> s[k] >= 2
    requires s[|s| - 1] > root
    ensures 0 <= i < |s| && forall k :: 0 <= k < i ==> s[k] <= root && c % s[k] != 0
    ensures s[i] > root || c % s[i] == 0
  {
    i := 0;
    while s[i] <= root && c % s[i] != 0
      invariant 0 <= i < |s|
      invariant forall k :: 0 <= k < i ==> s[k] <= root && c % s[k] != 0
      decreases |s| - i
    {
      i := i + 1;
    }
  }

  /** The search of `extend`: tries `last + 2`, `last + 4`, ... by trial
      division with the elements up to the square root of the old last
      element and returns the first one that passes. */
  method NextCandidate(s: seq<int>) returns (c: int)
    requires Extendable(s)
    ensures IsNextCandidate(s, c)
  {
    var last := s[|s| - 1];
    var root := FloorSqrt(last);
    ghost var m :| m >= 1 && Accepted(s, root, last + 2 * m);
    FloorSqrtBelow(last);
    ghost var k := 1;
    c := last + 2;
    while true
      invariant 1 <= k <= m && c == last + 2 * k
      invariant forall d :: last < d < c && (d - last) % 2 == 0 ==> !Accepted(s, root, d)
      decreases m - k
    {
      var i := Scan(s, root, c);
      ScanDecides(s, root, c, i);
      if s[i] > root {
        ShiftedMod(2, k, 0);
        return;
      }
      NotAcceptedStep(s, root, last, k);
      assert k != m;
      k := k + 1;
      c := c + 2;
    }
  }

  /** `extend` takes its bound from the old last element: from
      [2, 3, 5, 7] the bound is 2, and the first candidate 9 passes. */
  lemma ExtendAppendsNine(c: int)
    requires IsNextCandidate([2, 3, 5, 7], c)
    ensures c == 9 && !IsPrime(9)
  {
    var s := [2, 3, 5, 7];
    FloorSqrtIs(7, 2);
    ScanDecides(s, 2, 9, 1);
    assert Divides(3, 9);
  }

  /** From [2] (`primes(4)`) the bound is 1, so 4 is appended; from
      [2, 4] every candidate is even and 2 is within the bound, so the
      search never ends. */
  lemma EvenLastDiverges()
    ensures IsNextCandidate([2], 4)
    ensures !Extendable([2, 4])
  {
    FloorSqrtIs(2, 1);
    ScanDecides([2], 1, 4, 0);
    FloorSqrtIs(4, 2);
    var s := [2, 4];
    forall m | m >= 1 ensures !Accepted(s, 2, 4 + 2 * m) {
      ShiftedMod(2, 2 + m, 0);
      assert 4 + 2 * m == 0 + 2 * (2 + m);
      ScanDecides(s, 2, 4 + 2 * m, 0);
    }
  }

  /** `std::binary_search`: on an ascending sequence, whether `x` occurs. */
  method BinarySearch(s: seq<int>, x: int) returns (found: bool)
    requires Ascending(s)
    ensures found <==> x in s
  {
    var lo, hi := 0, |s|;
    while lo < hi
      invariant 0 <= lo <= hi <= |s|
      invariant forall k :: 0 <= k < |s| && s[k] == x ==> lo <= k < hi
    {
      var mid := lo + (hi - lo) / 2;
      if s[mid] < x {
        lo := mid + 1;
      } else if x < s[mid] {
        hi := mid;
      } else {
        return true;
      }
    }
    return false;
  }

  /** Writing through `operator[]` can break the order `is_prime`
      relies on. */
  lemma WriteBreaksOrder()
    ensures Ascending([2, 3, 5, 7]) && !Ascending([2, 3, 5, 7][0 := 11])
  {
    assert [2, 3, 5, 7][0 := 11][0] > [2, 3, 5, 7][0 := 11][1];
  }

  /** The class `primes`: the sequence found so far and a cursor into it. */
  class Primes {
    var elems: seq<int>
    var pos: nat

    ghost predicate Valid()
      reads this
    {
      pos <= |elems|
    }

    /** `primes()`: the sequence of `primes_seq(10)`. */
    constructor Default()
      ensures Valid() && elems == [2, 3, 5, 7] && pos == 0
    {
      var e := PrimesSeq(10);
      SurvivorsTen();
      elems := e;
      pos := 0;
    }

    /** `primes(n)`: the sequence of `primes_seq(n)`. */
    constructor (n: int)
      requires n >= 3
      ensures Valid() && elems == SurvivorsBelow(n, n - 1) && pos == 0
    {
      var e := PrimesSeq(n);
      elems := e;
      pos := 0;
    }

    /** `extend()`: tries `last + 2`, `last + 4`, ... by trial division
        with the elements up to the square root of the old last element,
        and appends the first one that passes. */
    method Extend()
      requires Extendable(elems)
      modifies this
      ensures pos == old(pos)
      ensures |elems| == |old(elems)| + 1 && elems[..|old(elems)|] == old(elems)
      ensures IsNextCandidate(old(elems), elems[|elems| - 1])
    {
      var c := NextCandidate(elems);
      elems := elems + [c];
    }

    /** `next()`: the element under the cursor, extending first when the
        cursor has reached the end. */
    method Next() returns (v: int)
      requires Valid() && (pos == |elems| ==> Extendable(elems))
      modifies this
      ensures Valid() && pos == old(pos) + 1 && v == elems[old(pos)]
      ensures old(pos) < |old(elems)| ==> elems == old(elems)
      ensures old(pos) == |old(elems)| ==>
        |elems| == |old(elems)| + 1 && elems[..|old(elems)|] == old(elems) &&
        IsNextCandidate(old(elems), elems[|old(elems)|])
      decreases if pos < |elems| then 0 else 1
    {
      if pos < |elems| {
        v := elems[pos];
        pos := pos + 1;
        return;
      }
      Extend();
      v := Next();
    }

    /** `is_prime(n)`: membership in the sequence found so far. */
    method IsPrime(n: int) returns (b: bool)
      requires Ascending(elems)
      ensures b <==> n in elems
    {
      b := BinarySearch(elems, n);
    }

    method Size() returns (n: nat)
      ensures n == |elems|
    {
      n := |elems|;
    }

    /** Reading through `operator[]`. */
    method Get(i: nat) returns (v: int)
      requires i < |elems|
      ensures v == elems[i]
    {
      v := elems[i];
    }

    /** Writing through the reference `operator[]` returns. */
    method Set(i: nat, v: int)
      requires i < |elems|
      modifies this
      ensures elems == old(elems)[i := v] && pos == old(pos)
    {
      elems := elems[i := v];
    }
  }
}

=== FILE: primes_py.dfy ===
/** The Python prime helpers: the exact sieve `primes_seq`, the trial
    division `is_next_prime`, the list that `next_prime` and `is_prime`
    grow in place, the `primes` generator as a cursor, `odd_composite`
    over the first values of that generator, and `factors`. */
module PrimesPy {
  import opened Numbers
  import opened Wrappers
  import PrimesCxx

  /** Every element is at least 2, so `n % p` is defined and never 1 for all n. */
  predicate AtLeastTwo(s: seq<int>) {
    forall k :: 0 <= k < |s| ==> s[k] >= 2
  }

  /** `s` lists, ascending, the primes up to its last element and nothing else. */
  predicate PrimesUpToLast(s: seq<int>) {
    && Ascending(s)
    && (forall k :: 0 <= k < |s| ==> IsPrime(s[k]))
    && (|s| > 0 ==> forall x {:trigger x in s} :: 2 <= x <= s[|s| - 1] && IsPrime(x) ==> x in s)
  }

  /** A prime up to the last element is listed, at some position. */
  lemma PrimeIndex(s: seq<int>, x: int) returns (i: int)
    requires PrimesUpToLast(s) && |s| > 0 && 2 <= x <= s[|s| - 1] && IsPrime(x)
    ensures 0 <= i < |s| && s[i] == x
  {
    assert x in s;
    i :| 0 <= i < |s| && s[i] == x;
  }

  lemma PrimesAtLeastTwo(s: seq<int>)
    requires PrimesUpToLast(s)
    ensures AtLeastTwo(s)
  {
  }

  /** A prime other than 2 is odd. */
  lemma OddPrime(x: int)
    requires IsPrime(x) && x >= 3
    ensures x % 2 == 1
  {
    assert !Divides(2, x);
  }

  /** Two odd numbers are an even distance apart. */
  lemma OddGap(a: int, b: int)
    requires a % 2 == 1 && b % 2 == 1
    ensures (b - a) % 2 == 0
  {
    ModUnique(b - a, 2, b / 2 - a / 2, 0);
  }

  /** An even step from an odd number lands on an odd number. */
  lemma OddStep(a: int, c: int)
    requires a % 2 == 1 && (c - a) % 2 == 0
    ensures c % 2 == 1
  {
    var q := (c - a) / 2;
    assert c - a == 2 * q;
    ModUnique(c, 2, a / 2 + q, 1);
  }

  /** A divisor strictly between 1 and `n` makes `n` composite. */
  lemma NotPrimeWith(n: int, d: int)
    requires 2 <= d < n && Divides(d, n)
    ensures !IsPrime(n)
  {
  }

  // ---------------------------------------------------------------- primes_seq

  /** After striking with every `i` from 2 up to the root of `n`, what is
      left of 2..n is exactly the primes. */
  lemma SieveExact(n: nat, x: int)
    requires 2 <= x <= n
    ensures PrimesCxx.Struck(x, FloorSqrt(n) + 1) <==> !IsPrime(x)
  {
    var root := FloorSqrt(n);
    PrimesCxx.StruckMeaning(x, root + 1);
    if !IsPrime(x) {
      SmallDivisor(x);
      var d :| 2 <= d && d * d <= x && Divides(d, x);
      BelowFloorSqrt(d, n);
      MulMonotone(2, d, d);
      assert 2 <= d < root + 1 && 2 * d <= x && Divides(d, x);
    }
  }

  /** `primes_seq(n)`: the list `range(n + 1)` with struck entries set to
      `None` (here 0) by the slice assignment `seq[2*i::i]` for every
      unstruck `i` up to the root, then filtered from index 2 on. */
  method PrimesSeq(n: int) returns (result: seq<int>)
    requires n >= 0
    ensures Ascending(result)
    ensures forall x :: x in result <==> 2 <= x <= n && IsPrime(x)
  {
    var a := new int[n + 1](k => k);
    var root := FloorSqrt(n);
    SquareAtLeast(root);
    var i := 2;
    while i < root + 1
      invariant 2 <= i && (i <= root + 1 || i == 2)
      invariant forall j :: 0 <= j < a.Length ==> a[j] == if PrimesCxx.Struck(j, i) then 0 else j
    {
      if a[i] != 0 {
        forall j | 0 <= j < a.Length && 2 * i <= j && j % i == 0 {
          a[j] := 0;
        }
      } else {
        PrimesCxx.SkipStruck(i);
      }
      i := i + 1;
    }
    assert forall j :: 0 <= j < a.Length ==> a[j] == if PrimesCxx.Struck(j, root + 1) then 0 else j;
    var sieved := a[..];
    result := [];
    var k := 2;
    while k <= n
      invariant 2 <= k && (k <= n + 1 || k == 2)
      invariant Ascending(result)
      invariant forall x :: x in result <==> 2 <= x < k && IsPrime(x)
    {
      SieveExact(n, k);
      if sieved[k] != 0 {
        forall i | 0 <= i < |result| ensures result[i] < k {
          assert result[i] in result;
        }
        result := result + [sieved[k]];
      }
      k := k + 1;
    }
  }

  /** The result of `primes_seq` lists the primes up to its last element. */
  lemma PrimesSeqComplete(n: int, s: seq<int>)
    requires Ascending(s) && forall x :: x in s <==> 2 <= x <= n && IsPrime(x)
    ensures PrimesUpToLast(s)
  {
    forall k | 0 <= k < |s| ensures IsPrime(s[k]) {
      assert s[k] in s;
    }
    if |s| > 0 {
      assert s[|s| - 1] in s;
    }
  }

  // ------------------------------------------------------------ is_next_prime

  /** The scan of `is_next_prime` from position `k`: it answers True at
      the end of the sieve or at an element above `root`, and False at an
      element dividing `n`. */
  predicate PassesFrom(n: int, root: int, s: seq<int>, k: nat)
    requires AtLeastTwo(s)
    decreases |s| - k
  {
    k >= |s| || s[k] > root || (n % s[k] != 0 && PassesFrom(n, root, s, k + 1))
  }

  predicate Passes(n: int, s: seq<int>)
    requires n >= 0 && AtLeastTwo(s)
  {
    PassesFrom(n, FloorSqrt(n), s, 0)
  }

  /** `is_next_prime(n, sieve)`. */
  method IsNextPrime(n: int, sieve: seq<int>) returns (b: bool)
    requires n >= 0 && AtLeastTwo(sieve)
    ensures b == Passes(n, sieve)
  {
    var root := FloorSqrt(n);
    for k := 0 to |sieve|
      invariant PassesFrom(n, root, sieve, k) == Passes(n, sieve)
    {
      if sieve[k] > root {
        return true;
      }
      if n % sieve[k] == 0 {
        return false;
      }
    }
    return true;
  }

  /** On an ascending sieve the scan answers True exactly when no element
      up to `root` divides `n`. */
  lemma {:induction false} PassesFromMeaning(n: int, root: int, s: seq<int>, k: nat)
    requires AtLeastTwo(s) && Ascending(s) && k <= |s|
    ensures PassesFrom(n, root, s, k) <==> forall i :: k <= i < |s| && s[i] <= root ==> !Divides(s[i], n)
    decreases |s| - k
  {
    if k < |s| {
      PassesFromMeaning(n, root, s, k + 1);
    }
  }

  /** A prime passes every ascending sieve: the elements reached are at
      most its root, hence below it. */
  lemma PrimePasses(n: int, s: seq<int>)
    requires IsPrime(n) && AtLeastTwo(s) && Ascending(s)
    ensures Passes(n, s)
  {
    PassesFromMeaning(n, FloorSqrt(n), s, 0);
    FloorSqrtBelow(n);
  }

  /** An element up to the root that divides `n` makes the scan fail. */
  lemma DivisorFails(n: int, s: seq<int>, i: int)
    requires n >= 0 && AtLeastTwo(s) && Ascending(s)
    requires 0 <= i < |s| && s[i] <= FloorSqrt(n) && Divides(s[i], n)
    ensures !Passes(n, s)
  {
    PassesFromMeaning(n, FloorSqrt(n), s, 0);
  }

  /** With every prime up to the root of `n` in an ascending sieve, the
      trial division decides primality. */
  lemma PassesPrime(n: int, s: seq<int>)
    requires n >= 2 && AtLeastTwo(s) && Ascending(s)
    requires forall q :: IsPrime(q) && q <= FloorSqrt(n) ==> q in s
    ensures Passes(n, s) <==> IsPrime(n)
  {
    if IsPrime(n) {
      PrimePasses(n, s);
    } else {
      var p := SmallPrimeDivisor(n);
      BelowFloorSqrt(p, n);
      var i :| 0 <= i < |s| && s[i] == p;
      DivisorFails(n, s, i);
    }
  }

  /** A number no element divides passes. */
  lemma {:induction false} NoDivisorPassesFrom(n: int, root: int, s: seq<int>, k: nat)
    requires AtLeastTwo(s) && k <= |s|
    requires forall i :: 0 <= i < |s| ==> n % s[i] != 0
    ensures PassesFrom(n, root, s, k)
    decreases |s| - k
  {
    if k < |s| {
      NoDivisorPassesFrom(n, root, s, k + 1);
    }
  }

  // --------------------------------------------------------------- next_prime

  /** `c` is what `next_prime` appends: the first of `last + 2`,
      `last + 4`, ... that passes `is_next_prime`. */
  predicate IsFirstPassing(s: seq<int>, c: int)
    requires |s| > 0 && AtLeastTwo(s)
  {
    var last := s[|s| - 1];
    && c > last && (c - last) % 2 == 0
    && Passes(c, s)
    && forall d :: last < d < c && (d - last) % 2 == 0 ==> !Passes(d, s)
  }

  /** `next_prime` returns: some candidate `last + 2m` passes. */
  ghost predicate Continues(s: seq<int>) {
    && |s| > 0 && AtLeastTwo(s)
    && exists m :: m >= 1 && Passes(s[|s| - 1] + 2 * m, s)
  }

  /** An odd last element is enough for `next_prime` to return. */
  lemma OddLastContinues(s: seq<int>)
    requires |s| > 0 && AtLeastTwo(s) && s[|s| - 1] % 2 == 1
    ensures Continues(s)
  {
    var last := s[|s| - 1];
    var m := OddCoprimeCandidate(s, last);
    NoDivisorPassesFrom(last + 2 * m, FloorSqrt(last + 2 * m), s, 0);
  }

  /** From the sieve [2] every candidate is even and 2 is within its
      root, so `next_prime([2])` never returns. */
  lemma EvenSeedDiverges()
    ensures !Continues([2])
  {
    forall m | m >= 1 ensures !Passes(2 + 2 * m, [2]) {
      BelowFloorSqrt(2, 2 + 2 * m);
      ShiftedMod(2, 1 + m, 0);
    }
  }

  /** One more failing candidate extends the failing range by one even gap. */
  lemma NotPassingStep(s: seq<int>, last: int, k: int)
    requires AtLeastTwo(s) && last >= 0
    requires forall d :: last < d < last + 2 * k && (d - last) % 2 == 0 ==> !Passes(d, s)
    requires last + 2 * k >= 0 && !Passes(last + 2 * k, s)
    ensures forall d :: last < d < last + 2 * (k + 1) && (d - last) % 2 == 0 ==> !Passes(d, s)
  {
    forall d | last < d < last + 2 * (k + 1) && (d - last) % 2 == 0
      ensures !Passes(d, s)
    {
      PrimesCxx.EvenGapBelow(last, k, d);
    }
  }

  /** The first passing candidate after `k - 1` failing ones is the one
      `next_prime` appends. */
  lemma PassingFound(s: seq<int>, k: int)
    requires |s| > 0 && AtLeastTwo(s) && k >= 1
    requires forall d :: s[|s| - 1] < d < s[|s| - 1] + 2 * k && (d - s[|s| - 1]) % 2 == 0 ==> !Passes(d, s)
    requires Passes(s[|s| - 1] + 2 * k, s)
    ensures IsFirstPassing(s, s[|s| - 1] + 2 * k)
  {
    ShiftedMod(2, k, 0);
  }

  /** The loop of `next_prime`: `last + 2`, `last + 4`, ... until
      `is_next_prime` accepts. */
  method FirstPassing(s: seq<int>) returns (c: int)
    requires Continues(s)
    ensures IsFirstPassing(s, c)
  {
    var last := s[|s| - 1];
    ghost var m :| m >= 1 && Passes(last + 2 * m, s);
    ghost var k := 1;
    c := last + 2;
    while true
      invariant 1 <= k <= m && c == last + 2 * k
      invariant forall d :: last < d < c && (d - last) % 2 == 0 ==> !Passes(d, s)
      decreases m - k
    {
      var ok := IsNextPrime(c, s);
      if ok {
        PassingFound(s, k);
        return;
      }
      NotPassingStep(s, last, k);
      assert k != m;
      k := k + 1;
      c := c + 2;
    }
  }

  /** When the sieve holds exactly the primes up to an odd last element,
      `next_prime` appends the next prime, and the sieve again holds
      exactly the primes up to its last element. */
  lemma FirstPassingIsNextPrime(s: seq<int>, c: int)
    requires |s| > 0 && AtLeastTwo(s) && PrimesUpToLast(s) && s[|s| - 1] >= 3
    requires IsFirstPassing(s, c)
    ensures IsPrime(c) && forall q :: s[|s| - 1] < q < c ==> !IsPrime(q)
    ensures PrimesUpToLast(s + [c])
  {
    var last := s[|s| - 1];
    OddPrime(last);
    forall q | last < q < c ensures !IsPrime(q) {
      if IsPrime(q) {
        OddPrime(q);
        OddGap(last, q);
        PrimePasses(q, s);
        assert false;
      }
    }
    if !IsPrime(c) {
      var p := SmallPrimeDivisor(c);
      BelowFloorSqrt(p, c);
      if p <= last {
        var i := PrimeIndex(s, p);
        DivisorFails(c, s, i);
        assert false;
      } else {
        MulMonotone(2, p, p);
        assert false;
      }
    }
    var t := s + [c];
    forall x | 2 <= x <= c && IsPrime(x) ensures x in t {
      if x <= last {
        var i := PrimeIndex(s, x);
        assert t[i] == x;
      } else {
        assert t[|s|] == x;
      }
    }
  }

  // ---------------------------------------------------- the sieve list object

  /** `t` is `s` after zero or more calls of `next_prime`. */
  ghost predicate GrownBy(s: seq<int>, t: seq<int>)
    decreases |t|
  {
    if |t| <= |s| then t == s
    else |t| >= 2 && AtLeastTwo(t[..|t| - 1]) && GrownBy(s, t[..|t| - 1]) && IsFirstPassing(t[..|t| - 1], t[|t| - 1])
  }

  /** `bisect.bisect_left`: the first position whose element is at least `x`. */
  method BisectLeft(s: seq<int>, x: int) returns (pos: nat)
    requires Ascending(s)
    ensures pos <= |s|
    ensures forall i :: 0 <= i < pos ==> s[i] < x
    ensures forall i :: pos <= i < |s| ==> s[i] >= x
  {
    var lo, hi := 0, |s|;
    while lo < hi
      invariant 0 <= lo <= hi <= |s|
      invariant forall i :: 0 <= i < lo ==> s[i] < x
      invariant forall i :: hi <= i < |s| ==> s[i] >= x
    {
      var mid := (lo + hi) / 2;
      if s[mid] < x {
        lo := mid + 1;
      } else {
        hi := mid;
      }
    }
    pos := lo;
  }

  /** The `for s in sieve` loop of `is_prime`: `Some(true)` when it
      reaches an element above the root, `Some(false)` at a divisor, and
      `None` when the sieve runs out, every element then being at most
      the root and no divisor. */
  method TrialScan(n: int, s: seq<int>) returns (verdict: Option<bool>)
    requires n >= 0 && AtLeastTwo(s) && Ascending(s)
    ensures verdict == Some(true) ==>
      |s| > 0 && s[|s| - 1] > FloorSqrt(n) && forall i :: 0 <= i < |s| && s[i] <= FloorSqrt(n) ==> !Divides(s[i], n)
    ensures verdict == Some(false) ==> exists i :: 0 <= i < |s| && s[i] <= FloorSqrt(n) && Divides(s[i], n)
    ensures verdict == None ==> forall i :: 0 <= i < |s| ==> s[i] <= FloorSqrt(n) && !Divides(s[i], n)
  {
    var root := FloorSqrt(n);
    for k := 0 to |s|
      invariant forall i :: 0 <= i < k ==> s[i] <= root && !Divides(s[i], n)
    {
      if s[k] > root {
        return Some(true);
      }
      if n % s[k] == 0 {
        return Some(false);
      }
    }
    return None;
  }

  /** Every prime up to the root of `n` is in the sieve and none of the
      elements up to the root divides `n`: `n` is prime. */
  lemma NoSmallPrimeDivisor(n: int, s: seq<int>)
    requires n >= 2 && |s| > 0 && PrimesUpToLast(s) && s[|s| - 1] >= FloorSqrt(n)
    requires forall i :: 0 <= i < |s| && s[i] <= FloorSqrt(n) ==> !Divides(s[i], n)
    ensures IsPrime(n)
  {
    if !IsPrime(n) {
      var p := SmallPrimeDivisor(n);
      BelowFloorSqrt(p, n);
      var i := PrimeIndex(s, p);
      assert false;
    }
  }

  /** The first branch of `is_prime`: `bisect_left` and a comparison,
      which on an ascending sieve whose last element exceeds `n` is
      membership. */
  method Lookup(s: seq<int>, n: int) returns (b: bool)
    requires Ascending(s) && |s| > 0 && n < s[|s| - 1]
    ensures b <==> n in s
    ensures PrimesUpToLast(s) ==> (b <==> IsPrime(n))
  {
    var pos := BisectLeft(s, n);
    b := s[pos] == n;
  }

  /** What the `while last < root` loop of `is_prime` keeps: the list
      grew from `start` by `next_prime`, stays ascending with an odd last
      element, and none of its elements divides `n`. */
  ghost predicate Growing(start: seq<int>, t: seq<int>, n: int) {
    && GrownBy(start, t) && Ascending(t) && AtLeastTwo(t)
    && |t| > 0 && t[|t| - 1] % 2 == 1
    && (forall i :: 0 <= i < |t| ==> !Divides(t[i], n))
  }

  /** One `next_prime` step inside `is_prime` keeps what its loop relies
      on, once the new element is known not to divide `n`. */
  lemma GrowthKeeps(start: seq<int>, s: seq<int>, c: int, n: int)
    requires Growing(start, s, n)
    requires IsFirstPassing(s, c)
    ensures GrownBy(start, s + [c]) && Ascending(s + [c]) && AtLeastTwo(s + [c])
    ensures !Divides(c, n) ==> Growing(start, s + [c], n)
  {
    var t := s + [c];
    assert t[..|t| - 1] == s;
    OddStep(s[|s| - 1], c);
  }

  /** Growing a complete list by `next_prime` keeps it complete: every
      step appends the next prime. */
  lemma {:induction false} GrownComplete(s: seq<int>, t: seq<int>)
    requires |s| > 0 && PrimesUpToLast(s) && s[|s| - 1] >= 3 && GrownBy(s, t)
    ensures PrimesUpToLast(t) && t[|t| - 1] >= s[|s| - 1]
    decreases |t|
  {
    if |t| > |s| {
      var p := t[..|t| - 1];
      GrownComplete(s, p);
      FirstPassingIsNextPrime(p, t[|t| - 1]);
      assert t == p + [t[|t| - 1]];
    }
  }

  /** `next_prime` has one answer: two first passing candidates agree. */
  lemma FirstPassingUnique(s: seq<int>, c: int, d: int)
    requires |s| > 0 && AtLeastTwo(s)
    requires IsFirstPassing(s, c) && IsFirstPassing(s, d)
    ensures c == d
  {
  }

  /** Two lists grown from `s` by `next_prime` agree on the shorter one's
      length: the growth is determined. */
  lemma {:induction false} GrownPrefix(s: seq<int>, t1: seq<int>, t2: seq<int>)
    requires GrownBy(s, t1) && GrownBy(s, t2) && |t1| <= |t2|
    ensures t1 == t2[..|t1|]
    decreases |t2|
  {
    if |t2| > |s| {
      var p2 := t2[..|t2| - 1];
      if |t1| < |t2| {
        GrownPrefix(s, t1, p2);
        assert p2[..|t1|] == t2[..|t1|];
      } else {
        var p1 := t1[..|t1| - 1];
        GrownPrefix(s, p1, p2);
        assert p1 == p2;
        assert |p1| > 0 && AtLeastTwo(p1);
        assert IsFirstPassing(p1, t1[|t1| - 1]);
        assert IsFirstPassing(p2, t2[|t2| - 1]);
        FirstPassingUnique(p1, t1[|t1| - 1], t2[|t2| - 1]);
        assert t1 == p1 + [t1[|t1| - 1]];
        assert t2 == p2 + [t2[|t2| - 1]];
      }
    }
  }

  /** Where the `while last < root` loop of `is_prime` leaves the list
      `t` it grows from `s`: it runs only when the last element of `s` is
      below the root, goes on past an appended element only when that
      element is below the root, is not `n` and does not divide `n`, and
      stops at the first appended element that is not so. */
  ghost predicate StopsAt(s: seq<int>, t: seq<int>, n: int)
    requires |s| > 0 && n >= 0
  {
    && |s| <= |t|
    && (|t| == |s| <==> s[|s| - 1] >= FloorSqrt(n))
    && (forall k :: |s| <= k < |t| - 1 ==> t[k] < FloorSqrt(n) && t[k] != n && !Divides(t[k], n))
    && (|t| > |s| ==> t[|t| - 1] >= FloorSqrt(n) || t[|t| - 1] == n || Divides(t[|t| - 1], n))
  }

  /** The `while last < root` loop of `is_prime` has not stopped yet:
      every element it appended is neither `n` nor a divisor of `n`, and
      all but the last are below the root. */
  ghost predicate Continuing(s: seq<int>, t: seq<int>, n: int)
    requires |s| > 0 && n >= 0
  {
    && |s| <= |t| && (|t| == |s| ==> t == s)
    && (|t| > |s| ==> s[|s| - 1] < FloorSqrt(n))
    && (forall k :: |s| <= k < |t| - 1 ==> t[k] < FloorSqrt(n))
    && (forall k :: |s| <= k < |t| ==> t[k] != n && !Divides(t[k], n))
  }

  /** One turn of the loop, which ran because the last element is below
      the root: appending `c` either stops the loop where `StopsAt` says
      or keeps it going. */
  lemma StopStep(s: seq<int>, t: seq<int>, c: int, n: int)
    requires |s| > 0 && n >= 0 && Continuing(s, t, n) && t[|t| - 1] < FloorSqrt(n)
    ensures c >= FloorSqrt(n) || c == n || Divides(c, n) ==> StopsAt(s, t + [c], n)
    ensures c != n && !Divides(c, n) ==> Continuing(s, t + [c], n)
  {
    var u := t + [c];
    assert forall k :: 0 <= k < |t| ==> u[k] == t[k];
  }

  /** The loop ends when the last element reaches the root; where it
      stops is then where `StopsAt` says. */
  lemma ContinuingStops(s: seq<int>, t: seq<int>, n: int)
    requires |s| > 0 && n >= 0 && Continuing(s, t, n) && t[|t| - 1] >= FloorSqrt(n)
    ensures StopsAt(s, t, n)
  {
  }

  /** The growth and the stopping rule fix the list `is_prime` leaves
      behind: two lists grown from `s` that both stop as the loop does
      are equal. */
  lemma GrowthDetermined(s: seq<int>, n: int, t1: seq<int>, t2: seq<int>)
    requires |s| > 0 && n >= 0
    requires GrownBy(s, t1) && StopsAt(s, t1, n)
    requires GrownBy(s, t2) && StopsAt(s, t2, n)
    ensures t1 == t2
  {
    if |t1| <= |t2| {
      StopsFirst(s, n, t1, t2);
    } else {
      StopsFirst(s, n, t2, t1);
    }
  }

  lemma StopsFirst(s: seq<int>, n: int, t1: seq<int>, t2: seq<int>)
    requires |s| > 0 && n >= 0 && |t1| <= |t2|
    requires GrownBy(s, t1) && StopsAt(s, t1, n)
    requires GrownBy(s, t2) && StopsAt(s, t2, n)
    ensures t1 == t2
  {
    GrownPrefix(s, t1, t2);
    if |t1| > |s| {
      var k := |t1| - 1;
      assert t2[k] == t1[k];
    }
  }

  /** The `while last < root` loop of `is_prime`: once every element of
      `s` is at most the root and none divides `n`, append with
      `next_prime` while the last element is below the root, testing each
      new element; `t` is the list afterwards. The last element is odd:
      below the root an even one would make `next_prime` search forever. */
  method GrowAndTest(s: seq<int>, n: int) returns (b: bool, t: seq<int>)
    requires n >= 2 && |s| > 0 && AtLeastTwo(s) && Ascending(s)
    requires s[|s| - 1] % 2 == 1 && s[|s| - 1] <= n
    requires forall i :: 0 <= i < |s| ==> !Divides(s[i], n)
    ensures GrownBy(s, t) && Ascending(t) && AtLeastTwo(t) && |t| > 0
    ensures !b ==> exists i :: 0 <= i < |t| && 2 <= t[i] < n && Divides(t[i], n)
    ensures b ==>
      t[|t| - 1] >= FloorSqrt(n) &&
      forall i :: 0 <= i < |t| && t[i] <= FloorSqrt(n) ==> !Divides(t[i], n)
    ensures PrimesUpToLast(s) && s[|s| - 1] >= 3 ==> PrimesUpToLast(t)
    ensures StopsAt(s, t, n)
  {
    var root := FloorSqrt(n);
    FloorSqrtBelow(n);
    t := s;
    var last := t[|t| - 1];
    while last < root
      invariant Growing(s, t, n) && last == t[|t| - 1]
      invariant Continuing(s, t, n)
      decreases root - last
    {
      OddLastContinues(t);
      var c := FirstPassing(t);
      GrowthKeeps(s, t, c, n);
      StopStep(s, t, c, n);
      t := t + [c];
      last := c;
      if PrimesUpToLast(s) && s[|s| - 1] >= 3 {
        GrownComplete(s, t);
      }
      if last == n {
        return true, t;
      }
      if n % last == 0 {
        DividesAtMost(last, n);
        assert 2 <= t[|t| - 1] < n && Divides(t[|t| - 1], n);
        return false, t;
      }
    }
    ContinuingStops(s, t, n);
    if PrimesUpToLast(s) && s[|s| - 1] >= 3 {
      GrownComplete(s, t);
    }
    b := true;
  }

  /** On a complete list the verdicts `is_prime` draws from its elements
      are primality: a divisor below `n` makes it composite, and no
      divisor among the elements up to a root the list reaches makes it
      prime. */
  lemma VerdictIsPrimality(t: seq<int>, n: int, b: bool)
    requires n >= 2 && |t| > 0 && PrimesUpToLast(t)
    requires !b ==> exists i :: 0 <= i < |t| && 2 <= t[i] < n && Divides(t[i], n)
    requires b ==>
      t[|t| - 1] >= FloorSqrt(n) &&
      forall i :: 0 <= i < |t| && t[i] <= FloorSqrt(n) ==> !Divides(t[i], n)
    ensures b <==> IsPrime(n)
  {
    if b {
      NoSmallPrimeDivisor(n, t);
    }
  }

  /** `is_prime(n, sieve)` on the list `s`, returning the verdict and the
      list afterwards. Below the last element it is membership; otherwise
      a divisor among the elements up to the root settles it, and when the
      elements run out first the list grows. With a complete sieve (every
      prime up to its last element, which is at least 3) the verdict is
      primality. */
  method IsPrimeIn(s: seq<int>, n: int) returns (b: bool, t: seq<int>)
    requires |s| > 0 && AtLeastTwo(s) && Ascending(s)
    requires (n >= s[|s| - 1] && s[|s| - 1] < FloorSqrt(n) && (forall i :: 0 <= i < |s| ==> !Divides(s[i], n)))
      ==> s[|s| - 1] % 2 == 1
    ensures GrownBy(s, t) && Ascending(t) && AtLeastTwo(t) && |t| > 0
    ensures n < s[|s| - 1] ==> t == s && (b <==> n in s)
    ensures n >= s[|s| - 1] && !b ==> exists i :: 0 <= i < |t| && 2 <= t[i] < n && Divides(t[i], n)
    ensures n >= s[|s| - 1] && b ==>
      t[|t| - 1] >= FloorSqrt(n) &&
      forall i :: 0 <= i < |t| && t[i] <= FloorSqrt(n) ==> !Divides(t[i], n)
    ensures PrimesUpToLast(s) && s[|s| - 1] >= 3 ==> PrimesUpToLast(t) && (b <==> IsPrime(n))
    ensures n >= s[|s| - 1] &&
      (s[|s| - 1] >= FloorSqrt(n) || exists i :: 0 <= i < |s| && s[i] <= FloorSqrt(n) && Divides(s[i], n))
      ==> t == s
    ensures n >= s[|s| - 1] && s[|s| - 1] < FloorSqrt(n) && (forall i :: 0 <= i < |s| ==> !Divides(s[i], n))
      ==> StopsAt(s, t, n)
  {
    var last := s[|s| - 1];
    t := s;
    if n < last {
      b := Lookup(s, n);
      return;
    }
    FloorSqrtBelow(n);
    var verdict := TrialScan(n, s);
    if verdict.Some? {
      b := verdict.value;
      if PrimesUpToLast(s) && last >= 3 {
        if b {
          NoSmallPrimeDivisor(n, s);
        }
      }
      return;
    }
    if last >= FloorSqrt(n) {
      // the `while last < root` guard fails at once
      if PrimesUpToLast(s) && last >= 3 {
        NoSmallPrimeDivisor(n, s);
      }
      return true, s;
    }
    b, t := GrowAndTest(s, n);
    if PrimesUpToLast(s) && last >= 3 {
      VerdictIsPrimality(t, n, b);
    }
  }

  /** A Python list used as a sieve; `next_prime` and `is_prime` append to
      it in place. */
  class Sieve {
    var elems: seq<int>

    constructor (s: seq<int>)
      ensures elems == s
    {
      elems := s;
    }

    /** `next_prime(sieve)`. */
    method NextPrime()
      requires Continues(elems)
      modifies this
      ensures |elems| == |old(elems)| + 1 && elems[..|old(elems)|] == old(elems)
      ensures IsFirstPassing(old(elems), elems[|elems| - 1])
    {
      var c := FirstPassing(elems);
      elems := elems + [c];
    }

    /** `is_prime(n, sieve)`; the sieve it also returns is this object. */
    method IsPrime(n: int) returns (b: bool)
      requires |elems| > 0 && AtLeastTwo(elems) && Ascending(elems)
      requires (n >= elems[|elems| - 1] && elems[|elems| - 1] < FloorSqrt(n) &&
                (forall i :: 0 <= i < |elems| ==> !Divides(elems[i], n))) ==> elems[|elems| - 1] % 2 == 1
      modifies this
      ensures GrownBy(old(elems), elems) && Ascending(elems) && AtLeastTwo(elems) && |elems| > 0
      ensures n < old(elems[|elems| - 1]) ==> elems == old(elems) && (b <==> n in elems)
      ensures n >= old(elems[|elems| - 1]) && !b ==> exists i :: 0 <= i < |elems| && 2 <= elems[i] < n && Divides(elems[i], n)
      ensures n >= old(elems[|elems| - 1]) && b ==>
        elems[|elems| - 1] >= FloorSqrt(n) &&
        forall i :: 0 <= i < |elems| && elems[i] <= FloorSqrt(n) ==> !Divides(elems[i], n)
      ensures PrimesUpToLast(old(elems)) && old(elems[|elems| - 1]) >= 3 ==>
        PrimesUpToLast(elems) && (b <==> Numbers.IsPrime(n))
      ensures n >= old(elems[|elems| - 1]) &&
        (old(elems[|elems| - 1]) >= FloorSqrt(n) ||
         exists i :: 0 <= i < |old(elems)| && old(elems)[i] <= FloorSqrt(n) && Divides(old(elems)[i], n))
        ==> elems == old(elems)
      ensures n >= old(elems[|elems| - 1]) && old(elems[|elems| - 1]) < FloorSqrt(n) &&
        (forall i :: 0 <= i < |old(elems)| ==> !Divides(old(elems)[i], n))
        ==> StopsAt(old(elems), elems, n)
    {
      var t;
      b, t := IsPrimeIn(elems, n);
      elems := t;
    }
  }

  // ------------------------------------------------------------------ primes

  /** In a list of the primes up to its last element, the primes below
      `s[k]` are exactly those before position `k`: `s[k]` is the prime
      with `k` smaller primes. */
  lemma PrimesBefore(s: seq<int>, k: int)
    requires PrimesUpToLast(s) && 0 <= k < |s|
    ensures forall p :: IsPrime(p) && p < s[k] ==> p in s[..k]
  {
    forall p | IsPrime(p) && p < s[k] ensures p in s[..k] {
      assert p in s;
      var j :| 0 <= j < |s| && s[j] == p;
      assert s[..k][j] == p;
    }
  }

  /** The sieve bound of `primes(n)`: `n or 10`. Both `None` and 0 are
      false, so `primes_seq` never receives 0. */
  function Bound(n: Option<int>): (b: int)
    ensures b != 0
  {
    if n.None? || n.value == 0 then 10 else n.value
  }

  /** The `primes(n)` generator, suspended between two values: the list it
      grows (seeded by `primes_seq(n or 10)`) and the count `m` of values
      it has yielded. `None` and 0 both leave the count unbounded. */
  class PrimesGen {
    const sieve: Sieve
    const n: Option<int>
    var m: nat

    /** The yielded values are a prefix of the list, and the list holds
        the primes up to its last element. */
    ghost predicate Valid()
      reads this, sieve
    {
      m <= |sieve.elems| && PrimesUpToLast(sieve.elems)
    }

    /** The last element is an odd prime, so `next_prime` can extend the list. */
    predicate Extensible()
      reads this, sieve
    {
      |sieve.elems| > 0 && sieve.elems[|sieve.elems| - 1] >= 3
    }

    /** The body of the generator up to its loop. */
    constructor (n: Option<int>)
      requires Bound(n) >= 0
      ensures Valid() && fresh(sieve) && this.n == n && m == 0
      ensures forall x :: x in sieve.elems <==> 2 <= x <= Bound(n) && IsPrime(x)
      ensures Bound(n) >= 3 ==> Extensible()
    {
      var s := PrimesSeq(Bound(n));
      PrimesSeqComplete(Bound(n), s);
      if Bound(n) >= 3 {
        assert IsPrime(3) && 3 in s;
      }
      this.n := n;
      sieve := new Sieve(s);
      m := 0;
    }

    /** The loop condition `not n or m < n`. */
    predicate More()
      reads this
    {
      n.None? || n.value == 0 || m < n.value
    }

    /** One resumption of the generator: the value `sieve[m]`, after one
        `next_prime` when the list has run out. */
    method Next() returns (v: int)
      requires Valid() && More()
      requires m < |sieve.elems| || Extensible()
      modifies this, sieve
      ensures Valid() && m == old(m) + 1
      ensures old(sieve.elems) <= sieve.elems
      ensures v == sieve.elems[old(m)]
      ensures IsPrime(v) && forall p :: IsPrime(p) && p < v ==> p in sieve.elems[..old(m)]
      ensures old(Extensible()) ==> Extensible()
    {
      var t;
      v, t := NextValue(sieve.elems, m);
      sieve.elems := t;
      m := m + 1;
    }
  }

  /** The step of `primes()` on its state, the list `s` and the count `m`
      of values yielded: the value `s[m]`, after one `next_prime` when the
      list has run out, and the list afterwards. The values come in
      order: the `m`-th is the prime with `m` smaller primes, all yielded
      before it. */
  method NextValue(s: seq<int>, m: nat) returns (v: int, t: seq<int>)
    requires m <= |s| && PrimesUpToLast(s)
    requires m < |s| || (|s| > 0 && s[|s| - 1] >= 3)
    ensures PrimesUpToLast(t) && s <= t && m < |t| && v == t[m]
    ensures IsPrime(v) && forall p :: IsPrime(p) && p < v ==> p in t[..m]
    ensures |s| > 0 && s[|s| - 1] >= 3 ==> t[|t| - 1] >= 3
  {
    t := s;
    if m == |s| {
      PrimesAtLeastTwo(s);
      OddPrime(s[|s| - 1]);
      OddLastContinues(s);
      var c := FirstPassing(s);
      FirstPassingIsNextPrime(s, c);
      t := s + [c];
    }
    v := t[m];
    PrimesBefore(t, m);
  }

  // ----------------------------------------------------------- odd_composite

  /** 3, 5 and 7 are prime: an odd number above 1 that is not prime is at
      least 9, where `odd_composite` starts. */
  lemma OddCompositeAtLeastNine(x: int)
    requires x >= 2 && x % 2 == 1 && !IsPrime(x)
    ensures x >= 9
  {
    if x < 9 {
      assert false;
    }
  }

  /** Nothing strictly between two neighbours of a list of the primes up
      to its last element is prime. */
  lemma NoPrimeBetween(s: seq<int>, k: int, y: int)
    requires PrimesUpToLast(s) && 1 <= k < |s| && s[k - 1] < y < s[k]
    ensures !IsPrime(y)
  {
    if IsPrime(y) {
      var i := PrimeIndex(s, y);
      assert false;
    }
  }

  /** The first prime is 2. */
  lemma FirstPrimeTwo(s: seq<int>)
    requires PrimesUpToLast(s) && |s| > 0
    ensures s[0] == 2
  {
    assert IsPrime(s[0]);
    assert IsPrime(2);
    assert 2 in s;
  }

  /** The odd composite numbers from 9 up to, not including, `bound`. */
  ghost predicate OddCompositesBelow(out: seq<int>, bound: int) {
    && Ascending(out)
    && forall y :: y in out <==> y % 2 == 1 && 9 <= y < bound && !IsPrime(y)
  }

  /** Yielding the odd composite `x` extends the list of odd composites
      below `x` to those below `x + 2`. */
  lemma AppendOddComposite(out: seq<int>, x: int)
    requires OddCompositesBelow(out, x) && x % 2 == 1 && x >= 9 && !IsPrime(x)
    ensures OddCompositesBelow(out + [x], x + 2)
  {
    forall i | 0 <= i < |out| ensures out[i] < x {
      assert out[i] in out;
    }
  }

  /** The `for n in range(last, p - 1, 2)` loop: every odd number from
      `last`, two above the previous prime, up to the next prime `p` is
      composite and is yielded. */
  method YieldGap(ps: seq<int>, k: int, out: seq<int>) returns (out': seq<int>)
    requires PrimesUpToLast(ps) && 1 <= k < |ps|
    requires ps[k - 1] % 2 == 1
    requires OddCompositesBelow(out, ps[k - 1] + 2)
    ensures OddCompositesBelow(out', ps[k])
  {
    var p := ps[k];
    OddPrime(p);
    out' := out;
    var x := ps[k - 1] + 2;
    while x < p - 1
      invariant ps[k - 1] + 2 <= x <= p && x % 2 == 1
      invariant OddCompositesBelow(out', x)
      decreases p - x
    {
      NoPrimeBetween(ps, k, x);
      OddCompositeAtLeastNine(x);
      AppendOddComposite(out', x);
      out' := out' + [x];
      x := x + 2;
    }
    assert x == p by {
      OddGap(x, p);
    }
  }

  /** `odd_composite()` while `for p in primes()` runs over `ps`, the first
      `|ps|` primes: what it has yielded by then is, ascending, every odd
      composite number below the last of them. */
  method OddComposites(ps: seq<int>) returns (out: seq<int>)
    requires PrimesUpToLast(ps)
    ensures |ps| == 0 ==> out == []
    ensures |ps| > 0 ==> OddCompositesBelow(out, ps[|ps| - 1])
  {
    out := [];
    var last := 9;
    for k := 0 to |ps|
      invariant k == 0 ==> last == 9 && out == []
      invariant k > 0 ==> last == ps[k - 1] + 2 && OddCompositesBelow(out, ps[k - 1])
    {
      var p := ps[k];
      if k == 0 {
        FirstPrimeTwo(ps);
      } else {
        ghost var prev := ps[k - 1];
        if prev >= 3 {
          OddPrime(prev);
        }
        assert OddCompositesBelow(out, prev + 2);
      }
      if p <= last {
        last := p + 2;
        continue;
      }
      if ps[k - 1] == 2 {
        NoPrimeBetween(ps, k, 3);
        assert false;
      }
      OddPrime(ps[k - 1]);
      out := YieldGap(ps, k, out);
      last := p + 2;
    }
  }

  // ----------------------------------------------------------------- factors

  /** Dividing out a factor keeps a number free of a divisor it did not have. */
  lemma NoDivisorAfterDivision(q: int, p: int, k: int)
    requires q >= 1 && p >= 1 && k >= 1 && Divides(p, k) && !Divides(q, k)
    ensures k / p >= 1 && !Divides(q, k / p)
  {
    CofactorDivides(p, k);
    if Divides(q, k / p) {
      DividesTrans(q, k / p, k);
    }
  }

  /** The list times what is left of `n` is `n`. */
  ghost predicate Factored(fact: seq<int>, cur: int, n: int) {
    Product(fact) * cur == n
  }

  /** Moving a factor `p` from `k` to the list keeps the product of the
      list times `k`, and leaves a smaller positive `k`. */
  lemma FactorOut(fact: seq<int>, p: int, k: int)
    requires p >= 2 && k >= 1 && Divides(p, k)
    ensures 1 <= k / p < k
    ensures Product(fact + [p]) * (k / p) == Product(fact) * k
  {
    var q := k / p;
    CofactorDivides(p, k);
    MulMonotone(2, p, q);
    assert (fact + [p])[..|fact|] == fact;
    var a := Product(fact);
    assert Product(fact + [p]) == a * p;
    assert a * p * q == a * (q * p);
  }

  /** The `while n % p == 0` loop of `factors`: append `p` and divide it
      out of `cur` as long as it divides. The product of the list times
      what is left stays `n`, `p` no longer divides what is left, and
      neither does any of the `smaller` numbers that did not before. */
  method DivideOut(fact: seq<int>, cur: int, p: int, ghost smaller: seq<int>, ghost n: int) returns (fact': seq<int>, cur': int)
    requires cur >= 1 && IsPrime(p) && AtLeastTwo(smaller)
    requires Factored(fact, cur, n)
    requires forall i :: 0 <= i < |fact| ==> IsPrime(fact[i]) && fact[i] <= p
    requires NonDecreasing(fact)
    requires forall i :: 0 <= i < |smaller| ==> !Divides(smaller[i], cur)
    ensures 1 <= cur' <= cur && Factored(fact', cur', n)
    ensures forall i :: 0 <= i < |fact'| ==> IsPrime(fact'[i]) && fact'[i] <= p
    ensures NonDecreasing(fact')
    ensures !Divides(p, cur') && forall i :: 0 <= i < |smaller| ==> !Divides(smaller[i], cur')
  {
    fact', cur' := fact, cur;
    while cur' % p == 0
      invariant 1 <= cur' <= cur && Product(fact') * cur' == n
      invariant forall i :: 0 <= i < |fact'| ==> IsPrime(fact'[i]) && fact'[i] <= p
      invariant NonDecreasing(fact')
      invariant forall i :: 0 <= i < |smaller| ==> !Divides(smaller[i], cur')
      decreases cur'
    {
      var q := cur' / p;
      forall i | 0 <= i < |smaller| ensures !Divides(smaller[i], q) {
        NoDivisorAfterDivision(smaller[i], p, cur');
      }
      FactorOut(fact', p, cur');
      fact' := fact' + [p];
      cur' := q;
    }
  }

  /** Growing a list keeps its first `m` elements, and one more is the
      next element. */
  lemma PrefixSlice(s: seq<int>, t: seq<int>, m: int)
    requires s <= t && 0 <= m <= |s| && m < |t|
    ensures t[..m + 1] == s[..m] + [t[m]]
  {
    assert t[..m] == s[..m];
  }

  /** When the next prime exceeds what is left, and none of the primes
      before it divides what is left, nothing is left. */
  lemma NothingLeft(yielded: seq<int>, p: int, cur: int)
    requires 1 <= cur < p
    requires forall q :: IsPrime(q) && q < p ==> q in yielded
    requires forall i :: 0 <= i < |yielded| ==> !Divides(yielded[i], cur)
    ensures cur == 1
  {
    if cur >= 2 {
      var q := PrimeDivisor(cur);
      assert false;
    }
  }

  /** What `factors` keeps between two primes of `primes()`: the
      generator's list holds the primes up to its odd last element and
      `yielded` is what it has handed out, the last of which is `prev`;
      the primes found so far, ascending and at most `prev`, times what is
      left make `n`, and no yielded prime divides what is left. */
  ghost predicate FactorsState(n: int, sieve: seq<int>, yielded: seq<int>, prev: int, fact: seq<int>, cur: int) {
    && PrimesUpToLast(sieve) && |yielded| <= |sieve| && |sieve| > 0 && sieve[|sieve| - 1] >= 3
    && yielded == sieve[..|yielded|] && AtLeastTwo(yielded)
    && prev == (if |yielded| == 0 then 1 else yielded[|yielded| - 1])
    && (n <= 1 ==> cur == n && |yielded| == 0 && fact == [])
    && (n >= 1 ==> cur >= 1 && Factored(fact, cur, n))
    && (forall i :: 0 <= i < |fact| ==> IsPrime(fact[i]) && fact[i] <= prev)
    && NonDecreasing(fact)
    && (forall i :: 0 <= i < |yielded| ==> !Divides(yielded[i], cur))
  }

  /** One turn of the loop of `factors`: take the next prime `p`; stop
      when it exceeds what is left, which is then 1 (or `n`, for
      `n <= 1`); otherwise divide it out. */
  method FactorsRound(n: int, sieve: seq<int>, m: nat, fact: seq<int>, cur: int, ghost prev: int)
    returns (stop: bool, sieve': seq<int>, fact': seq<int>, cur': int, ghost prev': int)
    requires m <= |sieve| && FactorsState(n, sieve, sieve[..m], prev, fact, cur)
    ensures m + 1 <= |sieve'|
    ensures stop ==> fact' == fact && cur' == cur && (n >= 1 ==> cur == 1) && (n <= 1 ==> fact == [])
    ensures stop ==> FactorsState(n, sieve, sieve[..m], prev, fact, cur)
    ensures !stop ==> FactorsState(n, sieve', sieve'[..m + 1], prev', fact', cur')
    ensures !stop ==> prev' > prev && cur' <= cur && cur - prev > 0
  {
    ghost var yielded := sieve[..m];
    var p;
    p, sieve' := NextValue(sieve, m);
    PrefixSlice(sieve, sieve', m);
    fact', cur', prev' := fact, cur, prev;
    if p > cur {
      if n >= 1 {
        NothingLeft(yielded, p, cur);
      }
      return true, sieve', fact', cur', prev';
    }
    fact', cur' := DivideOut(fact, cur, p, yielded, n);
    prev' := p;
    stop := false;
  }

  /** `factors(n)`: for each `p` of `primes()` up to what is left of `n`,
      divide `p` out as often as it goes; the generator's state, its list
      seeded by `primes_seq(10)` and its count, is held here. The result
      lists the prime factors of `n` with multiplicity, in ascending
      order; for `n <= 1` it is empty. */
  method Factors(n: int) returns (fact: seq<int>)
    ensures n <= 1 ==> fact == []
    ensures n >= 1 ==> Product(fact) == n
    ensures forall i :: 0 <= i < |fact| ==> IsPrime(fact[i])
    ensures NonDecreasing(fact)
  {
    fact := [];
    var sieve := PrimesSeq(10);
    PrimesSeqComplete(10, sieve);
    assert IsPrime(3) && 3 in sieve;
    var m := 0;
    var cur := n;
    ghost var prev := 1;
    while true
      invariant m <= |sieve| && FactorsState(n, sieve, sieve[..m], prev, fact, cur)
      decreases cur - prev
    {
      var stop;
      stop, sieve, fact, cur, prev := FactorsRound(n, sieve, m, fact, cur, prev);
      if stop {
        break;
      }
      m := m + 1;
    }
  }
}

=== FILE: sequences.dfy ===
/** Run-length grouping of equal adjacent elements and sorting by an
    integer key: the two sequence operations both poker-hand engines
    build on (`group_cards` and the lazy `_stretches`; `std::sort` with
    `card_cmp` and `list.sort(cards_cmp)`). */
module Sequences {
  import opened Numbers

  /** Run-lengths of maximal blocks of equal adjacent elements, in order,
      built from the back the way a left-to-right counter loop builds it. */
  function RunsOf<T(==)>(s: seq<T>): (r: seq<int>)
    ensures |r| <= |s|
    ensures |s| > 0 <==> |r| > 0
  {
    if |s| == 0 then []
    else if |s| == 1 then [1]
    else
      var r := RunsOf(s[..|s| - 1]);
      if s[|s| - 2] == s[|s| - 1] then r[..|r| - 1] + [r[|r| - 1] + 1] else r + [1]
  }

  /** Appending an element extends the last run or opens a new one. */
  lemma RunsOfAppend<T>(s: seq<T>, x: T)
    ensures |s| > 0 && s[|s| - 1] == x ==>
      RunsOf(s + [x]) == RunsOf(s)[..|RunsOf(s)| - 1] + [RunsOf(s)[|RunsOf(s)| - 1] + 1]
    ensures |s| == 0 || s[|s| - 1] != x ==> RunsOf(s + [x]) == RunsOf(s) + [1]
  {
    assert (s + [x])[..|s|] == s;
  }

  /** An element equal to the last one lengthens the last run. */
  lemma RunsExtend<T>(p: seq<T>, x: T, st: seq<int>, counter: int)
    requires |p| > 0 && p[|p| - 1] == x && RunsOf(p) == st + [counter]
    ensures RunsOf(p + [x]) == st + [counter + 1]
  {
    RunsOfAppend(p, x);
    assert (st + [counter])[..|st|] == st;
  }

  /** An element different from the last one opens a run of one. */
  lemma RunsOpen<T>(p: seq<T>, x: T, st: seq<int>, counter: int)
    requires |p| > 0 && p[|p| - 1] != x && RunsOf(p) == st + [counter]
    ensures RunsOf(p + [x]) == st + [counter] + [1]
  {
    RunsOfAppend(p, x);
  }

  /** One step of a left-to-right counter loop over `s`: the element at
      `t` extends the last run or opens a new one. */
  lemma RunsNext<T>(s: seq<T>, t: nat, st: seq<int>, counter: int)
    requires 0 < t < |s| && st + [counter] == RunsOf(s[..t])
    ensures s[t - 1] == s[t] ==> st + [counter + 1] == RunsOf(s[..t + 1])
    ensures s[t - 1] != s[t] ==> st + [counter] + [1] == RunsOf(s[..t + 1])
  {
    TakeNext(s, t);
    if s[t - 1] == s[t] {
      RunsExtend(s[..t], s[t], st, counter);
    } else {
      RunsOpen(s[..t], s[t], st, counter);
    }
  }

  /** The element each run of `RunsOf(s)` repeats. */
  function RunValues<T(==)>(s: seq<T>): (vals: seq<T>)
  {
    if |s| == 0 then []
    else if |s| == 1 then [s[0]]
    else
      var v := RunValues(s[..|s| - 1]);
      if s[|s| - 2] == s[|s| - 1] then v else v + [s[|s| - 1]]
  }

  /** `n` copies of `x`. */
  function Repeat<T>(x: T, n: nat): (r: seq<T>)
    ensures |r| == n && forall i :: 0 <= i < n ==> r[i] == x
  {
    if n == 0 then [] else Repeat(x, n - 1) + [x]
  }

  /** Undo run-length grouping: run k contributes `runs[k]` copies of `vals[k]`. */
  function Expand<T>(vals: seq<T>, runs: seq<int>): (r: seq<T>)
    requires |vals| == |runs|
  {
    if |runs| == 0 then []
    else
      Expand(vals[..|vals| - 1], runs[..|runs| - 1])
        + Repeat(vals[|vals| - 1], if runs[|runs| - 1] < 0 then 0 else runs[|runs| - 1])
  }

  /** One value per run, every run at least one long, and the last run
      holds the last element. */
  lemma {:induction false} RunsShape<T>(s: seq<T>)
    ensures |RunValues(s)| == |RunsOf(s)|
    ensures forall k :: 0 <= k < |RunsOf(s)| ==> RunsOf(s)[k] >= 1
    ensures |s| > 0 ==> RunValues(s)[|RunValues(s)| - 1] == s[|s| - 1]
    decreases |s|
  {
    if |s| > 1 {
      RunsShape(s[..|s| - 1]);
    }
  }

  /** The run-lengths add up to the length of the sequence. */
  lemma {:induction false} RunsSum<T>(s: seq<T>)
    ensures Sum(RunsOf(s)) == |s|
    decreases |s|
  {
    if |s| > 1 {
      var p := s[..|s| - 1];
      RunsSum(p);
      var r := RunsOf(p);
      var n := |r|;
      if s[|s| - 2] == s[|s| - 1] {
        var r' := RunsOf(s);
        assert r'[..n - 1] == r[..n - 1];
        assert r[..n] == r;
        assert Sum(r) == Sum(r[..n - 1]) + r[n - 1];
      } else {
        assert (r + [1])[..n] == r;
      }
    }
  }

  /** Neighbouring runs hold different values: the runs are maximal. */
  lemma {:induction false} RunsMaximal<T>(s: seq<T>)
    ensures forall k :: 0 <= k < |RunValues(s)| - 1 ==> RunValues(s)[k] != RunValues(s)[k + 1]
    decreases |s|
  {
    if |s| > 1 {
      var p := s[..|s| - 1];
      RunsMaximal(p);
      RunsShape(p);
    }
  }

  /** Without equal neighbours every run has length one. */
  lemma {:induction false} RunsOfDistinct<T>(s: seq<T>)
    requires forall i :: 0 < i < |s| ==> s[i - 1] != s[i]
    ensures RunsOf(s) == Repeat(1, |s|)
    decreases |s|
  {
    if |s| > 1 {
      RunsOfDistinct(s[..|s| - 1]);
    }
  }

  /** Lengthening the last run by one appends one more copy of its value. */
  lemma ExpandLonger<T>(v: seq<T>, r: seq<int>, r': seq<int>)
    requires |v| == |r| == |r'| > 0 && r[|r| - 1] >= 0
    requires r'[..|r| - 1] == r[..|r| - 1] && r'[|r| - 1] == r[|r| - 1] + 1
    ensures Expand(v, r') == Expand(v, r) + [v[|v| - 1]]
  {
    var x, k := v[|v| - 1], r[|r| - 1];
    assert Repeat(x, k + 1) == Repeat(x, k) + [x];
  }

  /** A new run of one appends its value. */
  lemma ExpandNewRun<T>(v: seq<T>, r: seq<int>, x: T)
    requires |v| == |r|
    ensures Expand(v + [x], r + [1]) == Expand(v, r) + [x]
  {
    assert (v + [x])[..|v|] == v && (r + [1])[..|r|] == r;
  }

  /** Expanding the runs gives back the sequence. */
  lemma {:induction false} RunsRoundTrip<T>(s: seq<T>)
    ensures |RunValues(s)| == |RunsOf(s)|
    ensures Expand(RunValues(s), RunsOf(s)) == s
    decreases |s|
  {
    RunsShape(s);
    if |s| == 1 {
      assert Expand(RunValues(s), RunsOf(s)) == Expand([], []) + Repeat(s[0], 1);
    } else if |s| > 1 {
      var p := s[..|s| - 1];
      RunsRoundTrip(p);
      RunsShape(p);
      var x := s[|s| - 1];
      assert p + [x] == s;
      if s[|s| - 2] == x {
        ExpandLonger(RunValues(p), RunsOf(p), RunsOf(s));
      } else {
        ExpandNewRun(RunValues(p), RunsOf(p), x);
      }
    }
  }

  /** Occurrences of `x` in `s` (`std::count`, `list.count`). */
  function Count<T(==)>(s: seq<T>, x: T): (n: nat)
    ensures n <= |s|
  {
    if |s| == 0 then 0 else Count(s[..|s| - 1], x) + (if s[|s| - 1] == x then 1 else 0)
  }

  /** Every element is `x` exactly when all of them are counted. */
  lemma {:induction false} CountAll<T>(s: seq<T>, x: T)
    ensures Count(s, x) == |s| <==> forall i :: 0 <= i < |s| ==> s[i] == x
    decreases |s|
  {
    if |s| > 0 {
      var p := s[..|s| - 1];
      CountAll(p, x);
      if Count(s, x) == |s| {
        assert Count(p, x) == |p| && s[|s| - 1] == x;
        forall i | 0 <= i < |s| ensures s[i] == x {
          if i < |p| {
            assert s[i] == p[i];
          }
        }
      } else {
        if s[|s| - 1] == x {
          assert Count(p, x) < |p|;
          var i :| 0 <= i < |p| && p[i] != x;
          assert s[i] != x;
        }
      }
    }
  }

  /** `x` occurs in `s` exactly when it is counted at least once. */
  lemma {:induction false} CountPositive<T>(s: seq<T>, x: T)
    ensures Count(s, x) > 0 <==> x in s
    decreases |s|
  {
    if |s| > 0 {
      var p := s[..|s| - 1];
      CountPositive(p, x);
      assert s == p + [s[|s| - 1]];
    }
  }

  /** `s` is ordered by `key`. */
  ghost predicate SortedBy<T>(s: seq<T>, key: T -> int) {
    forall i, j :: 0 <= i < j < |s| ==> key(s[i]) <= key(s[j])
  }

  /** Insert `x` before the first element whose key is not below its own. */
  function Insert<T>(x: T, s: seq<T>, key: T -> int): (r: seq<T>)
    ensures |r| == |s| + 1
    ensures multiset(r) == multiset(s) + multiset{x}
  {
    if |s| == 0 then [x]
    else if key(x) <= key(s[0]) then [x] + s
    else
      assert s == [s[0]] + s[1..];
      [s[0]] + Insert(x, s[1..], key)
  }

  /** Inserting into a sorted sequence keeps it sorted. */
  lemma {:induction false} InsertSorted<T>(x: T, s: seq<T>, key: T -> int)
    requires SortedBy(s, key)
    ensures SortedBy(Insert(x, s, key), key)
    decreases |s|
  {
    if |s| > 0 && key(x) > key(s[0]) {
      var t := Insert(x, s[1..], key);
      InsertSorted(x, s[1..], key);
      assert s == [s[0]] + s[1..];
      forall y | y in t ensures key(s[0]) <= key(y) {
        assert y in multiset(t);
        assert y == x || y in multiset(s[1..]);
      }
      assert Insert(x, s, key) == [s[0]] + t;
    }
  }

  /** Insertion sort by `key`: a sorted permutation of `s` that keeps
      elements with equal keys in their input order (`SortByStable`). */
  function SortBy<T>(s: seq<T>, key: T -> int): (r: seq<T>)
    ensures |r| == |s|
    ensures multiset(r) == multiset(s)
    ensures SortedBy(r, key)
  {
    if |s| == 0 then []
    else
      assert s == [s[0]] + s[1..];
      var t := SortBy(s[1..], key);
      InsertSorted(s[0], t, key);
      Insert(s[0], t, key)
  }

  /** The elements of `s` whose key is `k`, in their order in `s`. */
  function WithKey<T>(s: seq<T>, key: T -> int, k: int): (r: seq<T>)
    decreases |s|
  {
    if |s| == 0 then []
    else (if key(s[0]) == k then [s[0]] else []) + WithKey(s[1..], key, k)
  }

  lemma WithKeyCons<T>(y: T, s: seq<T>, key: T -> int, k: int)
    ensures WithKey([y] + s, key, k) == (if key(y) == k then [y] else []) + WithKey(s, key, k)
  {
    assert ([y] + s)[0] == y && ([y] + s)[1..] == s;
  }

  /** `Insert` passes over only elements with a smaller key than `x`, so
      among the elements with any one key it puts `x` first. */
  lemma {:induction false} InsertWithKey<T>(x: T, s: seq<T>, key: T -> int, k: int)
    ensures WithKey(Insert(x, s, key), key, k) == (if key(x) == k then [x] else []) + WithKey(s, key, k)
    decreases |s|
  {
    if |s| == 0 || key(x) <= key(s[0]) {
      assert Insert(x, s, key) == [x] + s;
      WithKeyCons(x, s, key, k);
    } else {
      var u := Insert(x, s[1..], key);
      assert Insert(x, s, key) == [s[0]] + u;
      InsertWithKey(x, s[1..], key, k);
      WithKeyCons(s[0], u, key, k);
      assert s == [s[0]] + s[1..];
      WithKeyCons(s[0], s[1..], key, k);
    }
  }

  /** The sort is stable: for every key, the elements with that key come
      out in the order they went in. */
  lemma {:induction false} SortByStable<T>(s: seq<T>, key: T -> int, k: int)
    ensures WithKey(SortBy(s, key), key, k) == WithKey(s, key, k)
    decreases |s|
  {
    if |s| > 0 {
      SortByStable(s[1..], key, k);
      InsertWithKey(s[0], SortBy(s[1..], key), key, k);
    }
  }

  /** The sequence back to front (`std::reverse`, `reversed`). */
  function Reverse<T>(s: seq<T>): (r: seq<T>)
    ensures |r| == |s|
    ensures forall i :: 0 <= i < |s| ==> r[i] == s[|s| - 1 - i]
  {
    if |s| == 0 then [] else Reverse(s[1..]) + [s[0]]
  }

  /** The elements of the runs longer than one, in order: run k covers
      the `runs[k]` elements that follow the first `runs[0] + ... + runs[k-1]`
      (the `scoring_cards` walk of both engines). */
  function Grouped<T>(s: seq<T>, runs: seq<int>): (g: seq<T>)
    requires Sum(runs) == |s|
    requires forall k :: 0 <= k < |runs| ==> runs[k] >= 1
    decreases |runs|
  {
    if |runs| == 0 then []
    else
      var p := runs[..|runs| - 1];
      SumNonneg(p);
      var j := Sum(p);
      Grouped(s[..j], p) + (if runs[|runs| - 1] > 1 then s[j..] else [])
  }

  /** Total length of the runs longer than one. */
  function LongRunsTotal(runs: seq<int>): (total: int)
  {
    if |runs| == 0 then 0
    else LongRunsTotal(runs[..|runs| - 1]) + (if runs[|runs| - 1] > 1 then runs[|runs| - 1] else 0)
  }

  /** Runs of length one contribute nothing. */
  lemma {:induction false} LongRunsSingles(runs: seq<int>)
    requires forall k :: 0 <= k < |runs| ==> runs[k] == 1
    ensures LongRunsTotal(runs) == 0
    decreases |runs|
  {
    if |runs| > 0 {
      LongRunsSingles(runs[..|runs| - 1]);
    }
  }

  /** The grouped elements are as many as the long runs cover and all
      come from `s`. */
  lemma {:induction false} GroupedMembers<T>(s: seq<T>, runs: seq<int>)
    requires Sum(runs) == |s|
    requires forall k :: 0 <= k < |runs| ==> runs[k] >= 1
    ensures |Grouped(s, runs)| == LongRunsTotal(runs)
    ensures forall x :: x in Grouped(s, runs) ==> x in s
    decreases |runs|
  {
    if |runs| > 0 {
      var p := runs[..|runs| - 1];
      SumNonneg(p);
      var j := Sum(p);
      assert s == s[..j] + s[j..];
      GroupedMembers(s[..j], p);
    }
  }

  /** The grouped elements of a sorted `s` are sorted. */
  lemma {:induction false} GroupedSorted<T>(s: seq<T>, runs: seq<int>, key: T -> int)
    requires Sum(runs) == |s|
    requires forall k :: 0 <= k < |runs| ==> runs[k] >= 1
    requires SortedBy(s, key)
    ensures SortedBy(Grouped(s, runs), key)
    decreases |runs|
  {
    if |runs| > 0 {
      var p := runs[..|runs| - 1];
      SumNonneg(p);
      var j := Sum(p);
      var head, tail := s[..j], s[j..];
      GroupedSorted(head, p, key);
      GroupedMembers(head, p);
      var g := Grouped(head, p);
      var e := if runs[|runs| - 1] > 1 then tail else [];
      assert Grouped(s, runs) == g + e;
      forall i, k | 0 <= i < |g| && 0 <= k < |e| ensures key(g[i]) <= key(e[k]) {
        assert g[i] in head;
        var a :| 0 <= a < |head| && head[a] == g[i];
        assert s[a] == g[i] && s[j + k] == e[k];
      }
    }
  }

  /** The grouped elements are as many as the long runs cover, all come
      from `s`, and keep the order of a sorted `s`. */
  lemma GroupedFacts<T>(s: seq<T>, runs: seq<int>, key: T -> int)
    requires Sum(runs) == |s|
    requires forall k :: 0 <= k < |runs| ==> runs[k] >= 1
    ensures |Grouped(s, runs)| == LongRunsTotal(runs)
    ensures forall x :: x in Grouped(s, runs) ==> x in s
    ensures SortedBy(s, key) ==> SortedBy(Grouped(s, runs), key)
  {
    GroupedMembers(s, runs);
    if SortedBy(s, key) {
      GroupedSorted(s, runs, key);
    }
  }

  /** Grouping one more run appends that run's elements when it is longer than one. */
  lemma GroupedStep<T>(s: seq<T>, runs: seq<int>, k: nat)
    requires Sum(runs) == |s| && k < |runs|
    requires forall i :: 0 <= i < |runs| ==> runs[i] >= 1
    ensures 0 <= Sum(runs[..k]) && Sum(runs[..k + 1]) == Sum(runs[..k]) + runs[k] <= |s|
    ensures Grouped(s[..Sum(runs[..k + 1])], runs[..k + 1]) ==
      Grouped(s[..Sum(runs[..k])], runs[..k]) +
      (if runs[k] > 1 then s[Sum(runs[..k])..Sum(runs[..k + 1])] else [])
  {
    var p := runs[..k + 1];
    PrefixRuns(runs, k, |s|);
    var j, n := Sum(runs[..k]), Sum(p);
    TakeDrop(s, j, n);
    GroupedLast(s[..n], p, j, k);
  }

  /** The loop both engines use to collect scoring cards: walk the runs
      with the offset `j` of the current run and append the elements of
      every run longer than one. */
  method GroupedWalk<T>(s: seq<T>, runs: seq<int>) returns (acc: seq<T>)
    requires Sum(runs) == |s|
    requires forall i :: 0 <= i < |runs| ==> runs[i] >= 1
    ensures acc == Grouped(s, runs)
  {
    acc := [];
    var j := 0;
    for k := 0 to |runs|
      invariant 0 <= j == Sum(runs[..k]) <= |s|
      invariant acc == Grouped(s[..j], runs[..k])
    {
      var n := runs[k];
      GroupedStep(s, runs, k);
      if n > 1 {
        acc := acc + s[j..j + n];
      }
      j := j + n;
    }
    assert runs[..|runs|] == runs;
    assert s[..j] == s;
  }

  /** The runs up to `k` are the runs up to `k - 1` and run `k`, and they
      cover a prefix of the sequence. */
  lemma PrefixRuns(runs: seq<int>, k: nat, len: int)
    requires Sum(runs) == len && k < |runs|
    requires forall i :: 0 <= i < |runs| ==> runs[i] >= 1
    ensures |runs[..k + 1]| == k + 1 && runs[..k + 1][..k] == runs[..k] && runs[..k + 1][k] == runs[k]
    ensures 0 <= Sum(runs[..k]) && Sum(runs[..k + 1]) == Sum(runs[..k]) + runs[k] <= len
  {
    var p := runs[..k + 1];
    assert p[..k] == runs[..k];
    SumNonneg(runs[..k]);
    SumSplit(runs, k + 1);
    SumNonneg(runs[k + 1..]);
  }

  /** A prefix one longer is the prefix and the next element. */
  lemma TakeNext<T>(s: seq<T>, n: int)
    requires 0 <= n < |s|
    ensures s[..n + 1] == s[..n] + [s[n]]
  {
  }

  /** A prefix of a prefix, and what lies between. */
  lemma TakeDrop<T>(s: seq<T>, j: int, n: int)
    requires 0 <= j <= n <= |s|
    ensures s[..n][..j] == s[..j] && s[..n][j..] == s[j..n]
  {
  }

  /** The last run of `p` starts at `j`, the total of the others. */
  lemma GroupedLast<T>(c: seq<T>, p: seq<int>, j: int, k: nat)
    requires |p| == k + 1 && Sum(p) == |c|
    requires forall i :: 0 <= i < |p| ==> p[i] >= 1
    requires j == Sum(p[..k])
    ensures 0 <= j <= |c|
    ensures Grouped(c, p) == Grouped(c[..j], p[..k]) + (if p[k] > 1 then c[j..] else [])
  {
    SumNonneg(p[..k]);
  }

  /** Reversing a sequence sorted by `key` gives one in descending order. */
  lemma ReverseDescending<T>(s: seq<T>, key: T -> int)
    requires SortedBy(s, key)
    ensures forall i, j :: 0 <= i < j < |s| ==> key(Reverse(s)[i]) >= key(Reverse(s)[j])
  {
  }
}

=== FILE: wrappers.dfy ===
/** An optional value: `None` stands for a result the source does not
    produce (an exception, an uninitialised variable, Python's `None`). */
module Wrappers {
  datatype Option<T> = None | Some(value: T)
}
